=== FILE: README.md ===
# series-learner, modelled in Dafny

series-learner is a single-user tracker for foreign-language TV series and
films. The learner logs watch sessions against titles, each title having a
language. The app keeps a "budget": minutes watched in the learning language
must cover the minutes watched in every other language. An optional password
gate sits in front of the whole app.

This project models the core of that system as pure Dafny functions over
immutable data and proves properties of it:

- **Pure helpers.** Resolving the minutes of one unit (`Tracking`), summing
  session totals (`Tracking.ComputeTitleTotals`), the budget arithmetic
  (`Budget`), rendering minutes as `1h 5m` (`Format`), and the language label
  fallback (`LanguageLabels`).
- **The password gate.** Hex encoding, constant-time comparison, the redirect
  target sanitiser, and session tokens (`AppGate`). The request gate itself is
  `Middleware`.
- **The database-backed handlers.** These cover titles, languages, the
  profile, watch logs and the dashboard summary (`Titles`, `Languages`,
  `Profiles`, `WatchLogs`, `Dashboard`). Each one runs over a `Store.Store`.
  The store holds one sequence per table in insertion order and a single id
  counter.
- **The store's invariant.** `Store.Consistent` states that every title's
  stored totals equal the sums over its own logs, and that ids are unique and
  below the counter. Every mutation is proved to preserve it.

Three representation choices run through the model:

- **JavaScript numbers.** At validation boundaries a number is
  `JsNumber.Number`: a finite real, NaN, or an infinity. Stored counters are
  natural numbers, because every writer validates them first.
- **`localeCompare`.** It is a parameter `strLe`. The sortedness lemmas assume
  it is a total order, or a total preorder.
- **Clocks, HMAC and randomness.** These are parameters too: `now`, `sign` and
  `nonce`.

Logging a session does not store the same default that it reports.
`WatchLogs.AddDefaultDivergence` shows this with a concrete store. It logs a
session dated before the title's newest session. The title then stores the
minutes of the new session as its default, while the reply reports the minutes
of the newest session. The model keeps this behaviour as written, because the
reply and the stored row are both observable. Nothing says which of the two
the authors meant.

## Model

| member | source | states |
|---|---|---|
| Tracking.ResolveUnitMinutes | src/lib/tracking.ts:8-29 | The explicit value wins over the fallback. Missing both is the "required" error. A non-integer (NaN included) is the "integer" error, and an integer outside [1, 400] is the "between 1 and 400" error. Success holds exactly when the chosen value is an integer in [1, 400], and the result is that value. |
| Tracking.ResolveExamples | src/lib/tracking.ts:8-29 | Concrete cases: bounds 1 and 400 accepted, 0 and 401 refused with the bounds message, 2.5 and NaN rejected as non-integers, the explicit value beats the fallback. |
| Tracking.ComputeTitleTotals | src/lib/tracking.ts:36-44 | The loop's unit and minute totals equal independently defined sums over the sessions. |
| Tracking.SumsConcat | src/lib/tracking.ts:36-44 | Totals of concatenated session lists add up, so summing is order-independent across a split. |
| Tracking.TotalsExamples | src/lib/tracking.ts:36-44 | The empty list totals zero; two sessions total their units and minutes. |
| Budget.CoverageHundredths | src/lib/budget.ts:27-32 | Without other-language minutes the coverage is 1 (or 0 with no learning minutes). Otherwise it is the hundredth nearest to learning/other. |
| Budget.CalculateBudgetSummary | src/lib/budget.ts:17-42 | Inputs are rounded and clamped at zero. Remaining plus other equals learning. Debt is the shortfall. The status is over budget exactly when debt is positive, exactly when other minutes exceed learning minutes. Coverage is as above. |
| Budget.BudgetExamples | src/lib/budget.ts:17-42 | 180/120 is within budget with 60 left; 90/135 is 45 over with coverage 0.67; 0/0 has coverage 0. |
| Budget.BudgetSanitises | src/lib/budget.ts:21-22 | A negative input becomes 0 and a fractional one is rounded before any arithmetic. |
| JsNumber.ClampRound | src/lib/budget.ts:21-22 | `Math.max(0, Math.round(x))`: 0 for non-positive x, otherwise the integer in (x - 1/2, x + 1/2]. |
| JsNumber.NatToDouble | src/lib/app-gate.ts:126-127 | `Number` of a decimal string: Infinity exactly from the overflow threshold on. Otherwise the result is an integer that is a multiple of the double spacing at that size, within half a spacing of the input. Below 2^53 it is exact. |
| JsNumber.PastTwoTo53Rounds | src/lib/app-gate.ts:126 | 2^53 + 1 reads as 2^53. |
| JsNumber.TenToThe309Overflows | src/lib/app-gate.ts:126-127 | 10^309 reads as Infinity. |
| Format.SafeMinutes | src/lib/format.ts:2 | Non-finite input is 0; finite input is rounded and clamped at zero. |
| Format.FormatMinutes | src/lib/format.ts:1-15 | Under an hour renders `Nm`, whole hours render `Nh`, everything else renders `Nh Mm`, from the sanitised minutes. |
| Format.FormatRoundTrip | src/lib/format.ts:1-15 | An independent parser reads every rendering back to the sanitised minute count. |
| Format.FormatInjective | src/lib/format.ts:1-15 | Equal renderings come only from equal sanitised minute counts. |
| Format.FormatExamples | src/lib/format.ts:1-15 | 45 is `45m`, 120 is `2h`, 135 is `2h 15m`, and -5 and NaN are `0m`. |
| AppGate.ToHex | src/lib/app-gate.ts:11-14 | Two lower-case hex digits per byte, high nibble first. |
| AppGate.ToHexInjective | src/lib/app-gate.ts:11-14 | Different byte strings never share an encoding. |
| AppGate.LowerHexIsHex | src/lib/app-gate.ts:9 | A non-empty lower-case hex string passes `isHex` and is unchanged by lower-casing. |
| AppGate.MismatchBits | src/lib/app-gate.ts:21-24 | The accumulated OR of per-character XORs is zero exactly on equal strings. |
| AppGate.TimingSafeStringEqual | src/lib/app-gate.ts:16-27 | True exactly when the two strings are equal; the length check and the XOR loop together decide equality. |
| AppGate.SanitizeNextPath | src/lib/app-gate.ts:79-89 | The result always starts with one `/` and never with `/unlock`. A safe input is returned unchanged; anything else becomes `/`. |
| AppGate.SanitizeIdempotent | src/lib/app-gate.ts:79-89 | Sanitising twice is sanitising once. |
| AppGate.SanitizeExamples | src/lib/app-gate.ts:79-89 | A missing path, absolute URLs, protocol-relative paths and the unlock page all go to `/`; an ordinary path with a query is kept. |
| AppGate.ExpiryText | src/lib/app-gate.ts:92-94 | The text of the expiry is plain digits exactly when the expiry as a double is finite, non-negative and below 10^21 (from 10^21 on `toString` switches to exponent notation, and overflow gives "Infinity"); plain digits read back as the expiry. |
| AppGate.CreateAppGateToken | src/lib/app-gate.ts:91-97 | The token is `expiry.nonce.signature`, where the expiry text renders issue time plus 30 days in milliseconds and the signature signs `expiry.nonce`. |
| AppGate.CreatedTokenParts | src/lib/app-gate.ts:91-97 | Splitting a created token on `.` gives the fields of the expiry text followed by the nonce hex and the signature hex: three fields for a plain-digit expiry, four for an exponent form with a point. |
| AppGate.VerifyAppGateToken | src/lib/app-gate.ts:99-133 | Accepts exactly when the token has three `.`-separated parts, a decimal expiry whose double value is finite and later than now, a 32-char hex nonce, and a signature that, lower-cased, is 64 hex chars equal to the signature of the first two parts. |
| AppGate.CreateVerifyRoundTrip | src/lib/app-gate.ts:91-133 | A freshly created token verifies exactly when its expiry as a double is non-negative, finite, below 10^21 (so written as plain digits), and later than now. |
| AppGate.CreateVerifyExact | src/lib/app-gate.ts:91-133 | With the expiry below 2^53, a created token verifies exactly when now is before the expiry. |
| AppGate.TokenExamples | src/lib/app-gate.ts:91-133 | A token is accepted five seconds after issue and refused five weeks after. |
| AppGate.ExpiredTokensRejected | src/lib/app-gate.ts:126-128 | Any token whose exact expiry is at or before now (below 2^53) is refused, whatever its signature. |
| AppGate.OverflowingExpiryRejected | src/lib/app-gate.ts:126-128 | Any token whose expiry reads as Infinity is refused. |
| AppGate.RoundedExpiryRejected | src/lib/app-gate.ts:126-128 | An expiry of 2^53 + 1 is refused at now = 2^53, because it rounds down to now. |
| Middleware.HasFileExtension | middleware.ts:19 | True exactly when some `.` before the last character has no `/` after it, i.e. `/\.[^/]+$/`. |
| Middleware.NoDotNoExtension | middleware.ts:19 | A path without a dot has no extension. |
| Middleware.FileExtensionExamples | middleware.ts:19 | `/logo.png` has one; `/v1.2/titles` and `/file.` do not. |
| Middleware.Decide | middleware.ts:33-68 | With no password the request passes. With a password but no secret the result is "misconfigured", and only then. Otherwise public paths and verified sessions pass. API and non-GET requests get 401. Page loads redirect to the unlock page with the sanitised `pathname + search`. |
| Middleware.FreshSessionPasses | middleware.ts:50-55 | With the gate configured, a request carrying an unexpired token made by `CreateAppGateToken` passes on any path and method. |
| Middleware.NoCookieRefused | middleware.ts:50-67 | With the gate configured, a non-public request without a cookie gets 401 exactly for API or non-GET requests, and a redirect exactly for page loads. |
| Middleware.ConfigurationExamples | middleware.ts:34-42 | A password without a secret is misconfigured even on public paths; a blank password disables the gate. |
| Strings.Trim | convex/titles.ts:7 | `String.prototype.trim`: the result is the input minus its leading and trailing whitespace, with no whitespace left at either end. |
| Strings.TrimIdempotent | convex/titles.ts:7 | Trimming twice is trimming once. |
| Languages.NormalizeLanguageCode | convex/languages.ts:5 | The result is a trimmed lower-case code as long as the trimmed input. It is empty exactly when the input is all whitespace. |
| Languages.NormalizeIdempotent | convex/languages.ts:5 | Normalising a normalised code changes nothing. |
| Languages.TrimEmpty | convex/languages.ts:28-37 | A string trims to empty exactly when every character is whitespace, which is when the "required" errors fire. |
| Languages.List | convex/languages.ts:7-20 | An empty table lists the two defaults. Otherwise the result is a permutation of the rows' `{code, label}` pairs. |
| Languages.ListSorted | convex/languages.ts:16-18 | The listed rows are in label order. |
| Languages.Upsert | convex/languages.ts:22-71 | Empty code and empty label are the two validation errors, checked in that order. On success the row for the normalised code carries the trimmed label and `now`, and the reply names that row. An existing row is replaced in place with only its label and `updatedAt` changed; otherwise exactly one row with the next id is appended. The other tables are unchanged. |
| Languages.UpsertPreservesUniqueness | convex/languages.ts:22-71 | Upserting keeps at most one row per code and unique row ids. |
| Languages.UpsertPreservesConsistency | convex/languages.ts:22-71 | Upserting a language keeps the store consistent: titles and logs are unchanged and the id counter does not decrease. |
| Languages.UpsertIdempotent | convex/languages.ts:22-71 | Repeating an upsert succeeds, adds no row, and returns the same reply. |
| Languages.UpsertRepeatMovesOnlyUpdatedAt | convex/languages.ts:22-71 | Repeating an upsert changes no row except possibly its `updatedAt`, and does not move the id counter. |
| Titles.EnsureLanguage | convex/titles.ts:9-37 | Afterwards the code has a row. A missing row is appended with the trimmed label, or the upper-cased code when the label is blank. An existing row with a different non-blank label is patched in place: only its label and `updatedAt` change, and every other row stays. The store is unchanged exactly when the row exists and no different non-blank label was given. |
| Titles.EnsureLanguageIdempotent | convex/titles.ts:9-37 | A second call with the same arguments changes nothing. |
| Titles.EnsureKeepsUniqueLanguages | convex/titles.ts:9-37 | One row per code and unique ids are preserved. |
| Titles.List | convex/titles.ts:39-79 | The result is a permutation of the local titles matching the normalised language, content type and archived filters. A blank language filter does not filter. |
| Titles.ListMembership | convex/titles.ts:55-77 | A title is listed exactly when it is stored and passes every given filter. |
| Titles.ListSorted | convex/titles.ts:67-77 | Under a total collation the listing is grouped by language code in collation order, most recently updated first within a code, then by name. |
| Titles.Create | convex/titles.ts:81-131 | Blank name, blank language and invalid initial minutes are the errors, in that order, and success holds exactly when none applies. The new title is local, unarchived, with zero totals, the trimmed name and the normalised code. It is appended to the titles. The language table is exactly what `ensureLanguage` makes of it, and the title takes the id after that. |
| Titles.CreatePreservesConsistency | convex/titles.ts:81-131 | Creating a title keeps the store consistent. |
| Titles.CreateThenRemove | convex/titles.ts:81-231 | Removing a just-created title succeeds, deletes no logs, and restores the original title table. |
| Titles.Update | convex/titles.ts:133-198 | A missing title, a blank name, a blank language code and invalid default minutes are the errors, each pinned to its message in that order, and success holds exactly when every supplied field is valid. Only the addressed title changes: its supplied fields are patched, others kept, and `updatedAt` becomes `now`. Every other title, every log and every profile is unchanged. With a new code the language table is exactly what `ensureLanguage` makes of it; without one it is unchanged. |
| Titles.PatchedTitle | convex/titles.ts:170-194 | The patch keeps id, owner, type and totals, and takes each supplied field (minutes cleared by an explicit null). |
| Titles.UpdateNothingTouches | convex/titles.ts:133-198 | An update with no fields succeeds and changes only the title's `updatedAt`. |
| Titles.UpdatePreservesConsistency | convex/titles.ts:133-198 | Updating a title keeps the store consistent. |
| Titles.Remove | convex/titles.ts:200-231 | A missing title is "not found" and a foreign title is a permission error, each exactly in its case. Success deletes the title and every one of its logs, reports how many logs went, and keeps all other titles. |
| Titles.RemoveKeepsOthersInOrder | convex/titles.ts:200-231 | With unique ids, removing a local title leaves exactly the other titles, in their original order. |
| Titles.RemovePreservesConsistency | convex/titles.ts:200-231 | Removing a title keeps the store consistent. |
| Store.ConsistentCreationOrdersUnique | convex/watchLogs.ts:18-23 | In a consistent store no two logs share a creation order, so the tie-break of the latest-log sort is total. |
| Store.FindUniqueTitle | convex/titles.ts:205 | With unique ids, looking up a stored title's id finds that very title. |
| WatchLogs.LatestLog | convex/watchLogs.ts:18-24 | There is no latest log exactly when there are no logs. Otherwise the result is a log that no other log of the list is later than, by `loggedAt` and then creation order. |
| WatchLogs.LatestUnique | convex/watchLogs.ts:18-24 | With distinct creation orders the latest log is unique. |
| WatchLogs.RecalculateTitleAggregates | convex/watchLogs.ts:6-31 | Totals are the sums over the title's own logs. The default minutes are absent exactly when the title has no logs, and otherwise are the minutes of its latest log. |
| WatchLogs.RecalculateIsLocal | convex/watchLogs.ts:10-13 | The aggregates read only the title's own logs. |
| WatchLogs.RecalculateAfterAppend | convex/watchLogs.ts:15-16 | One more log adds exactly its units and minutes to the totals. |
| WatchLogs.ResolveLogMinutes | convex/watchLogs.ts:86-100 | The explicit minutes win over the stored default. Missing both is the "first entry" error. Success holds exactly when the chosen value is an integer in [1, 400]. |
| WatchLogs.ResolveAgreesWithClient | convex/watchLogs.ts:86-100 | The server's resolution succeeds exactly when the client helper `resolveUnitMinutes` does, with the same value. |
| WatchLogs.Add | convex/watchLogs.ts:68-129 | A missing title, invalid units and invalid minutes are the errors, in that order. Success appends one local log of `units * minutes` and sets the title's totals to the recalculated sums. The title stores the resolved minutes as its default, and the reply is the new log id plus the aggregates. |
| WatchLogs.AppendLog | convex/watchLogs.ts:102-127 | The log is appended, the counter advances, other titles are untouched, and the title's totals become the recalculated ones. |
| WatchLogs.AddPreservesConsistency | convex/watchLogs.ts:68-129 | Logging a session keeps the store consistent. |
| WatchLogs.AddIncrementsTotals | convex/watchLogs.ts:115-122 | In a consistent store the title's totals grow by exactly the new log's units and minutes. |
| WatchLogs.AddDefaultDivergence | convex/watchLogs.ts:115-127 | Logging an older session stores its minutes as the title's default while the reply reports the newest session's minutes. |
| WatchLogs.Remove | convex/watchLogs.ts:131-167 | A missing log is "not found", exactly in that case. Success deletes that log only. The title's aggregates are recalculated, and a title that is gone leaves the titles unchanged with zero totals reported. |
| WatchLogs.RemovePreservesConsistency | convex/watchLogs.ts:131-167 | Deleting a log keeps the store consistent. |
| WatchLogs.AddThenRemove | convex/watchLogs.ts:68-167 | Deleting a just-logged session restores the log table and reports the title's totals from before the session. |
| WatchLogs.EffectiveLimit | convex/watchLogs.ts:38 | A positive finite limit is floored. An infinite one means no limit. Anything else (missing, zero, negative or NaN) means 20. |
| WatchLogs.LimitExamples | convex/watchLogs.ts:38 | 5 stays 5, 7.9 is 7, 0.5 is 0, and missing, 0, -3 and NaN all give 20. |
| WatchLogs.RecentWindow | convex/watchLogs.ts:40-44 | At most `limit` logs, each a stored local log. |
| WatchLogs.RecentWindowIsNewest | convex/watchLogs.ts:40-44 | The window holds `min(limit, local logs)` logs, newest first, and no local log left out is newer than one kept. |
| WatchLogs.Enrich | convex/watchLogs.ts:56-64 | A log joined with its title's name, type and language, or with "Unknown title", series and "unknown" when the title is gone. |
| WatchLogs.ListRecent | convex/watchLogs.ts:33-66 | The reply is the recent window, in order, each log enriched. |
| Profiles.DefaultProfile | convex/constants.ts:3-8 | The local learner's default profile learns Danish (`da`), with both timestamps set to the given instant. |
| Profiles.Get | convex/profile.ts:7-25 | The stored local profile, else the defaults with zero timestamps. |
| Profiles.SeedLanguages | convex/profile.ts:45-58 | Each default code without a row gets one. Rows are only appended, one id each. Every appended row is a default pair whose code had no row, stamped with `now`, and each such code is found with the label of its first default pair. Existing rows, their lookups and the other tables are untouched, and nothing changes when every default code already has a row. |
| Profiles.SeededDefaultLabels | convex/constants.ts:10-13 | The two default codes are distinct, so each default code that had no row is seeded with its own label. |
| Profiles.EnsureProfile | convex/profile.ts:33-44 | The default profile stamped with `now` is appended exactly when no local profile is stored, and is then what a lookup finds. Otherwise the store is unchanged, and the other tables are never touched. |
| Profiles.EnsureLocalSetup | convex/profile.ts:27-71 | Setup always succeeds. Titles and logs are untouched. The profile is inserted only when missing, and otherwise kept and returned. Every default code has a row afterwards. A code that had none gets its default label, stamped with `now`, and rows already present are kept and still found. |
| Profiles.SeedLanguagesSeedsDefaults | convex/profile.ts:46-58 | After seeding the default languages, every default code has a row, a code that had none carries its default label, rows are only appended, one id each, and codes that had a row are still found at it. |
| Profiles.EnsureLocalSetupIdempotent | convex/profile.ts:27-71 | Running setup again, at any later time, changes nothing and returns the same profile. |
| Profiles.SetLearningLanguage | convex/profile.ts:73-140 | Empty code and empty label are the errors, each exactly in its case, and success holds exactly when both are non-blank. Success points the local profile at the normalised code and trimmed label, stamps it with `now`, and leaves a language row for the code. |
| Profiles.PointProfile | convex/profile.ts:113-133 | The existing local profile is patched, or a default one inserted, so that it names the code and label. |
| Profiles.SetThenGet | convex/profile.ts:73-140 | After a successful change, reading the profile returns the normalised code and trimmed label, and the language row for that code carries the same label. |
| Profiles.SetLearningLanguageKeepsUniqueLanguages | convex/profile.ts:92-111 | Changing the learning language leaves exactly one row per language code and unique ids. |
| Profiles.SetupPreservesConsistency | convex/profile.ts:27-71 | Setup keeps the store consistent. |
| Profiles.SetLearningLanguagePreservesConsistency | convex/profile.ts:73-140 | Changing the learning language keeps the store consistent. |
| LanguageLabels.ToLanguageLabelIsCapitalizeSegments | convex/dashboard.ts:4-8 | The split, capitalise and join label equals an independent character-wise definition: upper-case exactly at the start of each `-` segment. |
| LanguageLabels.ToLanguageLabelIdempotent | convex/dashboard.ts:4-8 | Labelling a label changes nothing. |
| LanguageLabels.ToLanguageLabelExamples | convex/dashboard.ts:4-8 | `pt-br` is `Pt-Br` and `da` is `Da`. |
| Dashboard.LastLabel | convex/dashboard.ts:31-33 | The code-to-label map keeps the last row for a code; no label exactly when no row has the code. |
| Dashboard.TallyAllTallies | convex/dashboard.ts:45-61 | The per-language loop over the given titles yields exactly one entry per code that occurs. Each entry counts the titles of that code (at least one) and sums their minutes, labelled by the last stored row for the code or else the derived label. The entries' minutes add up to all the titles' minutes. |
| Dashboard.DashboardBudget | convex/dashboard.ts:77-85 | The dashboard's own remaining, debt, coverage and status equal the shared budget helper applied to its whole-minute sums. |
| Dashboard.TopTitles | convex/dashboard.ts:87-103 | At most eight titles, from the sort by minutes then name. |
| Dashboard.GetSummary | convex/dashboard.ts:10-140 | The profile's language, a permutation of the tallied totals, the budget of its own sums, at most 8 top titles, and the 12 newest local logs enriched with their titles. |
| Dashboard.SummaryMinutesBalance | convex/dashboard.ts:70-75 | Learning minutes are the unarchived titles' minutes in the learning language, and learning plus other minutes equal all unarchived minutes. |
| Dashboard.TallyBalance | convex/dashboard.ts:70-75 | For any titles, the learning code's entry holds exactly the minutes of that code's titles, and it plus the other entries' minutes equals all the titles' minutes. |
| Dashboard.SummaryTotalsSorted | convex/dashboard.ts:63-68 | Language totals are in descending minutes, ties by label. |
| Dashboard.TopTitlesAreTop | convex/dashboard.ts:87-103 | Top titles are in descending minutes, ties by name, and no unarchived title left out ranks above one shown. |

## Left out

- The web UI, the auth route handlers (`/api/auth/unlock`, `/api/auth/lock`), the argument validators, and `formatHoursDecimal`, `formatRatio` and `formatLoggedAt` are not part of this model.
- The Convex runtime is not modelled: indexes, transactions, concurrent mutations, and `_creationTime` as a clock. Tables are sequences in insertion order. A log's `creationOrder` comes from the store's id counter and stands in for `_creationTime`.
- Time is a parameter. Each mutation takes one `now` for all its `Date.now()` reads. In `watchLogs.add` (convex/watchLogs.ts:102,112,121) the source reads the clock up to three times, and those reads can differ.
- HMAC-SHA-256 and the random nonce are parameters: `sign` is the keyed HMAC as hex-able bytes and `nonce` the 16 random bytes. Key import and caching are left out.
- Middleware.Decide: the redirect target is the sanitised path. The `encodeURIComponent` applied to it (middleware.ts:63-65) is not modelled, so `d.next` is the unencoded string.
- Upper- and lower-casing are ASCII only. `toLowerCase` and `toUpperCase` also map non-ASCII letters (for example `É` to `é`). That affects `NormalizeLanguageCode`, `InsertedLabel` and `ToLanguageLabel` on non-ASCII input.
- `localeCompare` is the parameter `strLe`. The sortedness lemmas assume it is a total order (titles) or a total preorder (labels and names). The ICU collation itself is not modelled.
- Sorting is a stable insertion sort. The source's `Array.prototype.sort` is stable too, but the model does not claim to pick the same order among ties under a non-antisymmetric `strLe`.
- Budget.CoverageHundredths: the ratio is the nearest hundredth with ties rounded up. `toFixed(2)` on the binary double can round a decimal tie either way.
- CalculateBudgetSummary: takes real inputs, so NaN and infinite minutes are not modelled. In the source those make every field NaN and the status "within budget". The dashboard only ever passes whole-minute sums.
- Numbers are exact. Units, minutes, products (`units * resolvedUnitMinutes`, convex/watchLogs.ts:103) and the title and dashboard sums are unbounded integers. The source computes them in doubles, which lose precision beyond 2^53. `Number.isInteger` is exact on the model's reals.
- JsNumber.NatToDouble: models correctly rounded decimal-to-double conversion. ECMAScript lets implementations approximate once a literal has more than 20 significant digits.
- AppGate.CreateAppGateToken: `issuedAt` is an integer; the source accepts any number. Below 10^21 the expiry text is the exact decimal of `issuedAt + TTL`. `${expiresAt}` prints the shortest digits that read back as the rounded double, and above 2^53 those can differ from the exact sum (2^60 prints as 1152921504606847000). Both texts read back as the same double, so verification decides the same way. From 10^21 on the model writes the exponent form of the double's exact value, where the source writes its shortest digits; the token is refused in both.
- AppGate.CreateVerifyExact: stated only for expiries below 2^53. `CreateVerifyRoundTrip` covers the general case through `NatToDouble`.
- Profiles without a key other than the local one are never created, and only the first local profile is read.
- WatchLogs.EffectiveLimit: `take(Infinity)` is modelled as no limit (`None`).
- WatchLogs.Add: `loggedAt` is an optional integer. The source accepts any number (convex/watchLogs.ts:73, convex/schema.ts:46), including fractions, NaN and infinities. A NaN `loggedAt` makes the latest-log comparator (convex/watchLogs.ts:18-23) return NaN, and the order it then yields is not modelled. Fractional and infinite values are not modelled either.

=== FILE: app_gate.dfy ===
/**
 * The password gate's session tokens: "{expiresAt}.{nonce}.{signature}",
 * with a 16-byte random nonce and an HMAC-SHA-256 signature, both in hex.
 * Signing is a parameter (any deterministic function onto 32-byte digests)
 * and the nonce bytes are supplied by the caller.
 */
module AppGate {
  import opened Wrappers
  import opened Strings
  import opened JsNumber

  /** Session lifetime: thirty days. */
  const SessionTtlSeconds: int := 60 * 60 * 24 * 30
  const SessionTtlMillis: int := SessionTtlSeconds * 1000

  type Byte = x: int | 0 <= x < 256

  /** An HMAC-SHA-256 output. */
  type Digest = s: seq<Byte> | |s| == 32 witness seq(32, _ => 0)

  /** The random bytes of a nonce. */
  type NonceBytes = s: seq<Byte> | |s| == 16 witness seq(16, _ => 0)

  // ---------------------------------------------------------------------------
  // Hex
  // ---------------------------------------------------------------------------

  predicate IsLowerHexChar(c: char) {
    IsDigit(c) || 'a' <= c <= 'f'
  }

  /** One character of the class `[a-f0-9]` under the case-insensitive flag. */
  predicate IsHexChar(c: char) {
    IsDigit(c) || 'a' <= c <= 'f' || 'A' <= c <= 'F'
  }

  /** `isHex`: the regular expression `^[a-f0-9]+$` with the `i` flag. */
  predicate IsHex(s: string) {
    |s| > 0 && forall i :: 0 <= i < |s| ==> IsHexChar(s[i])
  }

  /** Lower-case hex digit of a nibble. */
  function HexDigit(d: nat): (c: char)
    requires d < 16
    ensures IsLowerHexChar(c) && HexValue(c) == d
  {
    if d < 10 then DigitChar(d) else ('a' as int + d - 10) as char
  }

  /** The nibble a lower-case hex digit stands for. */
  function HexValue(c: char): (d: nat)
    requires IsLowerHexChar(c)
    ensures d < 16
  {
    if IsDigit(c) then DigitValue(c) else c as int - 'a' as int + 10
  }

  /** `toHex`: two lower-case hex digits per byte, high nibble first. */
  function ToHex(bytes: seq<Byte>): (r: string)
    ensures |r| == 2 * |bytes|
    ensures forall i :: 0 <= i < |r| ==> IsLowerHexChar(r[i])
    ensures forall i :: 0 <= i < |bytes| ==> r[2 * i] == HexDigit(bytes[i] / 16) && r[2 * i + 1] == HexDigit(bytes[i] % 16)
  {
    if |bytes| == 0 then ""
    else
      var rest := ToHex(bytes[1..]);
      var r := [HexDigit(bytes[0] / 16), HexDigit(bytes[0] % 16)] + rest;
      assert forall i :: 1 <= i < |bytes| ==> bytes[i] == bytes[1..][i - 1];
      r
  }

  /** Distinct byte strings have distinct hex renderings. */
  lemma ToHexInjective(a: seq<Byte>, b: seq<Byte>)
    requires ToHex(a) == ToHex(b)
    ensures a == b
  {
    assert |a| == |b|;
    forall i | 0 <= i < |a|
      ensures a[i] == b[i]
    {
      var r := ToHex(a);
      assert HexValue(r[2 * i]) == a[i] / 16 && HexValue(r[2 * i + 1]) == a[i] % 16;
      assert HexValue(r[2 * i]) == b[i] / 16 && HexValue(r[2 * i + 1]) == b[i] % 16;
    }
  }

  /** Lower-case hex output is accepted by `isHex` and unchanged by `toLowerCase`. */
  lemma LowerHexIsHex(s: string)
    requires |s| > 0
    requires forall i :: 0 <= i < |s| ==> IsLowerHexChar(s[i])
    ensures IsHex(s)
    ensures ToLower(s) == s
  {
  }

  // ---------------------------------------------------------------------------
  // Constant-time comparison
  // ---------------------------------------------------------------------------

  /** `^` on non-negative integers, bit by bit from the lowest: zero exactly on equal operands. */
  function BitXor(a: nat, b: nat): (r: nat)
    ensures r == 0 <==> a == b
    decreases a + b
  {
    if a == 0 && b == 0 then 0
    else 2 * BitXor(a / 2, b / 2) + (if a % 2 != b % 2 then 1 else 0)
  }

  /** `|` on non-negative integers, bit by bit from the lowest: zero exactly when both operands are. */
  function BitOr(a: nat, b: nat): (r: nat)
    ensures r == 0 <==> a == 0 && b == 0
    decreases a + b
  {
    if a == 0 && b == 0 then 0
    else 2 * BitOr(a / 2, b / 2) + (if a % 2 == 1 || b % 2 == 1 then 1 else 0)
  }

  /** `charCodeAt`, as the character's code point. */
  function CharCode(c: char): nat {
    c as int
  }

  /** The accumulated `mismatch |= a[i] ^ b[i]` of the comparison loop: zero exactly on equal strings. */
  function MismatchBits(a: string, b: string): (m: nat)
    requires |a| == |b|
    ensures m == 0 <==> a == b
  {
    if |a| == 0 then 0
    else
      var n := |a| - 1;
      var prior := MismatchBits(a[..n], b[..n]);
      assert a == b <==> a[..n] == b[..n] && a[n] == b[n] by {
        assert a == a[..n] + [a[n]];
        assert b == b[..n] + [b[n]];
      }
      BitOr(prior, BitXor(CharCode(a[n]), CharCode(b[n])))
  }

  /** `timingSafeStringEqual`: a length check, then the full OR-of-XOR scan. */
  function TimingSafeStringEqual(left: string, right: string): (r: bool)
    ensures r <==> left == right
  {
    if |left| != |right| then false else MismatchBits(left, right) == 0
  }

  // ---------------------------------------------------------------------------
  // Next-path sanitising
  // ---------------------------------------------------------------------------

  /** A same-origin path that does not lead back to the unlock page. */
  predicate IsSafeNextPath(p: string) {
    StartsWith(p, "/") && !StartsWith(p, "//") && !StartsWith(p, "/unlock")
  }

  /** `sanitizeNextPath`: the input when it is a safe path, else the root. */
  function SanitizeNextPath(rawPath: Option<string>): (r: string)
    ensures IsSafeNextPath(r)
    ensures rawPath.Some? && IsSafeNextPath(rawPath.value) ==> r == rawPath.value
    ensures !(rawPath.Some? && IsSafeNextPath(rawPath.value)) ==> r == "/"
  {
    if rawPath.None? || |rawPath.value| == 0 || !StartsWith(rawPath.value, "/") || StartsWith(rawPath.value, "//") then
      "/"
    else if StartsWith(rawPath.value, "/unlock") then
      "/"
    else
      rawPath.value
  }

  /** Sanitising a sanitised path changes nothing. */
  lemma SanitizeIdempotent(rawPath: Option<string>)
    ensures SanitizeNextPath(Some(SanitizeNextPath(rawPath))) == SanitizeNextPath(rawPath)
  {
  }

  /** The worked cases of the gate's unit tests. */
  lemma SanitizeExamples()
    ensures SanitizeNextPath(None) == "/"
    ensures SanitizeNextPath(Some("https://evil.example")) == "/"
    ensures SanitizeNextPath(Some("//evil.example")) == "/"
    ensures SanitizeNextPath(Some("/unlock?next=/")) == "/"
    ensures SanitizeNextPath(Some("/dashboard?view=summary")) == "/dashboard?view=summary"
  {
    assert "https://evil.example"[..1] == "h";
    assert StartsWith("//evil.example", "//");
    assert StartsWith("/unlock?next=/", "/unlock");
    var p := "/dashboard?view=summary";
    assert StartsWith(p, "/") && !StartsWith(p, "//") && !StartsWith(p, "/unlock") by {
      assert p[..2] == "/d";
      assert p[..7] == "/dashbo";
    }
  }

  // ---------------------------------------------------------------------------
  // Tokens
  // ---------------------------------------------------------------------------

  /** `digits` without its trailing zeros, always keeping the first digit. */
  function DropTrailingZeros(digits: string): (r: string)
    requires |digits| > 0
    ensures 0 < |r| <= |digits| && r == digits[..|r|]
  {
    if |digits| > 1 && digits[|digits| - 1] == '0' then DropTrailingZeros(digits[..|digits| - 1]) else digits
  }

  /**
   * Exponent notation of a positive integer, the form `toString` uses from
   * 10^21 on: the first digit, then a point and the other significant digits
   * when there are any, then "e+" and the power of ten.
   */
  function ExponentText(n: nat): (r: string)
    requires n >= 1
    ensures !IsDigits(r)
  {
    var digits := NatToString(n);
    var significant := DropTrailingZeros(digits);
    var mantissa := if |significant| == 1 then significant else significant[..1] + "." + significant[1..];
    var r := mantissa + "e+" + NatToString(|digits| - 1);
    assert r[|mantissa|] == 'e';
    r
  }

  /**
   * `${m}` for the double nearest the natural number `m`: "Infinity" once it
   * overflows, exponent notation of the double from 10^21 on, and below that
   * the decimal digits of `m`.
   */
  function MagnitudeText(m: nat): (r: string)
    ensures IsDigits(r) <==> IsFinite(NatToDouble(m)) && NatToDouble(m).value < ExponentFormFrom as real
    ensures IsDigits(r) ==> DecimalValue(r) == m
  {
    var x := NatToDouble(m);
    if !IsFinite(x) then
      assert "Infinity"[0] == 'I';
      "Infinity"
    else if x.value < ExponentFormFrom as real then
      DecimalRoundTrip(m);
      NatToString(m)
    else
      ExponentText(x.value.Floor)
  }

  /**
   * `${expiresAt}` for the double sum `expiresAt = issuedAt + TTL`, whose
   * exact value is `n`: a minus sign before the text of a negative value.
   * The text is plain digits exactly when the double is finite, non-negative
   * and below 10^21, and then it reads back as `n`.
   */
  function ExpiryText(n: int): (r: string)
    ensures IsDigits(r) <==> 0 <= n && IsFinite(NatToDouble(n)) && NatToDouble(n).value < ExponentFormFrom as real
    ensures IsDigits(r) ==> DecimalValue(r) == n
  {
    if n >= 0 then MagnitudeText(n)
    else
      var r := "-" + MagnitudeText(-n);
      assert !IsDigit(r[0]);
      r
  }

  /** `createAppGateToken`: "{issuedAt + TTL}.{hex nonce}.{hex signature of the first two fields}". */
  function CreateAppGateToken(issuedAt: int, nonce: NonceBytes, sign: string -> Digest): (token: string)
    ensures var payload := ExpiryText(issuedAt + SessionTtlMillis) + "." + ToHex(nonce);
      token == payload + "." + ToHex(sign(payload))
  {
    var expiresAt := issuedAt + SessionTtlMillis;
    var payload := ExpiryText(expiresAt) + "." + ToHex(nonce);
    var signature := ToHex(sign(payload));
    payload + "." + signature
  }

  /** `verifyAppGateToken`: shape checks, then expiry, then the signature. */
  function VerifyAppGateToken(token: Option<string>, now: int, sign: string -> Digest): (r: bool)
    ensures r ==> token.Some? && |Split(token.value, '.')| == 3
    ensures r <==>
      && token.Some? && |Split(token.value, '.')| == 3
      && var parts := Split(token.value, '.');
      && IsDigits(parts[0])
      && |parts[1]| == 32 && IsHex(parts[1])
      && |parts[2]| == 64 && IsHex(ToLower(parts[2]))
      && IsFinite(NatToDouble(DecimalValue(parts[0])))
      && NatToDouble(DecimalValue(parts[0])).value > now as real
      && ToLower(parts[2]) == ToHex(sign(parts[0] + "." + parts[1]))
  {
    if token.None? || |token.value| == 0 then false
    else
      var parts := Split(token.value, '.');
      if |parts| != 3 then false
      else
        var expiresAtRaw := parts[0];
        var nonce := parts[1];
        var signatureRaw := parts[2];
        if !IsDigits(expiresAtRaw) then false
        else if |nonce| != 32 || !IsHex(nonce) then false
        else
          var signature := ToLower(signatureRaw);
          if |signature| != 64 || !IsHex(signature) then false
          else
            var expiresAt := NatToDouble(DecimalValue(expiresAtRaw));
            if !IsFinite(expiresAt) || expiresAt.value <= now as real then false
            else
              var expectedSignature := ToHex(sign(expiresAtRaw + "." + nonce));
              TimingSafeStringEqual(expectedSignature, signature)
  }

  /**
   * A created token splits into the fields of its expiry text followed by
   * the nonce and the signature: three fields while the expiry is written
   * without a point, four for an exponent form such as "1.5e+21".
   */
  lemma CreatedTokenParts(issuedAt: int, nonce: NonceBytes, sign: string -> Digest)
    ensures var e := ExpiryText(issuedAt + SessionTtlMillis);
      var n := ToHex(nonce);
      Split(CreateAppGateToken(issuedAt, nonce, sign), '.') == Split(e, '.') + [n, ToHex(sign(e + "." + n))]
  {
    var e := ExpiryText(issuedAt + SessionTtlMillis);
    var n := ToHex(nonce);
    var s := ToHex(sign(e + "." + n));
    assert '.' !in n;
    assert '.' !in s;
    SplitOfField(s, '.');
    SplitAtFirst(n, '.', s);
    assert e + "." + n + "." + s == e + ['.'] + (n + ['.'] + s);
    SplitAround(e, '.', n + ['.'] + s);
  }

  /**
   * A freshly created token verifies exactly while it is unexpired: while
   * `now` is below its expiry as a double, and only when that double is
   * written as plain digits, that is non-negative and below 10^21.
   */
  lemma CreateVerifyRoundTrip(issuedAt: int, nonce: NonceBytes, sign: string -> Digest, now: int)
    ensures VerifyAppGateToken(Some(CreateAppGateToken(issuedAt, nonce, sign)), now, sign)
      <==> && 0 <= issuedAt + SessionTtlMillis
           && IsFinite(NatToDouble(issuedAt + SessionTtlMillis))
           && NatToDouble(issuedAt + SessionTtlMillis).value < ExponentFormFrom as real
           && now as real < NatToDouble(issuedAt + SessionTtlMillis).value
  {
    var expiresAt := issuedAt + SessionTtlMillis;
    var e := ExpiryText(expiresAt);
    var n := ToHex(nonce);
    var s := ToHex(sign(e + "." + n));
    CreatedTokenParts(issuedAt, nonce, sign);
    var token := CreateAppGateToken(issuedAt, nonce, sign);
    var parts := Split(token, '.');
    assert |token| > 0;
    if IsDigits(e) {
      assert '.' !in e by {
        assert forall i :: 0 <= i < |e| ==> IsDigit(e[i]);
      }
      SplitOfField(e, '.');
      assert parts == [e, n, s];
      LowerHexIsHex(n);
      LowerHexIsHex(s);
    } else if |Split(e, '.')| == 1 {
      JoinSplit(e, '.');
      assert parts[0] == e;
    }
  }

  /** Below 2^53 the expiry is exact: a fresh token verifies exactly until issue time plus thirty days. */
  lemma CreateVerifyExact(issuedAt: int, nonce: NonceBytes, sign: string -> Digest, now: int)
    requires issuedAt + SessionTtlMillis < TwoTo53
    ensures VerifyAppGateToken(Some(CreateAppGateToken(issuedAt, nonce, sign)), now, sign)
      <==> 0 <= issuedAt + SessionTtlMillis && now < issuedAt + SessionTtlMillis
  {
    CreateVerifyRoundTrip(issuedAt, nonce, sign, now);
  }

  /** The worked cases of the gate's unit tests: valid five seconds in, expired after 3e9 ms. */
  lemma TokenExamples(nonce: NonceBytes, sign: string -> Digest)
    ensures VerifyAppGateToken(Some(CreateAppGateToken(1_700_000_000_000, nonce, sign)), 1_700_000_005_000, sign)
    ensures !VerifyAppGateToken(Some(CreateAppGateToken(1_700_000_000_000, nonce, sign)), 1_703_000_000_000, sign)
  {
    CreateVerifyExact(1_700_000_000_000, nonce, sign, 1_700_000_005_000);
    CreateVerifyExact(1_700_000_000_000, nonce, sign, 1_703_000_000_000);
  }

  /** A token is rejected once `now`, a clock reading below 2^53, reaches its expiry, whatever its signature. */
  lemma ExpiredTokensRejected(token: string, now: int, sign: string -> Digest)
    requires |Split(token, '.')| == 3 && IsDigits(Split(token, '.')[0])
    requires DecimalValue(Split(token, '.')[0]) <= now < TwoTo53
    ensures !VerifyAppGateToken(Some(token), now, sign)
  {
  }

  /** An expiry too large for a double reads as `Infinity`, which `Number.isFinite` rejects. */
  lemma OverflowingExpiryRejected(token: string, now: int, sign: string -> Digest)
    requires |Split(token, '.')| == 3 && IsDigits(Split(token, '.')[0])
    requires DecimalValue(Split(token, '.')[0]) >= OverflowThreshold
    ensures !VerifyAppGateToken(Some(token), now, sign)
  {
  }

  /**
   * The expiry is compared after rounding to a double: an expiry of 2^53 + 1
   * reads as 2^53, so at `now` = 2^53 the token is already expired.
   */
  lemma RoundedExpiryRejected(token: string, sign: string -> Digest)
    requires |Split(token, '.')| == 3 && IsDigits(Split(token, '.')[0])
    requires DecimalValue(Split(token, '.')[0]) == 9007199254740993
    ensures !VerifyAppGateToken(Some(token), 9007199254740992, sign)
  {
    PastTwoTo53Rounds();
  }
}

=== FILE: budget.dfy ===
/** The learning-versus-other-languages budget. */
module Budget {
  import opened JsNumber

  datatype BudgetStatus = WithinBudget | OverBudget

  /**
   * `BudgetResult`. The coverage ratio is kept as whole hundredths: the
   * source's two-decimal ratio times one hundred.
   */
  datatype BudgetResult = BudgetResult(
    learningMinutes: nat,
    nonLearningMinutes: nat,
    remainingBudgetMinutes: int,
    debtMinutes: nat,
    coverageHundredths: nat,
    status: BudgetStatus)

  /** Whether `c` hundredths is `l / n` rounded to the nearest hundredth, halves up. */
  predicate IsNearestHundredth(c: int, l: int, n: int)
    requires n > 0
  {
    2 * c * n - n <= 200 * l < 2 * c * n + n
  }

  /** `Number((l / n).toFixed(2))` in hundredths, for a positive denominator. */
  function RatioHundredths(l: nat, n: nat): (c: nat)
    requires n > 0
    ensures IsNearestHundredth(c, l, n)
  {
    (200 * l + n) / (2 * n)
  }

  /** The coverage ratio in hundredths: 1 or 0 without other-language minutes. */
  function CoverageHundredths(l: nat, n: nat): (c: nat)
    ensures n == 0 ==> c == (if l > 0 then 100 else 0)
    ensures n > 0 ==> IsNearestHundredth(c, l, n)
  {
    if n == 0 then (if l > 0 then 100 else 0) else RatioHundredths(l, n)
  }

  /** `calculateBudgetSummary`: total over every finite input, nothing is rejected. */
  function CalculateBudgetSummary(learningMinutes: real, nonLearningMinutes: real): (r: BudgetResult)
    ensures r.learningMinutes == ClampRound(learningMinutes)
    ensures r.nonLearningMinutes == ClampRound(nonLearningMinutes)
    ensures r.remainingBudgetMinutes + r.nonLearningMinutes == r.learningMinutes
    ensures r.debtMinutes == if r.remainingBudgetMinutes < 0 then -r.remainingBudgetMinutes else 0
    ensures r.status == OverBudget <==> r.debtMinutes > 0
    ensures r.status == OverBudget <==> r.nonLearningMinutes > r.learningMinutes
    ensures r.nonLearningMinutes == 0 ==> r.coverageHundredths == (if r.learningMinutes > 0 then 100 else 0)
    ensures r.nonLearningMinutes > 0 ==>
      IsNearestHundredth(r.coverageHundredths, r.learningMinutes, r.nonLearningMinutes)
  {
    var safeLearning := ClampRound(learningMinutes);
    var safeNonLearning := ClampRound(nonLearningMinutes);
    var remaining := safeLearning - safeNonLearning;
    var debt := if safeNonLearning - safeLearning > 0 then safeNonLearning - safeLearning else 0;
    BudgetResult(
      safeLearning,
      safeNonLearning,
      remaining,
      debt,
      CoverageHundredths(safeLearning, safeNonLearning),
      if debt > 0 then OverBudget else WithinBudget)
  }

  /** The three worked cases of the budget unit tests. */
  lemma BudgetExamples()
    ensures var r := CalculateBudgetSummary(180.0, 120.0);
      r.status == WithinBudget && r.remainingBudgetMinutes == 60 && r.debtMinutes == 0
    ensures var r := CalculateBudgetSummary(90.0, 135.0);
      && r.status == OverBudget && r.remainingBudgetMinutes == -45 && r.debtMinutes == 45
      && r.coverageHundredths == 67
    ensures var r := CalculateBudgetSummary(0.0, 0.0);
      r.status == WithinBudget && r.coverageHundredths == 0 && r.remainingBudgetMinutes == 0
  {
    ClampRoundOfNat(180);
    ClampRoundOfNat(120);
    ClampRoundOfNat(90);
    ClampRoundOfNat(135);
    ClampRoundOfNat(0);
  }

  /** Negative or fractional inputs are sanitised, never rejected. */
  lemma BudgetSanitises()
    ensures var r := CalculateBudgetSummary(-30.0, 10.4);
      r.learningMinutes == 0 && r.nonLearningMinutes == 10 && r.debtMinutes == 10
  {
  }
}

=== FILE: constants.dfy ===
/** Configuration constants shared by the backend and the client. */
module Constants {

  /** Inclusive bounds on minutes per watched unit. */
  const MinUnitMinutes: int := 1
  const MaxUnitMinutes: int := 400

  /** The single owner key of this single-user deployment. */
  const LocalOwnerKey: string := "local"

  /** The profile assumed when none is stored. */
  const DefaultDisplayName: string := "Local Learner"
  const DefaultLearningLanguageCode: string := "da"
  const DefaultLearningLanguageLabel: string := "Danish"

  /** The language rows seeded on first run, in seeding order. */
  const DefaultLanguages: seq<(string, string)> := [("da", "Danish"), ("en", "English")]

  /** Whether an integer lies within the unit-minute bounds. */
  predicate InUnitBounds(n: int) {
    MinUnitMinutes <= n <= MaxUnitMinutes
  }
}

=== FILE: dashboard.dfy ===
/**
 * The dashboard summary: minutes per language over the active titles, the
 * learning-versus-other budget, the top titles and the latest activity.
 */
module Dashboard {
  import opened Wrappers
  import opened Constants
  import opened Strings
  import opened Seqs
  import opened Store
  import opened Budget
  import opened JsNumber
  import WatchLogs
  import Profiles
  import opened LanguageLabels

  const TopTitleCount: nat := 8
  const RecentLogCount: nat := 12

  // ---------------------------------------------------------------------------
  // Per-language totals
  // ---------------------------------------------------------------------------

  /** One entry of `totalsByLanguage`. */
  datatype LanguageTotal = LanguageTotal(languageCode: string, languageLabel: string, totalMinutes: nat, titleCount: nat)

  /**
   * `new Map(languages.map(l => [l.code, l.label])).get(code)`: building the
   * map lets a later row overwrite an earlier one, so the last row wins.
   */
  function LastLabel(languages: seq<Language>, code: string): (r: Option<string>)
    ensures r.None? <==> forall i :: 0 <= i < |languages| ==> languages[i].code != code
    ensures r.Some? ==> exists i ::
      && 0 <= i < |languages| && languages[i].code == code && languages[i].labelText == r.value
      && forall j :: i < j < |languages| ==> languages[j].code != code
  {
    if |languages| == 0 then None
    else
      var n := |languages| - 1;
      if languages[n].code == code then Some(languages[n].labelText)
      else LastLabel(languages[..n], code)
  }

  /** With one row per code, the last row with a code is the first one. */
  lemma LastLabelOfUnique(languages: seq<Language>, code: string)
    requires UniqueLanguages(languages)
    ensures FindLanguage(languages, code).None? ==> LastLabel(languages, code).None?
    ensures FindLanguage(languages, code).Some? ==> LastLabel(languages, code) == Some(FindLanguage(languages, code).value.labelText)
  {
    if FindLanguage(languages, code).Some? {
      var l := FindLanguage(languages, code).value;
      var k :| 0 <= k < |languages| && languages[k] == l;
      var i :| 0 <= i < |languages| && languages[i].code == code && languages[i].labelText == LastLabel(languages, code).value
        && forall j :: i < j < |languages| ==> languages[j].code != code;
      assert i == k;
    }
  }

  /** A code's label: the stored label, else the code capitalised segment by segment. */
  function LabelFor(languages: seq<Language>, code: string): string {
    match LastLabel(languages, code)
    case Some(l) => l
    case None => ToLanguageLabel(code)
  }

  /** `totalsByLanguageMap.get(code)`, as the entry's position. */
  function IndexOfCode(totals: seq<LanguageTotal>, code: string): (r: Option<nat>)
    ensures r.Some? ==> r.value < |totals| && totals[r.value].languageCode == code
    ensures r.None? ==> forall i :: 0 <= i < |totals| ==> totals[i].languageCode != code
  {
    if |totals| == 0 then None
    else if totals[0].languageCode == code then Some(0)
    else
      match IndexOfCode(totals[1..], code)
      case Some(i) => Some(i + 1)
      case None => None
  }

  /** A title's minutes and one more title added to an entry. */
  function Grown(e: LanguageTotal, t: Title): LanguageTotal {
    e.(totalMinutes := e.totalMinutes + t.totalMinutes, titleCount := e.titleCount + 1)
  }

  /** The first entry of a title's code. */
  function Started(t: Title, languages: seq<Language>): LanguageTotal {
    LanguageTotal(t.languageCode, LabelFor(languages, t.languageCode), t.totalMinutes, 1)
  }

  /** One iteration of the loop: add a title to its language's entry, creating the entry at the end. */
  function Tally(totals: seq<LanguageTotal>, t: Title, languages: seq<Language>): seq<LanguageTotal> {
    match IndexOfCode(totals, t.languageCode)
    case Some(i) => totals[i := Grown(totals[i], t)]
    case None => totals + [Started(t, languages)]
  }

  /** The loop over the active titles; entries stay in the order their codes first appear. */
  function TallyAll(titles: seq<Title>, languages: seq<Language>): seq<LanguageTotal> {
    if |titles| == 0 then []
    else Tally(TallyAll(titles[..|titles| - 1], languages), titles[|titles| - 1], languages)
  }

  function HasCode(code: string): Title -> bool {
    (t: Title) => t.languageCode == code
  }

  function TitleMinutes(): Title -> int {
    (t: Title) => t.totalMinutes
  }

  function EntryMinutes(): LanguageTotal -> int {
    (e: LanguageTotal) => e.totalMinutes
  }

  /** An entry holds the sum and count of the titles with its code, and the code's label. */
  predicate EntryMeans(e: LanguageTotal, titles: seq<Title>, languages: seq<Language>) {
    && e.totalMinutes == SumBy(Filter(titles, HasCode(e.languageCode)), TitleMinutes())
    && e.titleCount == |Filter(titles, HasCode(e.languageCode))|
    && e.titleCount >= 1
    && e.languageLabel == LabelFor(languages, e.languageCode)
  }

  predicate UniqueCodes(totals: seq<LanguageTotal>) {
    forall i, j :: 0 <= i < j < |totals| ==> totals[i].languageCode != totals[j].languageCode
  }

  /** Every title's code has an entry. */
  predicate Covers(totals: seq<LanguageTotal>, titles: seq<Title>) {
    forall k :: 0 <= k < |titles| ==> IndexOfCode(totals, titles[k].languageCode).Some?
  }

  /**
   * What the per-language entries mean: one entry per code, each holding
   * the sum and the count of the titles with that code and the code's
   * label; every title's code has an entry; nothing is lost or counted twice.
   */
  predicate Tallies(totals: seq<LanguageTotal>, titles: seq<Title>, languages: seq<Language>) {
    && UniqueCodes(totals)
    && (forall i :: 0 <= i < |totals| ==> EntryMeans(totals[i], titles, languages))
    && Covers(totals, titles)
    && SumBy(totals, EntryMinutes()) == SumBy(titles, TitleMinutes())
  }

  /** The loop establishes the meaning of the entries. */
  lemma TallyAllTallies(titles: seq<Title>, languages: seq<Language>)
    ensures Tallies(TallyAll(titles, languages), titles, languages)
  {
    TallyAllUnique(titles, languages);
    TallyAllCovers(titles, languages);
    TallyAllEntries(titles, languages);
    TallyAllSum(titles, languages);
  }

  lemma {:induction false} TallyAllUnique(titles: seq<Title>, languages: seq<Language>)
    ensures UniqueCodes(TallyAll(titles, languages))
  {
    if |titles| > 0 {
      var n := |titles| - 1;
      TallyAllUnique(titles[..n], languages);
      TallyKeepsUnique(TallyAll(titles[..n], languages), titles[n], languages);
    }
  }

  lemma {:induction false} TallyAllCovers(titles: seq<Title>, languages: seq<Language>)
    ensures Covers(TallyAll(titles, languages), titles)
  {
    if |titles| > 0 {
      var n := |titles| - 1;
      TallyAllCovers(titles[..n], languages);
      TallyKeepsCover(TallyAll(titles[..n], languages), titles[..n], titles[n], languages);
      FrontLast(titles);
    }
  }

  lemma {:induction false} TallyAllEntries(titles: seq<Title>, languages: seq<Language>)
    ensures forall i :: 0 <= i < |TallyAll(titles, languages)| ==> EntryMeans(TallyAll(titles, languages)[i], titles, languages)
  {
    if |titles| > 0 {
      var n := |titles| - 1;
      var front := titles[..n];
      var totals := TallyAll(front, languages);
      TallyAllEntries(front, languages);
      TallyAllUnique(front, languages);
      TallyAllCovers(front, languages);
      TallyKeepsEntries(totals, front, titles[n], languages);
      FrontLast(titles);
      assert TallyAll(titles, languages) == Tally(totals, titles[n], languages);
    }
  }

  lemma {:induction false} TallyAllSum(titles: seq<Title>, languages: seq<Language>)
    ensures SumBy(TallyAll(titles, languages), EntryMinutes()) == SumBy(titles, TitleMinutes())
  {
    if |titles| > 0 {
      var n := |titles| - 1;
      TallyAllSum(titles[..n], languages);
      TallyKeepsSum(TallyAll(titles[..n], languages), titles[..n], titles[n], languages);
      FrontLast(titles);
    }
  }

  lemma TallyKeepsUnique(totals: seq<LanguageTotal>, t: Title, languages: seq<Language>)
    requires UniqueCodes(totals)
    ensures UniqueCodes(Tally(totals, t, languages))
  {
    match IndexOfCode(totals, t.languageCode)
    case Some(j) =>
      var totals' := totals[j := Grown(totals[j], t)];
      assert forall i :: 0 <= i < |totals| ==> totals'[i].languageCode == totals[i].languageCode;
    case None =>
  }

  /** A title added to the loop changes exactly its code's entry, or starts one. */
  lemma TallyKeepsEntries(totals: seq<LanguageTotal>, titles: seq<Title>, t: Title, languages: seq<Language>)
    requires UniqueCodes(totals) && Covers(totals, titles)
    requires forall i :: 0 <= i < |totals| ==> EntryMeans(totals[i], titles, languages)
    ensures var totals' := Tally(totals, t, languages);
      forall i :: 0 <= i < |totals'| ==> EntryMeans(totals'[i], titles + [t], languages)
  {
    var totals' := Tally(totals, t, languages);
    forall i | 0 <= i < |totals'|
      ensures EntryMeans(totals'[i], titles + [t], languages)
    {
      match IndexOfCode(totals, t.languageCode)
      case Some(j) =>
        if i == j {
          EntryGrown(totals[j], titles, t, languages);
        } else {
          EntryUnchanged(totals[i], titles, t, languages);
        }
      case None =>
        if i < |totals| {
          EntryUnchanged(totals[i], titles, t, languages);
        } else {
          NoTitleWithUncoveredCode(totals, titles, t.languageCode);
          EntryStarted(titles, t, languages);
        }
    }
  }

  lemma EntryUnchanged(e: LanguageTotal, titles: seq<Title>, t: Title, languages: seq<Language>)
    requires EntryMeans(e, titles, languages) && e.languageCode != t.languageCode
    ensures EntryMeans(e, titles + [t], languages)
  {
    FilterSnoc(titles, t, HasCode(e.languageCode));
    assert !HasCode(e.languageCode)(t);
    assert Filter(titles + [t], HasCode(e.languageCode)) == Filter(titles, HasCode(e.languageCode));
  }

  lemma EntryGrown(e: LanguageTotal, titles: seq<Title>, t: Title, languages: seq<Language>)
    requires EntryMeans(e, titles, languages) && e.languageCode == t.languageCode
    ensures EntryMeans(Grown(e, t), titles + [t], languages)
  {
    FilterSnoc(titles, t, HasCode(e.languageCode));
    SumBySnoc(Filter(titles, HasCode(e.languageCode)), t, TitleMinutes());
  }

  lemma EntryStarted(titles: seq<Title>, t: Title, languages: seq<Language>)
    requires forall k :: 0 <= k < |titles| ==> !HasCode(t.languageCode)(titles[k])
    ensures EntryMeans(Started(t, languages), titles + [t], languages)
  {
    FilterSnoc(titles, t, HasCode(t.languageCode));
    FilterNone(titles, HasCode(t.languageCode));
    SumBySnoc(Filter(titles, HasCode(t.languageCode)), t, TitleMinutes());
  }

  /** A code without an entry belongs to no title the entries cover. */
  lemma NoTitleWithUncoveredCode(totals: seq<LanguageTotal>, titles: seq<Title>, code: string)
    requires Covers(totals, titles) && IndexOfCode(totals, code).None?
    ensures forall k :: 0 <= k < |titles| ==> !HasCode(code)(titles[k])
  {
    forall k | 0 <= k < |titles|
      ensures titles[k].languageCode != code
    {
      assert IndexOfCode(totals, titles[k].languageCode).Some?;
    }
  }

  lemma TallyKeepsCover(totals: seq<LanguageTotal>, titles: seq<Title>, t: Title, languages: seq<Language>)
    requires Covers(totals, titles)
    ensures Covers(Tally(totals, t, languages), titles + [t])
  {
    var titles' := titles + [t];
    var totals' := Tally(totals, t, languages);
    forall k | 0 <= k < |titles'|
      ensures IndexOfCode(totals', titles'[k].languageCode).Some?
    {
      var c := titles'[k].languageCode;
      if k < |titles| {
        assert titles'[k] == titles[k];
        var j := IndexOfCode(totals, c).value;
        assert totals'[j].languageCode == c;
      } else if IndexOfCode(totals, c).None? {
        assert totals'[|totals|].languageCode == c;
      } else {
        var j := IndexOfCode(totals, c).value;
        assert totals'[j].languageCode == c;
      }
    }
  }

  lemma TallyKeepsSum(totals: seq<LanguageTotal>, titles: seq<Title>, t: Title, languages: seq<Language>)
    requires SumBy(totals, EntryMinutes()) == SumBy(titles, TitleMinutes())
    ensures SumBy(Tally(totals, t, languages), EntryMinutes()) == SumBy(titles + [t], TitleMinutes())
  {
    SumBySnoc(titles, t, TitleMinutes());
    match IndexOfCode(totals, t.languageCode)
    case Some(i) =>
      SumByUpdate(totals, i, Grown(totals[i], t), EntryMinutes());
    case None =>
      SumBySnoc(totals, Started(t, languages), EntryMinutes());
  }

  /** No title with a code means no title survives filtering by it. */
  lemma FilterNone(titles: seq<Title>, p: Title -> bool)
    requires forall k :: 0 <= k < |titles| ==> !p(titles[k])
    ensures Filter(titles, p) == []
  {
  }

  // ---------------------------------------------------------------------------
  // The budget figures
  // ---------------------------------------------------------------------------

  function NotCode(code: string): LanguageTotal -> bool {
    (e: LanguageTotal) => e.languageCode != code
  }

  /** The shape of both dashboard comparators: more minutes first, equal minutes by collation of the text. */
  predicate MinutesThenText(strLe: (string, string) -> bool, m1: nat, s1: string, m2: nat, s2: string) {
    if m1 != m2 then m1 > m2 else strLe(s1, s2)
  }

  /** `totalsByLanguage`'s comparator: most minutes first, then label by collation. */
  function ByMinutesThenLabel(strLe: (string, string) -> bool): (LanguageTotal, LanguageTotal) -> bool {
    (a: LanguageTotal, b: LanguageTotal) =>
      MinutesThenText(strLe, a.totalMinutes, a.languageLabel, b.totalMinutes, b.languageLabel)
  }

  /** `totalsByLanguageMap.get(learningCode)?.totalMinutes ?? 0`. */
  function LearningMinutes(totals: seq<LanguageTotal>, code: string): nat {
    match IndexOfCode(totals, code)
    case Some(i) => totals[i].totalMinutes
    case None => 0
  }

  /** The sorted entries of other codes, summed. */
  function NonLearningMinutes(sorted: seq<LanguageTotal>, code: string): nat {
    var others := Filter(sorted, NotCode(code));
    SumByNonNegative(others, EntryMinutes());
    SumBy(others, EntryMinutes())
  }

  /**
   * The dashboard's own budget arithmetic on whole minutes: remaining is
   * learning minus other, debt is the shortfall, coverage is 1 or 0 without
   * other minutes and the two-decimal ratio otherwise.
   */
  function DashboardBudget(learning: nat, nonLearning: nat): (r: BudgetResult)
    ensures r == CalculateBudgetSummary(learning as real, nonLearning as real)
  {
    ClampRoundOfNat(learning);
    ClampRoundOfNat(nonLearning);
    var remaining := learning - nonLearning;
    var debt := if nonLearning - learning > 0 then nonLearning - learning else 0;
    BudgetResult(learning, nonLearning, remaining, debt, CoverageHundredths(learning, nonLearning),
      if debt > 0 then OverBudget else WithinBudget)
  }

  // ---------------------------------------------------------------------------
  // summary
  // ---------------------------------------------------------------------------

  /** One entry of `topTitles`. */
  datatype TopTitle = TopTitle(id: Id, name: string, contentType: ContentType, languageCode: string,
                               totalUnits: nat, totalMinutes: nat)

  function ToTopTitle(t: Title): TopTitle {
    TopTitle(t.id, t.name, t.contentType, t.languageCode, t.totalUnits, t.totalMinutes)
  }

  /** `topTitles`' comparator: most minutes first, then name by collation. */
  function ByMinutesThenName(strLe: (string, string) -> bool): (Title, Title) -> bool {
    (a: Title, b: Title) => MinutesThenText(strLe, a.totalMinutes, a.name, b.totalMinutes, b.name)
  }

  function IsLocalTitle(): Title -> bool {
    (t: Title) => t.ownerKey == LocalOwnerKey
  }

  function IsActive(): Title -> bool {
    (t: Title) => !t.archived
  }

  /** The local titles that are not archived, in table order. */
  function ActiveTitles(st: Store): seq<Title> {
    Filter(Filter(st.titles, IsLocalTitle()), IsActive())
  }

  function TopTitles(active: seq<Title>, strLe: (string, string) -> bool): (r: seq<TopTitle>)
    ensures |r| == |Take(Sort(active, ByMinutesThenName(strLe)), TopTitleCount)|
    ensures forall i :: 0 <= i < |r| ==> r[i] == ToTopTitle(Take(Sort(active, ByMinutesThenName(strLe)), TopTitleCount)[i])
  {
    var top := Take(Sort(active, ByMinutesThenName(strLe)), TopTitleCount);
    seq(|top|, i requires 0 <= i < |top| => ToTopTitle(top[i]))
  }

  datatype Summary = Summary(
    learningLanguageCode: string,
    learningLanguageLabel: string,
    budget: BudgetResult,
    totalsByLanguage: seq<LanguageTotal>,
    topTitles: seq<TopTitle>,
    recentLogs: seq<WatchLogs.RecentLog>)

  /** `summary`. `strLe` is the collation behind `localeCompare`. */
  function GetSummary(st: Store, strLe: (string, string) -> bool): (r: Summary)
    ensures r.learningLanguageCode == Profiles.Get(st).learningLanguageCode
    ensures r.learningLanguageLabel == Profiles.Get(st).learningLanguageLabel
    ensures multiset(r.totalsByLanguage) == multiset(TallyAll(ActiveTitles(st), st.languages))
    ensures r.budget == CalculateBudgetSummary(r.budget.learningMinutes as real, r.budget.nonLearningMinutes as real)
    ensures |r.topTitles| <= TopTitleCount && |r.recentLogs| <= RecentLogCount
    ensures |r.recentLogs| == |WatchLogs.RecentWindow(st.logs, Some(RecentLogCount))|
    ensures forall i :: 0 <= i < |r.recentLogs| ==>
      r.recentLogs[i] == WatchLogs.Enrich(Filter(st.titles, IsLocalTitle()), WatchLogs.RecentWindow(st.logs, Some(RecentLogCount))[i])
  {
    var profile := Profiles.Get(st);
    var owned := Filter(st.titles, IsLocalTitle());
    var active := Filter(owned, IsActive());
    var totals := TallyAll(active, st.languages);
    var sorted := Sort(totals, ByMinutesThenLabel(strLe));
    var learning := LearningMinutes(totals, profile.learningLanguageCode);
    var nonLearning := NonLearningMinutes(sorted, profile.learningLanguageCode);
    var window := WatchLogs.RecentWindow(st.logs, Some(RecentLogCount));
    Summary(
      profile.learningLanguageCode,
      profile.learningLanguageLabel,
      DashboardBudget(learning, nonLearning),
      sorted,
      TopTitles(active, strLe),
      seq(|window|, i requires 0 <= i < |window| => WatchLogs.Enrich(owned, window[i])))
  }

  /** Removing the entry of one code from the sum leaves the other entries' sum. */
  lemma {:induction false} SumWithoutCode(totals: seq<LanguageTotal>, code: string)
    requires forall i, j :: 0 <= i < j < |totals| ==> totals[i].languageCode != totals[j].languageCode
    ensures SumBy(totals, Masked(NotCode(code), EntryMinutes())) + LearningMinutes(totals, code) == SumBy(totals, EntryMinutes())
  {
    if |totals| > 0 {
      var n := |totals| - 1;
      var front := totals[..n];
      SumWithoutCode(front, code);
      match IndexOfCode(totals, code)
      case Some(i) =>
        if i == n {
          assert IndexOfCode(front, code).None?;
        } else {
          assert front[i].languageCode == code;
          assert IndexOfCode(front, code) == Some(i);
        }
      case None =>
        assert IndexOfCode(front, code).None?;
    }
  }

  /**
   * The two budget inputs split the minutes of the active titles: the
   * learning minutes are those of the active titles in the learning
   * language, and together with the other minutes they are all of them.
   */
  lemma SummaryMinutesBalance(st: Store, strLe: (string, string) -> bool)
    ensures var r := GetSummary(st, strLe);
      var active := ActiveTitles(st);
      && r.budget.learningMinutes == SumBy(Filter(active, HasCode(r.learningLanguageCode)), TitleMinutes())
      && r.budget.learningMinutes + r.budget.nonLearningMinutes == SumBy(active, TitleMinutes())
  {
    var code := Profiles.Get(st).learningLanguageCode;
    var active := ActiveTitles(st);
    var totals := TallyAll(active, st.languages);
    var learning := LearningMinutes(totals, code);
    var nonLearning := NonLearningMinutes(Sort(totals, ByMinutesThenLabel(strLe)), code);
    assert GetSummary(st, strLe).budget == DashboardBudget(learning, nonLearning);
    ClampRoundOfNat(learning);
    ClampRoundOfNat(nonLearning);
    TallyBalance(active, st.languages, code, strLe);
  }

  /** The same split, stated on the tally of any titles. */
  lemma TallyBalance(titles: seq<Title>, languages: seq<Language>, code: string, strLe: (string, string) -> bool)
    ensures LearningMinutes(TallyAll(titles, languages), code) == SumBy(Filter(titles, HasCode(code)), TitleMinutes())
    ensures LearningMinutes(TallyAll(titles, languages), code)
      + NonLearningMinutes(Sort(TallyAll(titles, languages), ByMinutesThenLabel(strLe)), code)
      == SumBy(titles, TitleMinutes())
  {
    var totals := TallyAll(titles, languages);
    var sorted := Sort(totals, ByMinutesThenLabel(strLe));
    TallyAllTallies(titles, languages);
    SumByFilter(sorted, NotCode(code), EntryMinutes());
    SumByPermutation(sorted, totals, Masked(NotCode(code), EntryMinutes()));
    SumWithoutCode(totals, code);
    if IndexOfCode(totals, code).None? {
      FilterNone(titles, HasCode(code));
    }
  }

  /** Under a total preorder on strings, the per-language entries come most minutes first. */
  lemma SummaryTotalsSorted(st: Store, strLe: (string, string) -> bool)
    requires TotalPreorder(strLe)
    ensures var t := GetSummary(st, strLe).totalsByLanguage;
      forall i, j :: 0 <= i < j < |t| ==>
        MinutesThenText(strLe, t[i].totalMinutes, t[i].languageLabel, t[j].totalMinutes, t[j].languageLabel)
  {
    ByMinutesThenLabelIsTotalPreorder(strLe);
    SortSorted(TallyAll(ActiveTitles(st), st.languages), ByMinutesThenLabel(strLe));
  }

  lemma ByMinutesThenLabelIsTotalPreorder(strLe: (string, string) -> bool)
    requires TotalPreorder(strLe)
    ensures TotalPreorder(ByMinutesThenLabel(strLe))
  {
    var le := ByMinutesThenLabel(strLe);
    forall a, b
      ensures le(a, b) || le(b, a)
    {
      assert strLe(a.languageLabel, b.languageLabel) || strLe(b.languageLabel, a.languageLabel);
    }
    forall a, b, c | le(a, b) && le(b, c)
      ensures le(a, c)
    {
      if a.totalMinutes == b.totalMinutes == c.totalMinutes {
        assert strLe(a.languageLabel, b.languageLabel) && strLe(b.languageLabel, c.languageLabel);
      }
    }
  }

  lemma ByMinutesThenNameIsTotalPreorder(strLe: (string, string) -> bool)
    requires TotalPreorder(strLe)
    ensures TotalPreorder(ByMinutesThenName(strLe))
  {
    var le := ByMinutesThenName(strLe);
    forall a, b
      ensures le(a, b) || le(b, a)
    {
      assert strLe(a.name, b.name) || strLe(b.name, a.name);
    }
    forall a, b, c | le(a, b) && le(b, c)
      ensures le(a, c)
    {
      if a.totalMinutes == b.totalMinutes == c.totalMinutes {
        assert strLe(a.name, b.name) && strLe(b.name, c.name);
      }
    }
  }

  /**
   * Under a total preorder on strings, the top titles are the active titles
   * with the most minutes: at most eight, most minutes first, and no active
   * title left out has more minutes than one shown.
   */
  lemma TopTitlesAreTop(st: Store, strLe: (string, string) -> bool)
    requires TotalPreorder(strLe)
    ensures var top := GetSummary(st, strLe).topTitles;
      var active := ActiveTitles(st);
      && |top| == (if |active| < TopTitleCount then |active| else TopTitleCount)
      && (forall i, j :: 0 <= i < j < |top| ==>
            MinutesThenText(strLe, top[i].totalMinutes, top[i].name, top[j].totalMinutes, top[j].name))
      && (forall i, k :: 0 <= i < |top| && 0 <= k < |active| && ToTopTitle(active[k]) !in top ==>
            MinutesThenText(strLe, top[i].totalMinutes, top[i].name, active[k].totalMinutes, active[k].name))
  {
    var le := ByMinutesThenName(strLe);
    ByMinutesThenNameIsTotalPreorder(strLe);
    var active := ActiveTitles(st);
    assert GetSummary(st, strLe).topTitles == TopTitles(active, strLe);
    SortSorted(active, le);
    OmittedNotAbove(active, strLe);
  }

  /** A title whose entry is not shown may come after every shown one. */
  lemma OmittedNotAbove(active: seq<Title>, strLe: (string, string) -> bool)
    requires TotalPreorder(ByMinutesThenName(strLe))
    ensures var top := TopTitles(active, strLe);
      forall i, k :: 0 <= i < |top| && 0 <= k < |active| && ToTopTitle(active[k]) !in top ==>
        MinutesThenText(strLe, top[i].totalMinutes, top[i].name, active[k].totalMinutes, active[k].name)
  {
    var top := TopTitles(active, strLe);
    var w := Take(Sort(active, ByMinutesThenName(strLe)), TopTitleCount);
    SortWindowLeast(active, ByMinutesThenName(strLe), TopTitleCount);
    forall i, k | 0 <= i < |top| && 0 <= k < |active| && ToTopTitle(active[k]) !in top
      ensures MinutesThenText(strLe, top[i].totalMinutes, top[i].name, active[k].totalMinutes, active[k].name)
    {
      assert active[k] !in w;
      assert ByMinutesThenName(strLe)(w[i], active[k]);
    }
  }
}

=== FILE: format.dfy ===
/** Human-readable durations. */
module Format {
  import opened Wrappers
  import opened JsNumber
  import opened Strings

  /** The minutes `formatMinutes` renders: 0 for non-finite input, else `max(0, round(x))`. */
  function SafeMinutes(x: Number): (m: nat)
    ensures !IsFinite(x) ==> m == 0
    ensures IsFinite(x) ==> m == ClampRound(x.value)
  {
    if IsFinite(x) then ClampRound(x.value) else 0
  }

  /** `formatMinutes`: "{h}h {m}m", dropping a zero hour part or a zero minute part (not both). */
  function FormatMinutes(x: Number): (r: string)
    ensures var m := SafeMinutes(x);
      && (m < 60 ==> r == NatToString(m) + "m")
      && (m >= 60 && m % 60 == 0 ==> r == NatToString(m / 60) + "h")
      && (m >= 60 && m % 60 != 0 ==> r == NatToString(m / 60) + "h " + NatToString(m % 60) + "m")
  {
    var safeMinutes := SafeMinutes(x);
    var hours := safeMinutes / 60;
    var remaining := safeMinutes % 60;
    if hours == 0 then NatToString(remaining) + "m"
    else if remaining == 0 then NatToString(hours) + "h"
    else NatToString(hours) + "h " + NatToString(remaining) + "m"
  }

  /**
   * Reads a rendered duration back into minutes: "{a}m", "{a}h" or
   * "{a}h {b}m" with decimal `a` and `b`. Independent of the renderer.
   */
  function ParseDuration(s: string): Option<nat> {
    var k := LeadingDigits(s);
    if k == 0 then None else ParseUnit(DecimalValue(s[..k]), s[k..])
  }

  /** What follows the leading number `a`. */
  function ParseUnit(a: nat, rest: string): Option<nat> {
    if rest == "m" then Some(a)
    else if rest == "h" then Some(60 * a)
    else if |rest| > 2 && rest[..2] == "h " then
      match ParseMinutesPart(rest[2..])
      case Some(b) => Some(60 * a + b)
      case None => None
    else None
  }

  /** The "{b}m" after an hour part. */
  function ParseMinutesPart(t: string): Option<nat> {
    var j := LeadingDigits(t);
    if j > 0 && t[j..] == "m" then Some(DecimalValue(t[..j])) else None
  }

  /** Reading a number rendered in front of a non-digit tail. */
  lemma ReadRendered(n: nat, t: string)
    requires |t| > 0 ==> !IsDigit(t[0])
    ensures LeadingDigits(NatToString(n) + t) == |NatToString(n)| > 0
    ensures (NatToString(n) + t)[..|NatToString(n)|] == NatToString(n)
    ensures (NatToString(n) + t)[|NatToString(n)|..] == t
    ensures DecimalValue(NatToString(n)) == n
  {
    var d := NatToString(n);
    LeadingDigitsOfRendered(n, t);
    assert (d + t)[..|d|] == d;
    assert (d + t)[|d|..] == t;
    DecimalRoundTrip(n);
  }

  /** The leading number of a rendering is the number rendered. */
  lemma ReadLeading(n: nat, t: string)
    requires |t| > 0 ==> !IsDigit(t[0])
    ensures ParseDuration(NatToString(n) + t) == ParseUnit(n, t)
  {
    ReadRendered(n, t);
  }

  lemma ReadMinutesPart(n: nat)
    ensures ParseMinutesPart(NatToString(n) + "m") == Some(n)
  {
    ReadRendered(n, "m");
  }

  lemma ReadMixedUnit(h: nat, rem: nat)
    ensures ParseUnit(h, "h " + (NatToString(rem) + "m")) == Some(60 * h + rem)
  {
    var em := NatToString(rem) + "m";
    SplitConcat("h ", em);
    ReadMinutesPart(rem);
  }

  lemma ReadMixedForm(h: nat, rem: nat)
    ensures ParseDuration(NatToString(h) + "h " + NatToString(rem) + "m") == Some(60 * h + rem)
  {
    var tail := "h " + (NatToString(rem) + "m");
    assert NatToString(h) + "h " + NatToString(rem) + "m" == NatToString(h) + tail;
    ReadLeading(h, tail);
    ReadMixedUnit(h, rem);
  }

  /** The two halves of a concatenation. */
  lemma SplitConcat(p: string, q: string)
    ensures (p + q)[..|p|] == p && (p + q)[|p|..] == q
  {
  }

  /** Every rendering reads back as exactly the minutes it was made from. */
  lemma FormatRoundTrip(x: Number)
    ensures ParseDuration(FormatMinutes(x)) == Some(SafeMinutes(x))
  {
    var m := SafeMinutes(x);
    if m < 60 {
      ReadLeading(m, "m");
    } else if m % 60 == 0 {
      ReadLeading(m / 60, "h");
    } else {
      ReadMixedForm(m / 60, m % 60);
    }
  }

  /** Distinct minute counts never render alike. */
  lemma FormatInjective(x: Number, y: Number)
    requires FormatMinutes(x) == FormatMinutes(y)
    ensures SafeMinutes(x) == SafeMinutes(y)
  {
    FormatRoundTrip(x);
    FormatRoundTrip(y);
  }

  /** The worked cases: 45 minutes, whole hours, mixed, zero, negative and non-finite input. */
  lemma FormatExamples()
    ensures FormatMinutes(Finite(45.0)) == "45m"
    ensures FormatMinutes(Finite(120.0)) == "2h"
    ensures FormatMinutes(Finite(135.0)) == "2h 15m"
    ensures FormatMinutes(Finite(-5.0)) == "0m"
    ensures FormatMinutes(NaN) == "0m"
  {
    ClampRoundOfNat(45);
    ClampRoundOfNat(120);
    ClampRoundOfNat(135);
    assert NatToString(4) == "4";
    assert NatToString(45) == "45";
    assert NatToString(2) == "2";
    assert NatToString(1) == "1";
    assert NatToString(15) == "15";
    assert NatToString(0) == "0";
  }
}

=== FILE: js_number.dfy ===
/** The JavaScript `number` values the validation code inspects. */
module JsNumber {

  /** A double: a finite value (precision is not modelled) or one of the non-finite values. */
  datatype Number = Finite(value: real) | NaN | Infinity | NegInfinity

  /** `Number.isFinite`. */
  predicate IsFinite(x: Number) {
    x.Finite?
  }

  /** `Number.isInteger`: finite and without a fractional part. */
  predicate IsInteger(x: Number) {
    x.Finite? && x.value == x.value.Floor as real
  }

  /** The integer a `Number.isInteger` value denotes. */
  function IntValue(x: Number): int
    requires IsInteger(x)
  {
    x.value.Floor
  }

  /** An integer as a JavaScript number. */
  function FromInt(n: int): (r: Number)
    ensures IsInteger(r) && IntValue(r) == n
  {
    Finite(n as real)
  }

  /** `Math.round` on a finite value: the nearest integer, halves rounded towards +infinity. */
  function Round(x: real): (r: int)
    ensures x - 1.0 / 2.0 < r as real <= x + 1.0 / 2.0
  {
    (x + 1.0 / 2.0).Floor
  }

  /** `Math.max(0, Math.round(x))` on a finite value. */
  function ClampRound(x: real): (r: nat)
    ensures x <= 0.0 ==> r == 0
    ensures x >= 0.0 ==> x - 1.0 / 2.0 < r as real <= x + 1.0 / 2.0
  {
    var n := Round(x);
    if n < 0 then 0 else n
  }

  /** Rounding an integer is the identity, so clamping a natural number is too. */
  lemma ClampRoundOfNat(n: nat)
    ensures ClampRound(n as real) == n
  {
  }

  // ---------------------------------------------------------------------------
  // Decimal integers as doubles
  // ---------------------------------------------------------------------------

  /** 2^53: below it every integer is a double. */
  const TwoTo53: nat := 9007199254740992

  /** 10^21: from here on `Number.prototype.toString` writes a double in exponent notation. */
  const ExponentFormFrom: nat := 1000000000000000000000

  /**
   * 2^1024 - 2^970, halfway between the largest finite double and 2^1024:
   * integers at or past it round to infinity.
   */
  const OverflowThreshold: nat := 179769313486231580793728971405303415079934132710037826936173778980444968292764750946649017977587207096330286416692887910946555547851940402630657488671505820681908902000708383676273854845817711531764475730270069855571366959622842914819860834936475292719074168444365510704342711559699508093042880177904174497792

  /** The spacing of the doubles around `n`: 1 below 2^53, doubling with each binade above. */
  function DoubleUlp(n: nat): (u: nat)
    ensures u >= 1
    ensures n < TwoTo53 ==> u == 1
    decreases n
  {
    if n < TwoTo53 then 1 else 2 * DoubleUlp(n / 2)
  }

  /** `n` rounded to a multiple of `u`, a tie going to the even multiple. */
  function RoundToMultiple(n: nat, u: nat): (r: nat)
    requires u >= 1
    ensures r % u == 0
    ensures 2 * (r - n) <= u && 2 * (n - r) <= u
    ensures 2 * (r - n) == u || 2 * (n - r) == u ==> (r / u) % 2 == 0
  {
    var q := n / u;
    var rest := n % u;
    var down := q * u;
    var up := (q + 1) * u;
    assert n == down + rest;
    assert up == down + u;
    LowMultiple(q, u);
    LowMultiple(q + 1, u);
    if 2 * rest < u then down
    else if 2 * rest > u then up
    else if q % 2 == 0 then down
    else up
  }

  /** A multiple of `u` divided by `u` gives back the factor. */
  lemma LowMultiple(q: nat, u: nat)
    requires u >= 1
    ensures (q * u) % u == 0 && (q * u) / u == q
  {
    var d := (q * u) / u;
    var m := (q * u) % u;
    assert (q - d) * u == m by {
      assert q * u == d * u + m;
    }
    MultipleBounds(q - d, u);
  }

  /** A non-zero multiple of `u` is at least `u` away from zero. */
  lemma MultipleBounds(k: int, u: nat)
    requires u >= 1
    ensures k >= 1 ==> k * u >= u
    ensures k <= -1 ==> k * u <= -(u as int)
  {
    if k >= 1 {
      assert k * u == (k - 1) * u + u;
    } else if k <= -1 {
      assert k * u == -((-k - 1) * u) - u;
    }
  }

  /**
   * `Number(s)` for a string `s` of decimal digits denoting `n`: the double
   * nearest to `n` with ties to even, or `Infinity` once `n` is past the
   * largest finite double by half a spacing or more.
   */
  function NatToDouble(n: nat): (r: Number)
    ensures r == Infinity <==> n >= OverflowThreshold
    ensures r != Infinity ==> r.Finite? && r.value == r.value.Floor as real
    ensures r != Infinity ==> r.value.Floor % DoubleUlp(n) == 0
    ensures r != Infinity ==> 2 * (r.value.Floor - n) <= DoubleUlp(n) && 2 * (n - r.value.Floor) <= DoubleUlp(n)
    ensures n < TwoTo53 ==> r == Finite(n as real)
  {
    if n >= OverflowThreshold then Infinity
    else Finite(RoundToMultiple(n, DoubleUlp(n)) as real)
  }

  /** The first integer that is not a double, 2^53 + 1, reads as 2^53. */
  lemma PastTwoTo53Rounds()
    ensures NatToDouble(9007199254740993) == Finite(9007199254740992 as real)
  {
    assert DoubleUlp(9007199254740993) == 2 by {
      assert DoubleUlp(4503599627370496) == 1;
    }
    assert 9007199254740993 / 2 == 4503599627370496;
    assert 9007199254740993 % 2 == 1;
  }

  /** A one followed by 309 zeros, 10^309, reads as `Infinity`. */
  lemma TenToThe309Overflows()
    ensures NatToDouble(1000000000000000000000000000000000000000000000000000000000000000000000000000000000000000000000000000000000000000000000000000000000000000000000000000000000000000000000000000000000000000000000000000000000000000000000000000000000000000000000000000000000000000000000000000000000000000000000000000000000000000000000) == Infinity
  {
  }
}

=== FILE: language_labels.dfy ===
/** The label shown for a language code that has no stored label. */
module LanguageLabels {
  import opened Strings

  /** `part.charAt(0).toUpperCase() + part.slice(1)`. */
  function Capitalize(part: string): (r: string)
    ensures |r| == |part|
    ensures |part| > 0 ==> r[0] == UpperChar(part[0])
    ensures forall i :: 1 <= i < |part| ==> r[i] == part[i]
  {
    if |part| == 0 then "" else [UpperChar(part[0])] + part[1..]
  }

  function CapitalizeParts(parts: seq<string>): (r: seq<string>)
    ensures |r| == |parts|
    ensures forall k :: 0 <= k < |parts| ==> r[k] == Capitalize(parts[k])
  {
    seq(|parts|, k requires 0 <= k < |parts| => Capitalize(parts[k]))
  }

  /** `toLanguageLabel`: split the code on '-', capitalise every part, join again. */
  function ToLanguageLabel(code: string): string {
    Join(CapitalizeParts(Split(code, '-')), '-')
  }

  /** The character at `i` as it reads after capitalising: upper-cased when it begins a '-'-separated segment. */
  function SegmentChar(s: string, i: nat): char
    requires i < |s|
  {
    if i == 0 || s[i - 1] == '-' then UpperChar(s[i]) else s[i]
  }

  /** The same mapping stated character by character: the first character of every segment is upper-cased. */
  function CapitalizeSegments(s: string): (r: string)
    ensures |r| == |s|
    ensures forall i :: 0 <= i < |s| ==> r[i] == SegmentChar(s, i)
  {
    if |s| == 0 then []
    else
      var n := |s| - 1;
      assert forall i :: 0 <= i < n ==> SegmentChar(s[..n], i) == SegmentChar(s, i);
      CapitalizeSegments(s[..n]) + [SegmentChar(s, n)]
  }

  /** The position of the first occurrence of `c`. */
  function FirstIndexOf(s: string, c: char): (k: nat)
    requires c in s
    ensures k < |s| && s[k] == c && c !in s[..k]
  {
    if s[0] == c then 0
    else
      var k := FirstIndexOf(s[1..], c) + 1;
      assert s[..k] == [s[0]] + s[1..][..k - 1];
      k
  }

  /** `toLanguageLabel` agrees with the character-by-character definition on every code. */
  lemma {:induction false} ToLanguageLabelIsCapitalizeSegments(code: string)
    ensures ToLanguageLabel(code) == CapitalizeSegments(code)
    decreases |code|
  {
    if '-' !in code {
      SplitOfField(code, '-');
      assert CapitalizeParts([code]) == [Capitalize(code)];
      CapitalizeIsSegments(code);
    } else {
      var k := FirstIndexOf(code, '-');
      var a := code[..k];
      var b := code[k + 1..];
      var p := a + ['-'];
      assert code == a + ['-'] + b && code == p + b;
      LabelOfFirstSegment(a, b);
      ToLanguageLabelIsCapitalizeSegments(b);
      SegmentsAfterSeparator(p, b);
      SegmentsOfField(a);
    }
  }

  /** Without a separator, capitalising the whole is capitalising its one segment. */
  lemma CapitalizeIsSegments(a: string)
    requires '-' !in a
    ensures Capitalize(a) == CapitalizeSegments(a)
  {
    forall i | 0 < i < |a|
      ensures SegmentChar(a, i) == a[i]
    {
      assert a[i - 1] in a;
    }
  }

  /** A separator-free field followed by a '-'. */
  lemma SegmentsOfField(a: string)
    requires '-' !in a
    ensures CapitalizeSegments(a + ['-']) == Capitalize(a) + ['-']
  {
    var p := a + ['-'];
    assert p[..|a|] == a;
    CapitalizeIsSegments(a);
  }

  /** The label of a code is the first segment capitalised, a '-', and the label of the rest. */
  lemma LabelOfFirstSegment(a: string, b: string)
    requires '-' !in a
    ensures ToLanguageLabel(a + ['-'] + b) == Capitalize(a) + ['-'] + ToLanguageLabel(b)
  {
    SplitAtFirst(a, '-', b);
    var parts := Split(b, '-');
    var caps := CapitalizeParts([a] + parts);
    assert caps == [Capitalize(a)] + CapitalizeParts(parts);
    assert caps[0] == Capitalize(a) && caps[1..] == CapitalizeParts(parts);
  }

  /** After a '-' a new segment begins, so the character-by-character definition splits there. */
  lemma {:induction false} SegmentsAfterSeparator(p: string, b: string)
    requires |p| > 0 && p[|p| - 1] == '-'
    ensures CapitalizeSegments(p + b) == CapitalizeSegments(p) + CapitalizeSegments(b)
    decreases |b|
  {
    if |b| > 0 {
      var n := |b| - 1;
      SegmentsAfterSeparator(p, b[..n]);
      assert (p + b)[..|p| + n] == p + b[..n];
      assert SegmentChar(p + b, |p| + n) == SegmentChar(b, n) by {
        if n == 0 {
          assert (p + b)[|p| - 1] == '-';
        } else {
          assert (p + b)[|p| + n - 1] == b[n - 1];
        }
        assert (p + b)[|p| + n] == b[n];
      }
    }
  }

  /** Labelling a label again changes nothing: every segment already starts upper-case. */
  lemma ToLanguageLabelIdempotent(code: string)
    ensures ToLanguageLabel(ToLanguageLabel(code)) == ToLanguageLabel(code)
  {
    ToLanguageLabelIsCapitalizeSegments(code);
    ToLanguageLabelIsCapitalizeSegments(ToLanguageLabel(code));
    var r := CapitalizeSegments(code);
    assert forall i :: 0 <= i < |code| ==> (r[i] == '-' <==> code[i] == '-');
  }

  /** Worked cases: a region subtag and a plain code. */
  lemma ToLanguageLabelExamples()
    ensures ToLanguageLabel("pt-br") == "Pt-Br"
    ensures ToLanguageLabel("da") == "Da"
  {
    ToLanguageLabelIsCapitalizeSegments("pt-br");
    ToLanguageLabelIsCapitalizeSegments("da");
  }
}

=== FILE: languages.dfy ===
/**
 * The language reference table: code normalisation, the listing shown to
 * the client, and the upsert that keeps one row per code.
 */
module Languages {
  import opened Wrappers
  import opened Constants
  import opened Strings
  import opened Seqs
  import opened Store

  const CodeRequiredMessage: string := "Language code is required."
  const LabelRequiredMessage: string := "Language label is required."

  // ---------------------------------------------------------------------------
  // normalizeLanguageCode
  // ---------------------------------------------------------------------------

  /** A code as stored: no surrounding whitespace and no upper-case ASCII letter. */
  predicate IsNormalCode(code: string) {
    && (|code| > 0 ==> !IsWhitespace(code[0]) && !IsWhitespace(code[|code| - 1]))
    && forall i :: 0 <= i < |code| ==> !IsAsciiUpper(code[i])
  }

  /** `normalizeLanguageCode`: trim, then lower-case. */
  function NormalizeLanguageCode(code: string): (r: string)
    ensures IsNormalCode(r)
    ensures |r| == |Trim(code)|
    ensures |r| == 0 <==> forall i :: 0 <= i < |code| ==> IsWhitespace(code[i])
  {
    var t := Trim(code);
    var r := ToLower(t);
    ToLowerKeepsWhitespace(t);
    assert |r| > 0 ==> IsWhitespace(r[0]) == IsWhitespace(t[0]);
    assert |r| == 0 <==> forall i :: 0 <= i < |code| ==> IsWhitespace(code[i]) by {
      TrimEmpty(code);
    }
    r
  }

  /** Trimming leaves nothing exactly when every character is whitespace. */
  lemma TrimEmpty(s: string)
    ensures |Trim(s)| == 0 <==> forall i :: 0 <= i < |s| ==> IsWhitespace(s[i])
  {
    if |Trim(s)| == 0 {
      assert LeadingSpace(s) == |s|;
    } else {
      assert Trim(s)[0] == s[LeadingSpace(s)];
    }
  }

  /** A normal code is its own normalisation. */
  lemma NormalizeOfNormal(code: string)
    requires IsNormalCode(code)
    ensures NormalizeLanguageCode(code) == code
  {
    TrimOfTrimmed(code);
  }

  /** Normalising twice is normalising once. */
  lemma NormalizeIdempotent(code: string)
    ensures NormalizeLanguageCode(NormalizeLanguageCode(code)) == NormalizeLanguageCode(code)
  {
    NormalizeOfNormal(NormalizeLanguageCode(code));
  }

  // ---------------------------------------------------------------------------
  // list
  // ---------------------------------------------------------------------------

  /** A `{code, label}` pair as the client receives it. */
  datatype LanguageOption = LanguageOption(code: string, labelText: string)

  function DefaultOptions(): (r: seq<LanguageOption>)
    ensures |r| == |DefaultLanguages|
    ensures forall i :: 0 <= i < |r| ==> r[i] == LanguageOption(DefaultLanguages[i].0, DefaultLanguages[i].1)
  {
    seq(|DefaultLanguages|, i requires 0 <= i < |DefaultLanguages| =>
      LanguageOption(DefaultLanguages[i].0, DefaultLanguages[i].1))
  }

  function Options(languages: seq<Language>): (r: seq<LanguageOption>)
    ensures |r| == |languages|
    ensures forall i :: 0 <= i < |r| ==> r[i] == LanguageOption(languages[i].code, languages[i].labelText)
  {
    seq(|languages|, i requires 0 <= i < |languages| => LanguageOption(languages[i].code, languages[i].labelText))
  }

  /** Orders options by label under the collation `strLe` (`a.label.localeCompare(b.label) <= 0`). */
  function ByLabel(strLe: (string, string) -> bool): (LanguageOption, LanguageOption) -> bool {
    (a: LanguageOption, b: LanguageOption) => strLe(a.labelText, b.labelText)
  }

  /** `list`: the seeded defaults for an empty table, else every row's pair ordered by label. */
  function List(languages: seq<Language>, strLe: (string, string) -> bool): (r: seq<LanguageOption>)
    ensures |languages| == 0 ==> r == DefaultOptions()
    ensures |languages| > 0 ==> |r| == |languages| && multiset(r) == multiset(Options(languages))
  {
    if |languages| == 0 then DefaultOptions() else Sort(Options(languages), ByLabel(strLe))
  }

  lemma ByLabelIsTotalPreorder(strLe: (string, string) -> bool)
    requires TotalOrder(strLe)
    ensures TotalPreorder(ByLabel(strLe))
  {
    var le := ByLabel(strLe);
    forall a, b
      ensures le(a, b) || le(b, a)
    {
      assert strLe(a.labelText, b.labelText) || strLe(b.labelText, a.labelText);
    }
    forall a, b, c | le(a, b) && le(b, c)
      ensures le(a, c)
    {
      assert strLe(a.labelText, b.labelText) && strLe(b.labelText, c.labelText);
    }
  }

  /** Under a total order on strings the listing is ordered by label. */
  lemma ListSorted(languages: seq<Language>, strLe: (string, string) -> bool)
    requires TotalOrder(strLe)
    requires |languages| > 0
    ensures forall i, j :: 0 <= i < j < |List(languages, strLe)| ==>
      strLe(List(languages, strLe)[i].labelText, List(languages, strLe)[j].labelText)
  {
    ByLabelIsTotalPreorder(strLe);
    SortSorted(Options(languages), ByLabel(strLe));
  }

  // ---------------------------------------------------------------------------
  // upsert
  // ---------------------------------------------------------------------------

  /** Looking up the code after replacing its first row by a row with the same id and code finds the new row. */
  lemma {:induction false} FindAfterReplaceLanguage(languages: seq<Language>, l: Language)
    requires FindLanguage(languages, l.code).Some? && FindLanguage(languages, l.code).value.id == l.id
    ensures FindLanguage(ReplaceLanguage(languages, l), l.code) == Some(l)
  {
    if languages[0].code != l.code {
      assert ReplaceLanguage(languages, l)[1..] == ReplaceLanguage(languages[1..], l);
      FindAfterReplaceLanguage(languages[1..], l);
    }
  }

  /** Replacing a row by one with the same id and code keeps codes and ids unique. */
  lemma ReplaceKeepsUniqueLanguages(languages: seq<Language>, l: Language)
    requires UniqueLanguages(languages)
    requires FindLanguage(languages, l.code).Some? && FindLanguage(languages, l.code).value.id == l.id
    ensures UniqueLanguages(ReplaceLanguage(languages, l))
  {
    var prior := FindLanguage(languages, l.code).value;
    var r := ReplaceLanguage(languages, l);
    forall i, j | 0 <= i < j < |r|
      ensures r[i].code != r[j].code && r[i].id != r[j].id
    {
      var k :| 0 <= k < |languages| && languages[k] == prior;
    }
  }

  /** Appending a row with a new code and a fresh id keeps codes and ids unique. */
  lemma AppendKeepsUniqueLanguages(languages: seq<Language>, l: Language)
    requires UniqueLanguages(languages)
    requires FindLanguage(languages, l.code).None?
    requires forall i :: 0 <= i < |languages| ==> languages[i].id != l.id
    ensures UniqueLanguages(languages + [l])
  {
  }

  /** The first row with a code, when a row with that code is appended to a table without it. */
  lemma FindAfterAppendLanguage(languages: seq<Language>, l: Language)
    requires FindLanguage(languages, l.code).None?
    ensures FindLanguage(languages + [l], l.code) == Some(l)
  {
    if |languages| > 0 {
      assert (languages + [l])[1..] == languages[1..] + [l];
      FindAfterAppendLanguage(languages[1..], l);
    }
  }

  /** Rows with other codes are untouched by a replacement of this code's row. */
  lemma {:induction false} FindOtherAfterReplaceLanguage(languages: seq<Language>, l: Language, code: string)
    requires UniqueLanguages(languages)
    requires FindLanguage(languages, l.code).Some? && FindLanguage(languages, l.code).value.id == l.id
    requires code != l.code
    ensures FindLanguage(ReplaceLanguage(languages, l), code) == FindLanguage(languages, code)
  {
    var head, tail := languages[0], languages[1..];
    var replaced := ReplaceLanguage(languages, l);
    assert replaced[1..] == ReplaceLanguage(tail, l);
    if head.code == l.code {
      assert forall i :: 0 <= i < |tail| ==> tail[i].id != l.id by {
        forall i | 0 <= i < |tail| ensures tail[i].id != l.id {
          assert languages[0].id != languages[i + 1].id;
        }
      }
      assert ReplaceLanguage(tail, l) == tail;
    } else {
      assert head.id != l.id by {
        var prior := FindLanguage(tail, l.code).value;
        var k :| 0 <= k < |tail| && tail[k] == prior;
        assert languages[0].id != languages[k + 1].id;
      }
      assert replaced[0] == head;
      if head.code != code {
        assert UniqueLanguages(tail);
        FindOtherAfterReplaceLanguage(tail, l, code);
      }
    }
  }

  /** `upsert`'s reply. */
  datatype UpsertOutput = UpsertOutput(id: Id, code: string, labelText: string)

  /**
   * The row for `code` gets `label`: an existing row is patched (even when
   * the label is unchanged), a missing one is inserted with the next id.
   */
  function PutLanguage(st: Store, code: string, newLabel: string, now: int): (r: (Store, Id))
    ensures FindLanguage(st.languages, code).Some? ==>
      && r.1 == FindLanguage(st.languages, code).value.id
      && |r.0.languages| == |st.languages| && r.0.nextId == st.nextId
      && r.0.languages == ReplaceLanguage(st.languages,
           FindLanguage(st.languages, code).value.(labelText := newLabel, updatedAt := now))
    ensures FindLanguage(st.languages, code).None? ==>
      r.1 == st.nextId && r.0.languages == st.languages + [Language(st.nextId, code, newLabel, now, now)]
      && r.0.nextId == st.nextId + 1
    ensures r.0.titles == st.titles && r.0.logs == st.logs && r.0.profiles == st.profiles
    ensures FindLanguage(r.0.languages, code).Some?
    ensures FindLanguage(r.0.languages, code).value.labelText == newLabel
    ensures FindLanguage(r.0.languages, code).value.id == r.1
    ensures FindLanguage(r.0.languages, code).value.updatedAt == now
  {
    match FindLanguage(st.languages, code)
    case Some(existing) =>
      var patched := existing.(labelText := newLabel, updatedAt := now);
      FindAfterReplaceLanguage(st.languages, patched);
      (st.(languages := ReplaceLanguage(st.languages, patched)), existing.id)
    case None =>
      var row := Language(st.nextId, code, newLabel, now, now);
      FindAfterAppendLanguage(st.languages, row);
      (st.(languages := st.languages + [row], nextId := st.nextId + 1), st.nextId)
  }

  /** `upsert`: normalise and check, then put the row. */
  function Upsert(st: Store, code: string, newLabel: string, now: int): (r: Result<(Store, UpsertOutput)>)
    ensures |NormalizeLanguageCode(code)| == 0 <==> r == Err(ValidationError(CodeRequiredMessage))
    ensures |NormalizeLanguageCode(code)| > 0 && |Trim(newLabel)| == 0 ==> r == Err(ValidationError(LabelRequiredMessage))
    ensures |NormalizeLanguageCode(code)| > 0 && |Trim(newLabel)| > 0 <==> r.Ok?
    ensures r.Ok? ==>
      var (st', out) := r.value;
      && out.code == NormalizeLanguageCode(code) && out.labelText == Trim(newLabel)
      && FindLanguage(st'.languages, out.code).Some?
      && FindLanguage(st'.languages, out.code).value.id == out.id
      && FindLanguage(st'.languages, out.code).value.labelText == out.labelText
      && FindLanguage(st'.languages, out.code).value.updatedAt == now
      && st'.titles == st.titles && st'.logs == st.logs && st'.profiles == st.profiles
      && (FindLanguage(st.languages, out.code).Some? ==>
            && st'.languages == ReplaceLanguage(st.languages,
                 FindLanguage(st.languages, out.code).value.(labelText := out.labelText, updatedAt := now))
            && |st'.languages| == |st.languages| && st'.nextId == st.nextId)
      && (FindLanguage(st.languages, out.code).None? ==>
            && out.id == st.nextId && st'.nextId == st.nextId + 1
            && st'.languages == st.languages + [Language(out.id, out.code, out.labelText, now, now)])
  {
    var normalized := NormalizeLanguageCode(code);
    var trimmed := Trim(newLabel);
    if |normalized| == 0 then Err(ValidationError(CodeRequiredMessage))
    else if |trimmed| == 0 then Err(ValidationError(LabelRequiredMessage))
    else
      var (st', id) := PutLanguage(st, normalized, trimmed, now);
      Ok((st', UpsertOutput(id, normalized, trimmed)))
  }

  /** `upsert` keeps one row per code and ids unique. */
  lemma UpsertPreservesUniqueness(st: Store, code: string, newLabel: string, now: int)
    requires UniqueLanguages(st.languages)
    requires forall i :: 0 <= i < |st.languages| ==> st.languages[i].id < st.nextId
    requires Upsert(st, code, newLabel, now).Ok?
    ensures var st' := Upsert(st, code, newLabel, now).value.0;
      && UniqueLanguages(st'.languages)
      && forall i :: 0 <= i < |st'.languages| ==> st'.languages[i].id < st'.nextId
  {
    PutKeepsUniqueLanguages(st, NormalizeLanguageCode(code), Trim(newLabel), now);
  }

  /** `upsert` keeps the store consistent: titles and logs are untouched and the counter only grows. */
  lemma UpsertPreservesConsistency(st: Store, code: string, newLabel: string, now: int)
    requires Consistent(st)
    requires Upsert(st, code, newLabel, now).Ok?
    ensures Consistent(Upsert(st, code, newLabel, now).value.0)
  {
    var st' := Upsert(st, code, newLabel, now).value.0;
    assert st'.titles == st.titles && st'.logs == st.logs && st'.nextId >= st.nextId;
  }

  /** Putting a row keeps one row per code and ids below the counter. */
  lemma PutKeepsUniqueLanguages(st: Store, code: string, newLabel: string, now: int)
    requires UniqueLanguages(st.languages)
    requires forall i :: 0 <= i < |st.languages| ==> st.languages[i].id < st.nextId
    ensures var st' := PutLanguage(st, code, newLabel, now).0;
      && UniqueLanguages(st'.languages)
      && forall i :: 0 <= i < |st'.languages| ==> st'.languages[i].id < st'.nextId
  {
    match FindLanguage(st.languages, code)
    case Some(existing) =>
      var patched := existing.(labelText := newLabel, updatedAt := now);
      ReplaceKeepsUniqueLanguages(st.languages, patched);
      assert existing in st.languages;
    case None =>
      AppendKeepsUniqueLanguages(st.languages, Language(st.nextId, code, newLabel, now, now));
  }

  /** A second identical upsert changes no row's code or label and adds no row. */
  lemma UpsertIdempotent(st: Store, code: string, newLabel: string, now: int, later: int)
    requires Upsert(st, code, newLabel, now).Ok?
    ensures var st1 := Upsert(st, code, newLabel, now).value.0;
      var r2 := Upsert(st1, code, newLabel, later);
      && r2.Ok?
      && |r2.value.0.languages| == |st1.languages|
      && r2.value.1 == Upsert(st, code, newLabel, now).value.1
  {
  }

  /**
   * With row ids below the counter, repeating an upsert rewrites no row's
   * id, code, label or creation time, and leaves the counter where it was:
   * only `updatedAt` moves.
   */
  lemma UpsertRepeatMovesOnlyUpdatedAt(st: Store, code: string, newLabel: string, now: int, later: int)
    requires forall i :: 0 <= i < |st.languages| ==> st.languages[i].id < st.nextId
    requires Upsert(st, code, newLabel, now).Ok?
    ensures var st1 := Upsert(st, code, newLabel, now).value.0;
      var st2 := Upsert(st1, code, newLabel, later).value.0;
      && |st2.languages| == |st1.languages| && st2.nextId == st1.nextId
      && (forall i :: 0 <= i < |st1.languages| ==>
            st2.languages[i] == st1.languages[i].(updatedAt := st2.languages[i].updatedAt))
  {
    var normalized := NormalizeLanguageCode(code);
    var trimmed := Trim(newLabel);
    var st1 := Upsert(st, code, newLabel, now).value.0;
    match FindLanguage(st.languages, normalized)
    case Some(existing) =>
      var patched := existing.(labelText := trimmed, updatedAt := now);
      assert FindLanguage(st1.languages, normalized) == Some(patched);
      assert forall i :: 0 <= i < |st1.languages| && st1.languages[i].id == patched.id ==> st1.languages[i] == patched;
    case None =>
      var row := Language(st.nextId, normalized, trimmed, now, now);
      assert st1.languages == st.languages + [row];
      assert FindLanguage(st1.languages, normalized) == Some(row);
      assert forall i :: 0 <= i < |st.languages| ==> st1.languages[i].id != row.id;
  }
}

=== FILE: middleware.dfy ===
/**
 * The request gate in front of every route: whether a request passes, is
 * refused, or is sent to the unlock page. Environment variables and the
 * cookie's verification result are parameters.
 */
module Middleware {
  import opened Wrappers
  import opened Strings
  import opened AppGate
  import opened JsNumber

  /** What the gate does with a request. */
  datatype Decision =
    | PassThrough                  // `NextResponse.next()`
    | Misconfigured                // 500 "App gate is misconfigured."
    | Unauthorized                 // 401 JSON error
    | RedirectToUnlock(next: string) // "/unlock?next=" + the URI-encoding of `next`

  const PublicPaths: set<string> :=
    {"/favicon.ico", "/robots.txt", "/sitemap.xml", "/unlock", "/api/auth/unlock", "/api/auth/lock"}

  /** The regular expression `\.[^/]+$` matches with its dot at index `i`. */
  predicate FileExtensionAt(p: string, i: int) {
    0 <= i < |p| - 1 && p[i] == '.' && forall j :: i < j < |p| ==> p[j] != '/'
  }

  /** `hasFileExtension`, scanning from the end of the path. */
  function HasFileExtension(p: string): (r: bool)
    ensures r <==> exists i :: FileExtensionAt(p, i)
  {
    if |p| < 2 || p[|p| - 1] == '/' then
      assert forall i :: !FileExtensionAt(p, i) by {
        forall i | 0 <= i < |p| - 1 ensures !FileExtensionAt(p, i) {
          assert i < |p| - 1;
        }
      }
      false
    else if p[|p| - 2] == '.' then
      assert FileExtensionAt(p, |p| - 2);
      true
    else
      var q := p[..|p| - 1];
      var r := HasFileExtension(q);
      assert forall i :: FileExtensionAt(p, i) <==> FileExtensionAt(q, i) by {
        forall i ensures FileExtensionAt(p, i) <==> FileExtensionAt(q, i) {
          if FileExtensionAt(q, i) {
            assert forall j :: i < j < |q| ==> q[j] == p[j];
          }
        }
      }
      r
  }

  /** `isPublicPath`: a fixed page or asset, a framework asset, or a file name with an extension. */
  predicate IsPublicPath(pathname: string) {
    pathname in PublicPaths || StartsWith(pathname, "/_next/") || HasFileExtension(pathname)
  }

  /** A variable whose trimmed value is non-empty; `Boolean(value?.trim())`. */
  predicate IsSetNonBlank(env: Option<string>) {
    env.Some? && |Trim(env.value)| > 0
  }

  /**
   * `middleware`: the gate is on when a password is configured; it then needs
   * a secret, lets public paths and requests whose session cookie verifies at
   * `now` through, refuses API and non-GET requests, and redirects page loads
   * to the unlock page. `sign` is the HMAC keyed with the configured secret.
   */
  function Decide(
    passwordEnv: Option<string>, secretEnv: Option<string>,
    pathname: string, search: string, httpMethod: string,
    cookie: Option<string>, now: int, sign: string -> Digest): (d: Decision)
    ensures !IsSetNonBlank(passwordEnv) ==> d == PassThrough
    ensures d == Misconfigured <==> IsSetNonBlank(passwordEnv) && !IsSetNonBlank(secretEnv)
    ensures d == PassThrough <==>
      || !IsSetNonBlank(passwordEnv)
      || (IsSetNonBlank(secretEnv) && (IsPublicPath(pathname) || VerifyAppGateToken(cookie, now, sign)))
    ensures (&& IsSetNonBlank(passwordEnv) && IsSetNonBlank(secretEnv) && !IsPublicPath(pathname)
             && !VerifyAppGateToken(cookie, now, sign)) ==>
      d == (if StartsWith(pathname, "/api/") || httpMethod != "GET" then Unauthorized
            else RedirectToUnlock(SanitizeNextPath(Some(pathname + search))))
    ensures d == Unauthorized ==> StartsWith(pathname, "/api/") || httpMethod != "GET"
    ensures d.RedirectToUnlock? ==>
      && httpMethod == "GET" && !StartsWith(pathname, "/api/") && IsSafeNextPath(d.next)
      && (IsSafeNextPath(pathname + search) ==> d.next == pathname + search)
  {
    if !IsSetNonBlank(passwordEnv) then PassThrough
    else if !IsSetNonBlank(secretEnv) then Misconfigured
    else if IsPublicPath(pathname) then PassThrough
    else if VerifyAppGateToken(cookie, now, sign) then PassThrough
    else if StartsWith(pathname, "/api/") || httpMethod != "GET" then Unauthorized
    else RedirectToUnlock(SanitizeNextPath(Some(pathname + search)))
  }

  /** With the gate configured, a cookie holding a token created less than thirty days ago lets any request through. */
  lemma FreshSessionPasses(
    passwordEnv: Option<string>, secretEnv: Option<string>,
    pathname: string, search: string, httpMethod: string,
    issuedAt: int, nonce: NonceBytes, now: int, sign: string -> Digest)
    requires IsSetNonBlank(passwordEnv) && IsSetNonBlank(secretEnv)
    requires 0 <= issuedAt + SessionTtlMillis < TwoTo53 && now < issuedAt + SessionTtlMillis
    ensures Decide(passwordEnv, secretEnv, pathname, search, httpMethod,
                   Some(CreateAppGateToken(issuedAt, nonce, sign)), now, sign) == PassThrough
  {
    CreateVerifyExact(issuedAt, nonce, sign, now);
  }

  /** Without a cookie, a configured gate refuses a private API call and redirects a private page load. */
  lemma NoCookieRefused(
    passwordEnv: Option<string>, secretEnv: Option<string>,
    pathname: string, search: string, httpMethod: string, now: int, sign: string -> Digest)
    requires IsSetNonBlank(passwordEnv) && IsSetNonBlank(secretEnv) && !IsPublicPath(pathname)
    ensures var d := Decide(passwordEnv, secretEnv, pathname, search, httpMethod, None, now, sign);
      (StartsWith(pathname, "/api/") || httpMethod != "GET" <==> d == Unauthorized)
      && (!StartsWith(pathname, "/api/") && httpMethod == "GET" <==> d.RedirectToUnlock?)
  {
  }

  /** A path without any dot has no file extension. */
  lemma NoDotNoExtension(p: string)
    requires '.' !in p
    ensures !HasFileExtension(p)
  {
  }

  /** Worked cases of the extension pattern: the dot must sit in the last segment with a character after it. */
  lemma FileExtensionExamples()
    ensures HasFileExtension("/logo.png")
    ensures !HasFileExtension("/v1.2/titles")
    ensures !HasFileExtension("/file.")
  {
    assert FileExtensionAt("/logo.png", 5);
    var v := "/v1.2/titles";
    assert forall i :: 0 <= i < |v| - 1 && v[i] == '.' ==> i == 3;
    assert v[5] == '/';
    var f := "/file.";
    assert forall i :: 0 <= i < |f| - 1 ==> f[i] != '.';
  }

  /** Worked cases: a missing secret fails even public paths; a blank password turns the gate off. */
  lemma ConfigurationExamples()
    ensures forall now: int, sign: string -> Digest ::
      Decide(Some("pw"), None, "/favicon.ico", "", "GET", None, now, sign) == Misconfigured
    ensures forall now: int, sign: string -> Digest ::
      Decide(Some("  "), None, "/titles", "", "POST", None, now, sign) == PassThrough
  {
    TrimOfTrimmed("pw");
    assert IsWhitespace(' ');
    assert LeadingSpace("  ") == 2;
  }
}

=== FILE: profile.dfy ===
/**
 * The single local profile: reading it with a fallback, first-run seeding
 * of the profile and the default languages, and switching the learning
 * language. Profile rows carry no id here; nothing refers to them by id.
 */
module Profiles {
  import opened Wrappers
  import opened Constants
  import opened Strings
  import opened Store
  import Languages
  import Titles

  const SetupFailedMessage: string := "Failed to initialize local profile."

  /** `DEFAULT_PROFILE` stamped with a time. */
  function DefaultProfile(stamp: int): (p: Profile)
    ensures p.key == LocalOwnerKey && p.displayName == DefaultDisplayName
    ensures p.learningLanguageCode == DefaultLearningLanguageCode && p.learningLanguageLabel == DefaultLearningLanguageLabel
    ensures p.createdAt == stamp && p.updatedAt == stamp
  {
    Profile(LocalOwnerKey, DefaultDisplayName, DefaultLearningLanguageCode, DefaultLearningLanguageLabel, stamp, stamp)
  }

  /** `get`: the stored local profile, else the defaults stamped with time 0. */
  function Get(st: Store): (p: Profile)
    ensures p.key == LocalOwnerKey
    ensures FindProfile(st.profiles, LocalOwnerKey).Some? ==> p == FindProfile(st.profiles, LocalOwnerKey).value
    ensures FindProfile(st.profiles, LocalOwnerKey).None? ==> p == DefaultProfile(0)
  {
    match FindProfile(st.profiles, LocalOwnerKey)
    case Some(p) => p
    case None => DefaultProfile(0)
  }

  // ---------------------------------------------------------------------------
  // ensureLocalSetup
  // ---------------------------------------------------------------------------

  /** Inserts each `(code, label)` pair whose code has no row yet, in order. */
  function SeedLanguages(st: Store, defaults: seq<(string, string)>, now: int): (st': Store)
    ensures SeededFrom(st, defaults, st')
    ensures SeededRows(st.languages, st.nextId, defaults, now, st'.languages)
    decreases |defaults|
  {
    if |defaults| == 0 then st
    else
      var st1 := SeedOne(st, defaults[0].0, defaults[0].1, now);
      assert defaults[..1] == [(defaults[0].0, defaults[0].1)];
      var st' := SeedLanguages(st1, defaults[1..], now);
      SeedCompose(st, st1, st', defaults);
      SeedRowsCompose(st, st1, st', defaults, now);
      st'
  }

  /**
   * What seeding promises: nothing but the language table and the counter
   * change, rows are only appended (one id each), every default code has a
   * row afterwards, rows already present are kept, and when every default
   * code already had a row nothing changes at all.
   */
  ghost predicate SeededFrom(st: Store, defaults: seq<(string, string)>, st': Store) {
    && st'.titles == st.titles && st'.logs == st.logs && st'.profiles == st.profiles
    && |st'.languages| >= |st.languages| && st'.languages[..|st.languages|] == st.languages
    && st'.nextId == st.nextId + (|st'.languages| - |st.languages|)
    && (forall k :: 0 <= k < |defaults| ==> FindLanguage(st'.languages, defaults[k].0).Some?)
    && (forall code :: FindLanguage(st.languages, code).Some? ==>
          FindLanguage(st'.languages, code) == FindLanguage(st.languages, code))
    && ((forall k :: 0 <= k < |defaults| ==> FindLanguage(st.languages, defaults[k].0).Some?) ==> st' == st)
  }

  /** No pair before the `k`-th has its code: the `k`-th is the first default for that code. */
  predicate FirstOfCode(defaults: seq<(string, string)>, k: nat)
    requires k < |defaults|
  {
    forall j :: 0 <= j < k ==> defaults[j].0 != defaults[k].0
  }

  /**
   * Which rows seeding adds to `before` (whose id counter was `nextId`) to
   * give `after`: every appended row is a default pair whose code had no row
   * in `before`, stamped `now` and numbered from the counter on, and a
   * default code that had no row is found with the label of its first pair.
   */
  ghost predicate SeededRows(before: seq<Language>, nextId: nat, defaults: seq<(string, string)>, now: int,
                             after: seq<Language>) {
    && (forall i :: |before| <= i < |after| ==>
          exists k :: && 0 <= k < |defaults| && FindLanguage(before, defaults[k].0).None?
                      && after[i] == Language(nextId + (i - |before|), defaults[k].0, defaults[k].1, now, now))
    && (forall k :: 0 <= k < |defaults| && FindLanguage(before, defaults[k].0).None? && FirstOfCode(defaults, k) ==>
          FindLanguage(after, defaults[k].0).Some? && FindLanguage(after, defaults[k].0).value.labelText == defaults[k].1)
  }

  /** Seeding the first pair and then the rest adds the rows of seeding them all. */
  lemma SeedRowsCompose(st: Store, st1: Store, st': Store, defaults: seq<(string, string)>, now: int)
    requires |defaults| > 0
    requires SeededFrom(st, defaults[..1], st1) && SeededRows(st.languages, st.nextId, defaults[..1], now, st1.languages)
    requires SeededFrom(st1, defaults[1..], st') && SeededRows(st1.languages, st1.nextId, defaults[1..], now, st'.languages)
    ensures SeededRows(st.languages, st.nextId, defaults, now, st'.languages)
  {
    SeedRowsComposeAppended(st, st1, st', defaults, now);
    SeedRowsComposeLabels(st, st1, st', defaults, now);
  }

  /** The rows appended over both steps are default pairs numbered on from the first counter. */
  lemma SeedRowsComposeAppended(st: Store, st1: Store, st': Store, defaults: seq<(string, string)>, now: int)
    requires |defaults| > 0
    requires SeededFrom(st, defaults[..1], st1) && SeededRows(st.languages, st.nextId, defaults[..1], now, st1.languages)
    requires SeededFrom(st1, defaults[1..], st') && SeededRows(st1.languages, st1.nextId, defaults[1..], now, st'.languages)
    ensures forall i :: |st.languages| <= i < |st'.languages| ==>
      exists k ::
        && 0 <= k < |defaults| && FindLanguage(st.languages, defaults[k].0).None?
        && st'.languages[i] == Language(st.nextId + (i - |st.languages|), defaults[k].0, defaults[k].1, now, now)
  {
    forall i | |st.languages| <= i < |st'.languages|
      ensures exists k ::
                && 0 <= k < |defaults| && FindLanguage(st.languages, defaults[k].0).None?
                && st'.languages[i] == Language(st.nextId + (i - |st.languages|), defaults[k].0, defaults[k].1, now, now)
    {
      if i < |st1.languages| {
        assert st'.languages[i] == st'.languages[..|st1.languages|][i] == st1.languages[i];
        var k :| && 0 <= k < 1 && FindLanguage(st.languages, defaults[..1][k].0).None?
          && st1.languages[i] == Language(st.nextId + (i - |st.languages|), defaults[..1][k].0, defaults[..1][k].1, now, now);
        assert defaults[..1][k] == defaults[0];
      } else {
        var k :| && 0 <= k < |defaults[1..]| && FindLanguage(st1.languages, defaults[1..][k].0).None?
          && st'.languages[i] == Language(st1.nextId + (i - |st1.languages|), defaults[1..][k].0, defaults[1..][k].1, now, now);
        assert defaults[1..][k] == defaults[k + 1];
        assert FindLanguage(st.languages, defaults[k + 1].0).None?;
      }
    }
  }

  /** A default code missing before both steps is found with its first pair's label after them. */
  lemma SeedRowsComposeLabels(st: Store, st1: Store, st': Store, defaults: seq<(string, string)>, now: int)
    requires |defaults| > 0
    requires SeededFrom(st, defaults[..1], st1) && SeededRows(st.languages, st.nextId, defaults[..1], now, st1.languages)
    requires SeededFrom(st1, defaults[1..], st') && SeededRows(st1.languages, st1.nextId, defaults[1..], now, st'.languages)
    ensures forall k :: 0 <= k < |defaults| && FindLanguage(st.languages, defaults[k].0).None? && FirstOfCode(defaults, k) ==>
      FindLanguage(st'.languages, defaults[k].0).Some? && FindLanguage(st'.languages, defaults[k].0).value.labelText == defaults[k].1
  {
    forall k | 0 <= k < |defaults| && FindLanguage(st.languages, defaults[k].0).None? && FirstOfCode(defaults, k)
      ensures FindLanguage(st'.languages, defaults[k].0).Some?
      ensures FindLanguage(st'.languages, defaults[k].0).value.labelText == defaults[k].1
    {
      if k == 0 {
        assert defaults[..1][0] == defaults[0];
        assert FirstOfCode(defaults[..1], 0);
      } else {
        assert defaults[0].0 != defaults[k].0;
        SeedOneSkipsOthers(st, st1, defaults, now, defaults[k].0);
        assert defaults[1..][k - 1] == defaults[k];
        assert FirstOfCode(defaults[1..], k - 1) by {
          forall j | 0 <= j < k - 1 ensures defaults[1..][j].0 != defaults[1..][k - 1].0 {
            assert defaults[1..][j] == defaults[j + 1];
          }
        }
      }
    }
  }

  /** Seeding the first pair gives no row to a code that had none and is not that pair's. */
  lemma SeedOneSkipsOthers(st: Store, st1: Store, defaults: seq<(string, string)>, now: int, code: string)
    requires |defaults| > 0
    requires SeededFrom(st, defaults[..1], st1) && SeededRows(st.languages, st.nextId, defaults[..1], now, st1.languages)
    requires FindLanguage(st.languages, code).None? && code != defaults[0].0
    ensures FindLanguage(st1.languages, code).None?
  {
    forall i | 0 <= i < |st1.languages| ensures st1.languages[i].code != code {
      if i < |st.languages| {
        assert st1.languages[..|st.languages|][i] == st.languages[i];
      } else {
        var k :| && 0 <= k < 1 && FindLanguage(st.languages, defaults[..1][k].0).None?
          && st1.languages[i] == Language(st.nextId + (i - |st.languages|), defaults[..1][k].0, defaults[..1][k].1, now, now);
        assert defaults[..1][k] == defaults[0];
      }
    }
  }

  /** Seeding the first pair and then the rest is seeding them all. */
  lemma SeedCompose(st: Store, st1: Store, st': Store, defaults: seq<(string, string)>)
    requires |defaults| > 0
    requires SeededFrom(st, defaults[..1], st1)
    requires SeededFrom(st1, defaults[1..], st')
    ensures SeededFrom(st, defaults, st')
  {
    assert forall k :: 1 <= k < |defaults| ==> defaults[k] == defaults[1..][k - 1];
    assert defaults[..1][0] == defaults[0];
    PrefixOfPrefix(st.languages, st1.languages, st'.languages);
    if forall k :: 0 <= k < |defaults| ==> FindLanguage(st.languages, defaults[k].0).Some? {
      assert st1 == st;
    }
  }

  /** One step of the seeding: insert the pair unless its code already has a row. */
  function SeedOne(st: Store, code: string, labelText: string, now: int): (st1: Store)
    ensures SeededFrom(st, [(code, labelText)], st1)
    ensures SeededRows(st.languages, st.nextId, [(code, labelText)], now, st1.languages)
  {
    if FindLanguage(st.languages, code).Some? then st
    else
      var row := Language(st.nextId, code, labelText, now, now);
      Languages.FindAfterAppendLanguage(st.languages, row);
      FindInPrefixAll(st.languages, [row]);
      assert [(code, labelText)][0] == (code, labelText);
      assert (st.languages + [row])[|st.languages|] == row;
      st.(languages := st.languages + [row], nextId := st.nextId + 1)
  }

  /** A prefix of a prefix is a prefix. */
  lemma PrefixOfPrefix<T>(a: seq<T>, b: seq<T>, c: seq<T>)
    requires |a| <= |b| <= |c| && b[..|a|] == a && c[..|b|] == b
    ensures c[..|a|] == a
  {
    assert c[..|a|] == c[..|b|][..|a|];
  }

  /** Every code found in a prefix is found at the same row after anything is appended. */
  lemma FindInPrefixAll(languages: seq<Language>, more: seq<Language>)
    ensures forall c :: FindLanguage(languages, c).Some? ==> FindLanguage(languages + more, c) == FindLanguage(languages, c)
  {
    forall c | FindLanguage(languages, c).Some?
      ensures FindLanguage(languages + more, c) == FindLanguage(languages, c)
    {
      FindInPrefix(languages, more, c);
    }
  }

  /** A code found in a prefix is found at the same row after anything is appended. */
  lemma {:induction false} FindInPrefix(languages: seq<Language>, more: seq<Language>, code: string)
    requires FindLanguage(languages, code).Some?
    ensures FindLanguage(languages + more, code) == FindLanguage(languages, code)
  {
    if languages[0].code != code {
      assert (languages + more)[1..] == languages[1..] + more;
      FindInPrefix(languages[1..], more, code);
    }
  }

  /**
   * `ensureLocalSetup`: insert the default profile when none is stored, insert
   * each default language whose code has no row, and return the stored
   * profile. The failure branch of the source cannot be reached.
   */
  function EnsureLocalSetup(st: Store, now: int): (r: Result<(Store, Profile)>)
    ensures r.Ok?
    ensures r.Ok? ==>
      var (st', p) := r.value;
      && st'.titles == st.titles && st'.logs == st.logs
      && FindProfile(st'.profiles, LocalOwnerKey) == Some(p)
      && (FindProfile(st.profiles, LocalOwnerKey).Some? ==>
            st'.profiles == st.profiles && p == FindProfile(st.profiles, LocalOwnerKey).value)
      && (FindProfile(st.profiles, LocalOwnerKey).None? ==>
            st'.profiles == st.profiles + [DefaultProfile(now)] && p == DefaultProfile(now))
      && DefaultsSeeded(st.languages, st.nextId, now, st'.languages, st'.nextId)
  {
    var st1 := EnsureProfile(st, now);
    var st2 := SeedLanguages(st1, DefaultLanguages, now);
    SeedLanguagesSeedsDefaults(st1, now);
    match FindProfile(st2.profiles, LocalOwnerKey)
    case None => Err(ConfigurationError(SetupFailedMessage))
    case Some(p) => Ok((st2, p))
  }

  /**
   * The language table after the default languages are seeded into `before`
   * (id counter `nextId`), giving `after` and counter `nextId'`: every default
   * code has a row, a code that had none carries its default label, rows are
   * only appended (one id each, as `SeededRows` describes), and codes that
   * had a row are still found at it.
   */
  ghost predicate DefaultsSeeded(before: seq<Language>, nextId: nat, now: int, after: seq<Language>, nextId': nat) {
    && (forall k :: 0 <= k < |DefaultLanguages| ==> FindLanguage(after, DefaultLanguages[k].0).Some?)
    && (forall k :: 0 <= k < |DefaultLanguages| && FindLanguage(before, DefaultLanguages[k].0).None? ==>
          FindLanguage(after, DefaultLanguages[k].0).value.labelText == DefaultLanguages[k].1)
    && (forall code :: FindLanguage(before, code).Some? ==> FindLanguage(after, code) == FindLanguage(before, code))
    && |after| >= |before| && after[..|before|] == before
    && nextId' == nextId + (|after| - |before|)
    && SeededRows(before, nextId, DefaultLanguages, now, after)
  }

  /** Seeding the default languages does what `DefaultsSeeded` describes. */
  lemma SeedLanguagesSeedsDefaults(st: Store, now: int)
    ensures var st' := SeedLanguages(st, DefaultLanguages, now);
      DefaultsSeeded(st.languages, st.nextId, now, st'.languages, st'.nextId)
  {
    var st' := SeedLanguages(st, DefaultLanguages, now);
    SeededDefaultLabels(st.languages, st.nextId, now, st'.languages);
  }

  /** The profile half of `ensureLocalSetup`: insert the default profile when none is stored. */
  function EnsureProfile(st: Store, now: int): (st': Store)
    ensures st'.titles == st.titles && st'.logs == st.logs
    ensures st'.languages == st.languages && st'.nextId == st.nextId
    ensures FindProfile(st.profiles, LocalOwnerKey).Some? ==> st' == st
    ensures FindProfile(st.profiles, LocalOwnerKey).None? ==>
      st'.profiles == st.profiles + [DefaultProfile(now)] && FindProfile(st'.profiles, LocalOwnerKey) == Some(DefaultProfile(now))
  {
    if FindProfile(st.profiles, LocalOwnerKey).None? then
      FindAppendedProfile(st.profiles, DefaultProfile(now));
      st.(profiles := st.profiles + [DefaultProfile(now)])
    else st
  }

  /** The default codes are distinct, so each missing one is seeded with its own label. */
  lemma SeededDefaultLabels(before: seq<Language>, nextId: nat, now: int, after: seq<Language>)
    requires SeededRows(before, nextId, DefaultLanguages, now, after)
    ensures forall k :: 0 <= k < |DefaultLanguages| && FindLanguage(before, DefaultLanguages[k].0).None? ==>
      FindLanguage(after, DefaultLanguages[k].0).value.labelText == DefaultLanguages[k].1
  {
    assert FirstOfCode(DefaultLanguages, 0);
    assert FirstOfCode(DefaultLanguages, 1) by {
      assert DefaultLanguages[0].0[0] != DefaultLanguages[1].0[0];
    }
  }

  /** A profile appended to a table without its key is what a lookup of the key finds. */
  lemma {:induction false} FindAppendedProfile(profiles: seq<Profile>, p: Profile)
    requires FindProfile(profiles, p.key).None?
    ensures FindProfile(profiles + [p], p.key) == Some(p)
  {
    if |profiles| > 0 {
      assert (profiles + [p])[1..] == profiles[1..] + [p];
      FindAppendedProfile(profiles[1..], p);
    }
  }

  /** Running the setup a second time changes nothing and returns the same profile. */
  lemma EnsureLocalSetupIdempotent(st: Store, now: int, later: int)
    ensures var (st1, p1) := EnsureLocalSetup(st, now).value;
      EnsureLocalSetup(st1, later) == Ok((st1, p1))
  {
    var (st1, p1) := EnsureLocalSetup(st, now).value;
    assert FindProfile(st1.profiles, LocalOwnerKey).Some?;
    assert SeedLanguages(st1, DefaultLanguages, later) == st1;
  }

  // ---------------------------------------------------------------------------
  // setLearningLanguage
  // ---------------------------------------------------------------------------

  /**
   * `setLearningLanguage`: validate like `upsert`, make sure the language row
   * carries the label (patching only a differing label), then point the
   * profile at the language, creating the profile when there is none.
   */
  function SetLearningLanguage(st: Store, code: string, newLabel: string, now: int): (r: Result<(Store, Profile)>)
    ensures |Languages.NormalizeLanguageCode(code)| == 0 <==> r == Err(ValidationError(Languages.CodeRequiredMessage))
    ensures |Languages.NormalizeLanguageCode(code)| > 0 && |Trim(newLabel)| == 0 <==>
      r == Err(ValidationError(Languages.LabelRequiredMessage))
    ensures r.Ok? <==> |Languages.NormalizeLanguageCode(code)| > 0 && |Trim(newLabel)| > 0
    ensures r.Ok? ==>
      var (st', p) := r.value;
      && p.learningLanguageCode == Languages.NormalizeLanguageCode(code)
      && p.learningLanguageLabel == Trim(newLabel)
      && p.updatedAt == now
      && FindProfile(st'.profiles, LocalOwnerKey) == Some(p)
      && FindLanguage(st'.languages, p.learningLanguageCode).Some?
      && FindLanguage(st'.languages, p.learningLanguageCode).value.labelText == p.learningLanguageLabel
      && st'.titles == st.titles && st'.logs == st.logs && st'.nextId >= st.nextId
  {
    var normalized := Languages.NormalizeLanguageCode(code);
    var trimmed := Trim(newLabel);
    if |normalized| == 0 then Err(ValidationError(Languages.CodeRequiredMessage))
    else if |trimmed| == 0 then Err(ValidationError(Languages.LabelRequiredMessage))
    else
      TrimIdempotent(newLabel);
      assert Titles.HasLabel(Some(trimmed)) && Trim(trimmed) == trimmed;
      var st1 := Titles.EnsureLanguage(st, normalized, Some(trimmed), now);
      var pointed := PointProfile(st1.profiles, normalized, trimmed, now);
      Ok((st1.(profiles := pointed.0), pointed.1))
  }

  /**
   * The profile half of `setLearningLanguage`: patch the local profile's
   * language, or insert a profile with the default display name.
   */
  function PointProfile(profiles: seq<Profile>, code: string, labelText: string, now: int): (r: (seq<Profile>, Profile))
    ensures FindProfile(r.0, LocalOwnerKey) == Some(r.1)
    ensures r.1.key == LocalOwnerKey && r.1.learningLanguageCode == code && r.1.learningLanguageLabel == labelText
    ensures r.1.updatedAt == now
    ensures FindProfile(profiles, LocalOwnerKey).Some? ==>
      && r.1.displayName == FindProfile(profiles, LocalOwnerKey).value.displayName
      && r.1.createdAt == FindProfile(profiles, LocalOwnerKey).value.createdAt
      && |r.0| == |profiles|
    ensures FindProfile(profiles, LocalOwnerKey).None? ==>
      r.1.displayName == DefaultDisplayName && r.1.createdAt == now && r.0 == profiles + [r.1]
  {
    match FindProfile(profiles, LocalOwnerKey)
    case Some(prior) =>
      var p := prior.(learningLanguageCode := code, learningLanguageLabel := labelText, updatedAt := now);
      (ReplaceProfile(profiles, p), p)
    case None =>
      var p := Profile(LocalOwnerKey, DefaultDisplayName, code, labelText, now, now);
      FindAppendedProfile(profiles, p);
      (profiles + [p], p)
  }

  /** After switching, `get` reports the new language, and the language table carries its label. */
  lemma SetThenGet(st: Store, code: string, newLabel: string, now: int)
    requires SetLearningLanguage(st, code, newLabel, now).Ok?
    ensures var st' := SetLearningLanguage(st, code, newLabel, now).value.0;
      && Get(st').learningLanguageCode == Languages.NormalizeLanguageCode(code)
      && Get(st').learningLanguageLabel == Trim(newLabel)
      && FindLanguage(st'.languages, Get(st').learningLanguageCode).value.labelText == Get(st').learningLanguageLabel
  {
  }

  /** Switching languages keeps one language row per code, and every row id below the counter. */
  lemma SetLearningLanguageKeepsUniqueLanguages(st: Store, code: string, newLabel: string, now: int)
    requires UniqueLanguages(st.languages)
    requires forall i :: 0 <= i < |st.languages| ==> st.languages[i].id < st.nextId
    requires SetLearningLanguage(st, code, newLabel, now).Ok?
    ensures var st' := SetLearningLanguage(st, code, newLabel, now).value.0;
      && UniqueLanguages(st'.languages)
      && forall i :: 0 <= i < |st'.languages| ==> st'.languages[i].id < st'.nextId
  {
    Titles.EnsureKeepsUniqueLanguages(st, Languages.NormalizeLanguageCode(code), Some(Trim(newLabel)), now);
  }

  /** The profile mutations touch no title or log and never move the counter back, so they keep the store consistent. */
  lemma SetupPreservesConsistency(st: Store, now: int)
    requires Consistent(st)
    ensures Consistent(EnsureLocalSetup(st, now).value.0)
  {
    SameRowsKeepConsistent(st, EnsureLocalSetup(st, now).value.0);
  }

  lemma SetLearningLanguagePreservesConsistency(st: Store, code: string, newLabel: string, now: int)
    requires Consistent(st)
    requires SetLearningLanguage(st, code, newLabel, now).Ok?
    ensures Consistent(SetLearningLanguage(st, code, newLabel, now).value.0)
  {
    SameRowsKeepConsistent(st, SetLearningLanguage(st, code, newLabel, now).value.0);
  }

  /** The store invariant speaks only of titles, logs and the counter. */
  lemma SameRowsKeepConsistent(st: Store, st': Store)
    requires Consistent(st)
    requires st'.titles == st.titles && st'.logs == st.logs && st'.nextId >= st.nextId
    ensures Consistent(st')
  {
  }
}

=== FILE: seqs.dfy ===
/**
 * The array operations the source uses: `filter`, `sort` with a comparator
 * and `slice(0, n)`.
 *
 * `sort` is modelled as a stable insertion sort over a "may come before"
 * relation `le` (the comparator returning a value <= 0). It is defined for
 * every relation and proved ordered when the relation is a total preorder.
 */
module Seqs {

  // ---------------------------------------------------------------------------
  // filter
  // ---------------------------------------------------------------------------

  /** `Array.prototype.filter`: the elements satisfying `p`, in order. */
  function Filter<T>(s: seq<T>, p: T -> bool): (r: seq<T>)
    ensures |r| <= |s|
    ensures forall i :: 0 <= i < |r| ==> r[i] in s && p(r[i])
    ensures forall i :: 0 <= i < |s| && p(s[i]) ==> s[i] in r
  {
    if |s| == 0 then []
    else
      var n := |s| - 1;
      assert s == s[..n] + [s[n]];
      Filter(s[..n], p) + (if p(s[n]) then [s[n]] else [])
  }

  lemma {:induction false} FilterConcat<T>(a: seq<T>, b: seq<T>, p: T -> bool)
    ensures Filter(a + b, p) == Filter(a, p) + Filter(b, p)
  {
    if |b| == 0 {
      assert a + b == a;
    } else {
      var n := |b| - 1;
      assert (a + b)[..|a + b| - 1] == a + b[..n];
      FilterConcat(a, b[..n], p);
    }
  }

  /** Filtering by a predicate every element satisfies changes nothing. */
  lemma {:induction false} FilterAll<T>(s: seq<T>, p: T -> bool)
    requires forall i :: 0 <= i < |s| ==> p(s[i])
    ensures Filter(s, p) == s
  {
    if |s| > 0 {
      FilterAll(s[..|s| - 1], p);
      assert s == s[..|s| - 1] + [s[|s| - 1]];
    }
  }

  /** Filtering out the one element that fails the predicate leaves the others, in order. */
  lemma {:induction false} FilterDropsOne<T>(s: seq<T>, p: T -> bool, k: nat)
    requires k < |s| && !p(s[k])
    requires forall j :: 0 <= j < |s| && j != k ==> p(s[j])
    ensures Filter(s, p) == s[..k] + s[k + 1..]
  {
    var n := |s| - 1;
    var front, last := s[..n], s[n];
    FrontLast(s);
    FilterSnoc(front, last, p);
    if k == n {
      FilterAll(front, p);
      assert s[k + 1..] == [];
    } else {
      FilterDropsOne(front, p, k);
      FilterDropsOneStep(s, k);
    }
  }

  /** Dropping index `k` before or after appending the last element gives the same sequence. */
  lemma FilterDropsOneStep<T>(s: seq<T>, k: nat)
    requires k < |s| - 1
    ensures s[..|s| - 1][..k] + s[..|s| - 1][k + 1..] + [s[|s| - 1]] == s[..k] + s[k + 1..]
  {
  }

  /** Two filters can be applied in either order. */
  lemma {:induction false} FilterCommute<T>(s: seq<T>, p: T -> bool, q: T -> bool)
    ensures Filter(Filter(s, p), q) == Filter(Filter(s, q), p)
  {
    if |s| > 0 {
      var n := |s| - 1;
      FilterCommute(s[..n], p, q);
      FilterConcat(Filter(s[..n], p), if p(s[n]) then [s[n]] else [], q);
      FilterConcat(Filter(s[..n], q), if q(s[n]) then [s[n]] else [], p);
      var last := [s[n]];
      assert last[..0] == [];
      assert Filter(last, p) == if p(s[n]) then last else [];
      assert Filter(last, q) == if q(s[n]) then last else [];
    }
  }

  /** Filtering twice by the same predicate is filtering once. */
  lemma FilterIdempotent<T>(s: seq<T>, p: T -> bool)
    ensures Filter(Filter(s, p), p) == Filter(s, p)
  {
    FilterAll(Filter(s, p), p);
  }

  /** Filtering by a predicate and by its negation splits the elements between the two results. */
  lemma {:induction false} FilterComplementCount<T>(s: seq<T>, p: T -> bool, q: T -> bool)
    requires forall x :: q(x) <==> !p(x)
    ensures |Filter(s, p)| + |Filter(s, q)| == |s|
  {
    if |s| > 0 {
      FilterComplementCount(s[..|s| - 1], p, q);
    }
  }

  /** Filtering keeps an element exactly when it was there and satisfies the predicate. */
  lemma FilterMembership<T>(s: seq<T>, p: T -> bool, x: T)
    ensures x in Filter(s, p) <==> x in s && p(x)
  {
    var r := Filter(s, p);
    if x in r {
      var i :| 0 <= i < |r| && r[i] == x;
    }
    if x in s && p(x) {
      var i :| 0 <= i < |s| && s[i] == x;
    }
  }

  // ---------------------------------------------------------------------------
  // sort
  // ---------------------------------------------------------------------------

  /** Every two elements are comparable and the relation is transitive. */
  ghost predicate TotalPreorder<T(!new)>(le: (T, T) -> bool) {
    && (forall a, b :: le(a, b) || le(b, a))
    && (forall a, b, c :: le(a, b) && le(b, c) ==> le(a, c))
  }

  /** A total preorder that is also antisymmetric, the shape of a string collation. */
  ghost predicate TotalOrder<T(!new)>(le: (T, T) -> bool) {
    && TotalPreorder(le)
    && (forall a, b :: le(a, b) && le(b, a) ==> a == b)
  }

  /** Every element may come before every later one. */
  ghost predicate SortedBy<T>(le: (T, T) -> bool, s: seq<T>) {
    forall i, j :: 0 <= i < j < |s| ==> le(s[i], s[j])
  }

  /** Places `x` before the first element it may precede. */
  function Insert<T>(x: T, s: seq<T>, le: (T, T) -> bool): (r: seq<T>)
    ensures multiset(r) == multiset{x} + multiset(s)
    ensures |r| == |s| + 1
  {
    if |s| == 0 then [x]
    else if le(x, s[0]) then [x] + s
    else
      assert s == [s[0]] + s[1..];
      [s[0]] + Insert(x, s[1..], le)
  }

  /** The comparator sort: a permutation of its input. */
  function Sort<T>(s: seq<T>, le: (T, T) -> bool): (r: seq<T>)
    ensures multiset(r) == multiset(s)
    ensures |r| == |s|
  {
    if |s| == 0 then []
    else
      assert s == [s[0]] + s[1..];
      Insert(s[0], Sort(s[1..], le), le)
  }

  lemma {:induction false} InsertSorted<T(!new)>(x: T, s: seq<T>, le: (T, T) -> bool)
    requires TotalPreorder(le)
    requires SortedBy(le, s)
    ensures SortedBy(le, Insert(x, s, le))
  {
    if |s| > 0 && !le(x, s[0]) {
      var t := s[1..];
      InsertSorted(x, t, le);
      var r := Insert(x, t, le);
      assert le(s[0], x);
      forall y | y in r
        ensures le(s[0], y)
      {
        assert y in multiset(r);
        if y != x {
          assert y in multiset(t);
          var k :| 0 <= k < |t| && t[k] == y;
          assert s[k + 1] == y;
        }
      }
      var full := [s[0]] + r;
      forall i, j | 0 <= i < j < |full|
        ensures le(full[i], full[j])
      {
        if i == 0 {
          assert full[j] == r[j - 1];
        } else {
          assert full[i] == r[i - 1] && full[j] == r[j - 1];
        }
      }
    }
  }

  /** Under a total preorder the sort's output is ordered. */
  lemma {:induction false} SortSorted<T(!new)>(s: seq<T>, le: (T, T) -> bool)
    requires TotalPreorder(le)
    ensures SortedBy(le, Sort(s, le))
  {
    if |s| > 0 {
      SortSorted(s[1..], le);
      InsertSorted(s[0], Sort(s[1..], le), le);
    }
  }

  /** A prefix of a sorted sequence is sorted. */
  lemma SortedPrefix<T>(le: (T, T) -> bool, s: seq<T>, n: nat)
    requires SortedBy(le, s) && n <= |s|
    ensures SortedBy(le, s[..n])
  {
  }

  /** The first element of a sort may precede every element of the input. */
  lemma SortHeadLeast<T(!new)>(s: seq<T>, le: (T, T) -> bool)
    requires TotalPreorder(le)
    requires |s| > 0
    ensures Sort(s, le)[0] in s
    ensures forall i :: 0 <= i < |s| ==> le(Sort(s, le)[0], s[i])
  {
    var r := Sort(s, le);
    SortSorted(s, le);
    assert r[0] in multiset(s);
    forall i | 0 <= i < |s|
      ensures le(r[0], s[i])
    {
      assert s[i] in multiset(r);
      var k :| 0 <= k < |r| && r[k] == s[i];
    }
  }

  /**
   * A window taken from the front of a sort holds the least elements: every
   * element left out may follow every element kept.
   */
  lemma SortWindowLeast<T(!new)>(s: seq<T>, le: (T, T) -> bool, n: nat)
    requires TotalPreorder(le)
    ensures forall i, k :: 0 <= i < |Take(Sort(s, le), n)| && 0 <= k < |s| && s[k] !in Take(Sort(s, le), n) ==>
      le(Take(Sort(s, le), n)[i], s[k])
  {
    var r := Sort(s, le);
    var w := Take(r, n);
    SortSorted(s, le);
    forall i, k | 0 <= i < |w| && 0 <= k < |s| && s[k] !in w
      ensures le(w[i], s[k])
    {
      assert s[k] in multiset(r);
      var p :| 0 <= p < |r| && r[p] == s[k];
      assert p >= |w|;
      assert w[i] == r[i];
    }
  }

  /** `Array.prototype.slice(0, n)`. */
  function Take<T>(s: seq<T>, n: nat): (r: seq<T>)
    ensures |r| == if n < |s| then n else |s|
    ensures r == s[..|r|]
  {
    if n < |s| then s[..n] else s
  }

  // ---------------------------------------------------------------------------
  // reduce((sum, x) => sum + f(x), 0)
  // ---------------------------------------------------------------------------

  /** The sum of `f` over the elements, left to right. */
  function SumBy<T>(s: seq<T>, f: T -> int): int {
    if |s| == 0 then 0 else SumBy(s[..|s| - 1], f) + f(s[|s| - 1])
  }

  /** The sum over a concatenation is the sum of the sums. */
  lemma {:induction false} SumByConcat<T>(a: seq<T>, b: seq<T>, f: T -> int)
    ensures SumBy(a + b, f) == SumBy(a, f) + SumBy(b, f)
  {
    if |b| == 0 {
      assert a + b == a;
    } else {
      assert (a + b)[..|a + b| - 1] == a + b[..|b| - 1];
      SumByConcat(a, b[..|b| - 1], f);
    }
  }

  /** The sum does not depend on the order of the elements. */
  lemma {:induction false} SumByPermutation<T>(a: seq<T>, b: seq<T>, f: T -> int)
    requires multiset(a) == multiset(b)
    ensures SumBy(a, f) == SumBy(b, f)
    decreases |a|
  {
    if |a| > 0 {
      var n := |a| - 1;
      var x := a[n];
      assert a == a[..n] + [x];
      assert x in multiset(b);
      var k :| 0 <= k < |b| && b[k] == x;
      assert b == b[..k] + [x] + b[k + 1..];
      var rest := b[..k] + b[k + 1..];
      assert multiset(a[..n]) == multiset(rest) by {
        calc {
          multiset(a[..n]) + multiset{x};
          multiset(a[..n] + [x]);
          multiset(b);
          multiset(b[..k] + [x] + b[k + 1..]);
          multiset(b[..k]) + multiset{x} + multiset(b[k + 1..]);
          multiset(rest) + multiset{x};
        }
        forall y
          ensures multiset(a[..n])[y] == multiset(rest)[y]
        {
          assert (multiset(a[..n]) + multiset{x})[y] == (multiset(rest) + multiset{x})[y];
        }
      }
      SumByPermutation(a[..n], rest, f);
      SumByConcat(b[..k] + [x], b[k + 1..], f);
      SumByConcat(b[..k], [x], f);
      SumByConcat(b[..k], b[k + 1..], f);
      assert [x][..0] == [];
    }
  }

  /** `f` where `p` holds, zero elsewhere. */
  function Masked<T>(p: T -> bool, f: T -> int): T -> int {
    (x: T) => if p(x) then f(x) else 0
  }

  /** Summing over the elements a filter keeps is summing the masked values over all. */
  lemma {:induction false} SumByFilter<T>(s: seq<T>, p: T -> bool, f: T -> int)
    ensures SumBy(Filter(s, p), f) == SumBy(s, Masked(p, f))
  {
    if |s| > 0 {
      var n := |s| - 1;
      SumByFilter(s[..n], p, f);
      SumByConcat(Filter(s[..n], p), if p(s[n]) then [s[n]] else [], f);
      assert [s[n]][..0] == [];
    }
  }

  /** A non-empty sequence is its front followed by its last element. */
  lemma FrontLast<T>(s: seq<T>)
    requires |s| > 0
    ensures s == s[..|s| - 1] + [s[|s| - 1]]
  {
  }

  /** Appending one element adds its value. */
  lemma SumBySnoc<T>(s: seq<T>, x: T, f: T -> int)
    ensures SumBy(s + [x], f) == SumBy(s, f) + f(x)
  {
    assert (s + [x])[..|s|] == s;
  }

  /** Replacing one element changes the sum by the difference of the two values. */
  lemma {:induction false} SumByUpdate<T>(s: seq<T>, i: nat, x: T, f: T -> int)
    requires i < |s|
    ensures SumBy(s[i := x], f) == SumBy(s, f) - f(s[i]) + f(x)
  {
    var n := |s| - 1;
    if i < n {
      assert s[i := x][..n] == s[..n][i := x];
      SumByUpdate(s[..n], i, x, f);
    } else {
      assert s[i := x][..n] == s[..n];
    }
  }

  /** Two functions that agree on every element have the same sum. */
  lemma {:induction false} SumByAgree<T>(s: seq<T>, f: T -> int, g: T -> int)
    requires forall i :: 0 <= i < |s| ==> f(s[i]) == g(s[i])
    ensures SumBy(s, f) == SumBy(s, g)
  {
    if |s| > 0 {
      SumByAgree(s[..|s| - 1], f, g);
    }
  }

  /** Filtering a sequence with one more element at the end. */
  lemma FilterSnoc<T>(s: seq<T>, x: T, p: T -> bool)
    ensures Filter(s + [x], p) == Filter(s, p) + (if p(x) then [x] else [])
  {
    assert (s + [x])[..|s|] == s;
  }

  /** A sum of non-negative values is non-negative. */
  lemma {:induction false} SumByNonNegative<T>(s: seq<T>, f: T -> int)
    requires forall i :: 0 <= i < |s| ==> f(s[i]) >= 0
    ensures SumBy(s, f) >= 0
  {
    if |s| > 0 {
      SumByNonNegative(s[..|s| - 1], f);
    }
  }
}

=== FILE: store.dfy ===
/**
 * The backend's tables as immutable values. Each table is a sequence in
 * creation order (the order of the datastore's indexes for rows sharing a
 * key); ids and the insertion counter that stands in for `_creationTime`
 * come from one counter, `nextId`. Every mutation is one atomic step from a
 * store to a store.
 */
module Store {
  import opened Wrappers
  import opened Constants
  import opened Seqs
  import Tracking

  type Id = nat

  /** The error every lookup of a missing title raises. */
  const TitleNotFoundMessage: string := "Title not found."

  datatype ContentType = Series | Movie

  /** A row of `titles`. */
  datatype Title = Title(
    id: Id,
    ownerKey: string,
    name: string,
    contentType: ContentType,
    languageCode: string,
    defaultUnitMinutes: Option<nat>,
    totalUnits: nat,
    totalMinutes: nat,
    archived: bool,
    createdAt: int,
    updatedAt: int)

  /** A row of `watchLogs`; `creationOrder` is its insertion counter. */
  datatype WatchLog = WatchLog(
    id: Id,
    creationOrder: nat,
    ownerKey: string,
    titleId: Id,
    units: nat,
    unitMinutes: nat,
    totalMinutes: nat,
    loggedAt: int,
    createdAt: int)

  /** A row of `languages`; `labelText` is the row's `label` (a keyword here). */
  datatype Language = Language(id: Id, code: string, labelText: string, createdAt: int, updatedAt: int)

  /** A row of `profiles`. */
  datatype Profile = Profile(
    key: string,
    displayName: string,
    learningLanguageCode: string,
    learningLanguageLabel: string,
    createdAt: int,
    updatedAt: int)

  datatype Store = Store(
    titles: seq<Title>,
    logs: seq<WatchLog>,
    languages: seq<Language>,
    profiles: seq<Profile>,
    nextId: nat)

  // ---------------------------------------------------------------------------
  // Titles
  // ---------------------------------------------------------------------------

  /** `ctx.db.get(titleId)`. */
  function FindTitle(titles: seq<Title>, id: Id): (r: Option<Title>)
    ensures r.Some? ==> r.value in titles && r.value.id == id
    ensures r.None? ==> forall i :: 0 <= i < |titles| ==> titles[i].id != id
  {
    if |titles| == 0 then None
    else if titles[0].id == id then Some(titles[0])
    else FindTitle(titles[1..], id)
  }

  /** `ctx.db.patch(title._id, …)`: the row with that id becomes `t`; every other row is kept. */
  function ReplaceTitle(titles: seq<Title>, t: Title): (r: seq<Title>)
    ensures |r| == |titles|
    ensures forall i :: 0 <= i < |r| ==> r[i] == if titles[i].id == t.id then t else titles[i]
  {
    seq(|titles|, i requires 0 <= i < |titles| => if titles[i].id == t.id then t else titles[i])
  }

  function HasTitleId(id: Id): Title -> bool {
    (t: Title) => t.id == id
  }

  function HasOtherTitleId(id: Id): Title -> bool {
    (t: Title) => t.id != id
  }

  predicate UniqueTitleIds(titles: seq<Title>) {
    forall i, j :: 0 <= i < j < |titles| ==> titles[i].id != titles[j].id
  }

  // ---------------------------------------------------------------------------
  // Watch logs
  // ---------------------------------------------------------------------------

  /** `ctx.db.get(logId)`. */
  function FindLog(logs: seq<WatchLog>, id: Id): (r: Option<WatchLog>)
    ensures r.Some? ==> r.value in logs && r.value.id == id
    ensures r.None? ==> forall i :: 0 <= i < |logs| ==> logs[i].id != id
  {
    if |logs| == 0 then None
    else if logs[0].id == id then Some(logs[0])
    else FindLog(logs[1..], id)
  }

  function IsLogOf(titleId: Id): WatchLog -> bool {
    (l: WatchLog) => l.titleId == titleId
  }

  function IsNotLogOf(titleId: Id): WatchLog -> bool {
    (l: WatchLog) => l.titleId != titleId
  }

  function HasOtherLogId(id: Id): WatchLog -> bool {
    (l: WatchLog) => l.id != id
  }

  function IsOwnedBy(ownerKey: string): WatchLog -> bool {
    (l: WatchLog) => l.ownerKey == ownerKey
  }

  /** The `by_title` index query: a title's logs in creation order. */
  function LogsOf(logs: seq<WatchLog>, titleId: Id): seq<WatchLog> {
    Filter(logs, IsLogOf(titleId))
  }

  predicate UniqueLogIds(logs: seq<WatchLog>) {
    forall i, j :: 0 <= i < j < |logs| ==> logs[i].id != logs[j].id
  }

  /** The `{units, totalMinutes}` projection the totals helpers fold over. */
  function Entries(logs: seq<WatchLog>): (r: seq<Tracking.TotalsEntry>)
    ensures |r| == |logs|
    ensures forall i :: 0 <= i < |logs| ==> r[i] == Tracking.TotalsEntry(logs[i].units, logs[i].totalMinutes)
  {
    seq(|logs|, i requires 0 <= i < |logs| => Tracking.TotalsEntry(logs[i].units, logs[i].totalMinutes))
  }

  /** Sum of `units` over some logs. */
  function UnitsSum(logs: seq<WatchLog>): nat {
    SumsNonNegative(logs);
    Tracking.SumUnits(Entries(logs))
  }

  /** Sum of `totalMinutes` over some logs. */
  function MinutesSum(logs: seq<WatchLog>): nat {
    SumsNonNegative(logs);
    Tracking.SumMinutes(Entries(logs))
  }

  lemma {:induction false} SumsNonNegative(logs: seq<WatchLog>)
    ensures Tracking.SumUnits(Entries(logs)) >= 0 && Tracking.SumMinutes(Entries(logs)) >= 0
  {
    if |logs| > 0 {
      var n := |logs| - 1;
      assert Entries(logs)[..n] == Entries(logs[..n]);
      SumsNonNegative(logs[..n]);
    }
  }

  /** Sums are additive over concatenation. */
  lemma SumsAppend(a: seq<WatchLog>, b: seq<WatchLog>)
    ensures UnitsSum(a + b) == UnitsSum(a) + UnitsSum(b)
    ensures MinutesSum(a + b) == MinutesSum(a) + MinutesSum(b)
  {
    assert Entries(a + b) == Entries(a) + Entries(b);
    Tracking.SumsConcat(Entries(a), Entries(b));
  }

  /** A single log sums to its own amounts. */
  lemma SumsSingleton(l: WatchLog)
    ensures UnitsSum([l]) == l.units && MinutesSum([l]) == l.totalMinutes
  {
    var e := Entries([l]);
    assert e == [Tracking.TotalsEntry(l.units, l.totalMinutes)];
    assert e[..|e| - 1] == [];
    assert Tracking.SumUnits(e) == l.units;
    assert UnitsSum([l]) == Tracking.SumUnits(e);
    assert Tracking.SumMinutes(e) == l.totalMinutes;
    assert MinutesSum([l]) == Tracking.SumMinutes(e);
  }

  /** A title's stored totals equal the sums over its current logs. */
  predicate TotalsMatch(logs: seq<WatchLog>, t: Title) {
    t.totalUnits == UnitsSum(LogsOf(logs, t.id)) && t.totalMinutes == MinutesSum(LogsOf(logs, t.id))
  }

  /** Every log row respects the shape `add` gives it. */
  predicate WellFormedLog(l: WatchLog) {
    l.units >= 1 && InUnitBounds(l.unitMinutes) && l.totalMinutes == l.units * l.unitMinutes
  }

  /**
   * The store invariant: unique ids below the counter, each log's creation
   * counter drawn with its id, well-formed logs, and for every live title,
   * totals equal to the sums over its logs.
   */
  predicate Consistent(st: Store) {
    && UniqueTitleIds(st.titles)
    && UniqueLogIds(st.logs)
    && (forall i :: 0 <= i < |st.titles| ==> st.titles[i].id < st.nextId)
    && (forall i :: 0 <= i < |st.logs| ==>
          st.logs[i].id < st.nextId && st.logs[i].creationOrder == st.logs[i].id && st.logs[i].titleId < st.nextId)
    && (forall i :: 0 <= i < |st.logs| ==> WellFormedLog(st.logs[i]))
    && (forall i :: 0 <= i < |st.titles| ==> TotalsMatch(st.logs, st.titles[i]))
  }

  /** After replacing a row by one with the same id, looking the id up finds the new row. */
  lemma {:induction false} FindAfterReplaceTitle(titles: seq<Title>, t: Title)
    requires FindTitle(titles, t.id).Some?
    ensures FindTitle(ReplaceTitle(titles, t), t.id) == Some(t)
  {
    if titles[0].id != t.id {
      assert ReplaceTitle(titles, t)[1..] == ReplaceTitle(titles[1..], t);
      FindAfterReplaceTitle(titles[1..], t);
    }
  }

  /** Under unique ids, looking up a row's id finds that row. */
  lemma FindUniqueTitle(titles: seq<Title>, k: nat)
    requires UniqueTitleIds(titles) && k < |titles|
    ensures FindTitle(titles, titles[k].id) == Some(titles[k])
  {
    var r := FindTitle(titles, titles[k].id);
    var j :| 0 <= j < |titles| && titles[j] == r.value;
  }

  /** No two logs share a creation counter, so the newest-first order has no ties. */
  predicate UniqueCreationOrders(logs: seq<WatchLog>) {
    forall i, j :: 0 <= i < j < |logs| ==> logs[i].creationOrder != logs[j].creationOrder
  }

  /** In a consistent store no two logs were created at the same point. */
  lemma ConsistentCreationOrdersUnique(st: Store)
    requires Consistent(st)
    ensures UniqueCreationOrders(st.logs)
  {
    forall i, j | 0 <= i < j < |st.logs|
      ensures st.logs[i].creationOrder != st.logs[j].creationOrder
    {
      assert st.logs[i].id != st.logs[j].id;
    }
  }

  /** Replacing a row by one with the same id keeps ids unique. */
  lemma ReplaceKeepsUniqueIds(titles: seq<Title>, t: Title)
    requires UniqueTitleIds(titles)
    requires FindTitle(titles, t.id).Some?
    ensures UniqueTitleIds(ReplaceTitle(titles, t))
    ensures forall i :: 0 <= i < |titles| ==> ReplaceTitle(titles, t)[i].id == titles[i].id
  {
  }

  /**
   * The store-level step of a log mutation: the logs change, the one title
   * whose logs changed is patched to match them, and every other title's
   * logs are as before.
   */
  lemma PatchKeepsTotals(titles: seq<Title>, logs: seq<WatchLog>, logs': seq<WatchLog>, t: Title)
    requires forall i :: 0 <= i < |titles| ==> TotalsMatch(logs, titles[i])
    requires forall i :: 0 <= i < |titles| && titles[i].id != t.id ==> LogsOf(logs', titles[i].id) == LogsOf(logs, titles[i].id)
    requires TotalsMatch(logs', t)
    ensures forall i :: 0 <= i < |titles| ==> TotalsMatch(logs', ReplaceTitle(titles, t)[i])
  {
  }

  /**
   * A log mutation keeps the store consistent when the new log table is well
   * formed and the one patched title matches its logs while every other
   * title's logs are unchanged.
   */
  lemma PatchKeepsConsistent(st: Store, logs': seq<WatchLog>, t: Title, nextId': nat)
    requires Consistent(st)
    requires FindTitle(st.titles, t.id).Some?
    requires TotalsMatch(logs', t)
    requires forall i :: 0 <= i < |st.titles| && st.titles[i].id != t.id ==> LogsOf(logs', st.titles[i].id) == LogsOf(st.logs, st.titles[i].id)
    requires UniqueLogIds(logs')
    requires forall i :: 0 <= i < |logs'| ==>
      logs'[i].id < nextId' && logs'[i].creationOrder == logs'[i].id && logs'[i].titleId < nextId' && WellFormedLog(logs'[i])
    requires st.nextId <= nextId'
    ensures Consistent(st.(titles := ReplaceTitle(st.titles, t), logs := logs', nextId := nextId'))
  {
    PatchKeepsTotals(st.titles, st.logs, logs', t);
    ReplaceKeepsUniqueIds(st.titles, t);
  }

  /** Dropping rows keeps log ids unique. */
  lemma {:induction false} FilterKeepsUniqueLogIds(logs: seq<WatchLog>, keep: WatchLog -> bool)
    requires UniqueLogIds(logs)
    ensures UniqueLogIds(Filter(logs, keep))
  {
    if |logs| > 0 {
      var n := |logs| - 1;
      assert logs[..n] + [logs[n]] == logs;
      FilterKeepsUniqueLogIds(logs[..n], keep);
      var front := Filter(logs[..n], keep);
      forall i | 0 <= i < |front|
        ensures front[i].id != logs[n].id
      {
        assert front[i] in logs[..n];
      }
    }
  }

  /** Dropping rows keeps title ids unique. */
  lemma {:induction false} FilterKeepsUniqueTitleIds(titles: seq<Title>, keep: Title -> bool)
    requires UniqueTitleIds(titles)
    ensures UniqueTitleIds(Filter(titles, keep))
  {
    if |titles| > 0 {
      var n := |titles| - 1;
      assert titles[..n] + [titles[n]] == titles;
      FilterKeepsUniqueTitleIds(titles[..n], keep);
      var front := Filter(titles[..n], keep);
      forall i | 0 <= i < |front|
        ensures front[i].id != titles[n].id
      {
        assert front[i] in titles[..n];
      }
    }
  }

  /** Dropping log rows keeps every per-row fact of the invariant. */
  lemma DropLogsKeepsRows(st: Store, keep: WatchLog -> bool)
    requires Consistent(st)
    ensures var logs' := Filter(st.logs, keep);
      && UniqueLogIds(logs')
      && forall i :: 0 <= i < |logs'| ==>
           logs'[i].id < st.nextId && logs'[i].creationOrder == logs'[i].id && logs'[i].titleId < st.nextId
           && WellFormedLog(logs'[i])
  {
    FilterKeepsUniqueLogIds(st.logs, keep);
  }

  /** Appending a fresh well-formed log keeps every per-row fact of the invariant, with the counter advanced. */
  lemma AppendLogKeepsRows(st: Store, l: WatchLog)
    requires Consistent(st)
    requires l.id == st.nextId && l.creationOrder == st.nextId && l.titleId < st.nextId && WellFormedLog(l)
    ensures var logs' := st.logs + [l];
      && UniqueLogIds(logs')
      && forall i :: 0 <= i < |logs'| ==>
           logs'[i].id < st.nextId + 1 && logs'[i].creationOrder == logs'[i].id && logs'[i].titleId < st.nextId + 1
           && WellFormedLog(logs'[i])
  {
    AppendKeepsUniqueIds(st.logs, l);
  }

  /** Dropping logs of no live title keeps the store consistent. */
  lemma DropLogsKeepsConsistent(st: Store, keep: WatchLog -> bool)
    requires Consistent(st)
    requires forall i, k :: 0 <= i < |st.titles| && 0 <= k < |st.logs| && st.logs[k].titleId == st.titles[i].id ==> keep(st.logs[k])
    ensures Consistent(st.(logs := Filter(st.logs, keep)))
  {
    DropLogsKeepsRows(st, keep);
    forall i | 0 <= i < |st.titles|
      ensures TotalsMatch(Filter(st.logs, keep), st.titles[i])
    {
      LogsOfAfterFilter(st.logs, keep, st.titles[i].id);
    }
  }

  /** Appending a row whose id is above every existing id keeps ids unique. */
  lemma AppendKeepsUniqueIds(logs: seq<WatchLog>, l: WatchLog)
    requires UniqueLogIds(logs)
    requires forall i :: 0 <= i < |logs| ==> logs[i].id < l.id
    ensures UniqueLogIds(logs + [l])
  {
  }

  /** The empty store is consistent. */
  lemma EmptyConsistent(nextId: nat)
    ensures Consistent(Store([], [], [], [], nextId))
  {
  }

  /** Appending a log of another title leaves a title's log list alone. */
  lemma LogsOfAppendOther(logs: seq<WatchLog>, l: WatchLog, titleId: Id)
    requires l.titleId != titleId
    ensures LogsOf(logs + [l], titleId) == LogsOf(logs, titleId)
  {
    FilterConcat(logs, [l], IsLogOf(titleId));
    assert [l][..0] == [];
  }

  /** Appending a log of the title extends its log list by that log. */
  lemma LogsOfAppendOwn(logs: seq<WatchLog>, l: WatchLog)
    ensures LogsOf(logs + [l], l.titleId) == LogsOf(logs, l.titleId) + [l]
  {
    FilterConcat(logs, [l], IsLogOf(l.titleId));
    assert [l][..0] == [];
  }

  /** Removing rows by a filter that keeps every log of a title leaves that title's log list alone. */
  lemma LogsOfAfterFilter(logs: seq<WatchLog>, keep: WatchLog -> bool, titleId: Id)
    requires forall i :: 0 <= i < |logs| && logs[i].titleId == titleId ==> keep(logs[i])
    ensures LogsOf(Filter(logs, keep), titleId) == LogsOf(logs, titleId)
  {
    FilterCommute(logs, keep, IsLogOf(titleId));
    var mine := LogsOf(logs, titleId);
    forall i | 0 <= i < |mine|
      ensures keep(mine[i])
    {
      assert mine[i] in logs;
    }
    FilterAll(mine, keep);
  }

  /** The logs of a title whose id no log references are empty. */
  lemma {:induction false} LogsOfNone(logs: seq<WatchLog>, titleId: Id)
    requires forall i :: 0 <= i < |logs| ==> logs[i].titleId != titleId
    ensures LogsOf(logs, titleId) == []
  {
    if |logs| > 0 {
      var n := |logs| - 1;
      LogsOfNone(logs[..n], titleId);
      assert !IsLogOf(titleId)(logs[n]);
    }
  }

  // ---------------------------------------------------------------------------
  // Languages and profiles
  // ---------------------------------------------------------------------------

  /** The `by_code` index's `.first()`: the earliest row with that code. */
  function FindLanguage(languages: seq<Language>, code: string): (r: Option<Language>)
    ensures r.Some? ==> r.value in languages && r.value.code == code
    ensures r.None? ==> forall i :: 0 <= i < |languages| ==> languages[i].code != code
  {
    if |languages| == 0 then None
    else if languages[0].code == code then Some(languages[0])
    else FindLanguage(languages[1..], code)
  }

  /** Patching the row with a given id. */
  function ReplaceLanguage(languages: seq<Language>, l: Language): (r: seq<Language>)
    ensures |r| == |languages|
    ensures forall i :: 0 <= i < |r| ==> r[i] == if languages[i].id == l.id then l else languages[i]
  {
    seq(|languages|, i requires 0 <= i < |languages| => if languages[i].id == l.id then l else languages[i])
  }

  /** Language codes are unique, and so are row ids. */
  predicate UniqueLanguages(languages: seq<Language>) {
    forall i, j :: 0 <= i < j < |languages| ==> languages[i].code != languages[j].code && languages[i].id != languages[j].id
  }

  /** Number of rows carrying a code. */
  function CountCode(languages: seq<Language>, code: string): nat {
    if |languages| == 0 then 0
    else CountCode(languages[..|languages| - 1], code) + (if languages[|languages| - 1].code == code then 1 else 0)
  }

  /** The `by_key` index's `.first()`. */
  function FindProfile(profiles: seq<Profile>, key: string): (r: Option<Profile>)
    ensures r.Some? ==> r.value in profiles && r.value.key == key
    ensures r.None? ==> forall i :: 0 <= i < |profiles| ==> profiles[i].key != key
  {
    if |profiles| == 0 then None
    else if profiles[0].key == key then Some(profiles[0])
    else FindProfile(profiles[1..], key)
  }

  /** Patching the first profile with a key. */
  function ReplaceProfile(profiles: seq<Profile>, p: Profile): (r: seq<Profile>)
    requires FindProfile(profiles, p.key).Some?
    ensures |r| == |profiles|
    ensures FindProfile(r, p.key) == Some(p)
  {
    if profiles[0].key == p.key then [p] + profiles[1..]
    else [profiles[0]] + ReplaceProfile(profiles[1..], p)
  }
}

=== FILE: strings.dfy ===
/**
 * The string primitives the source leans on: `trim`, ASCII case mapping,
 * `startsWith`, `split`/`join` on one separator, and decimal rendering and
 * reading of non-negative integers.
 */
module Strings {

  // ---------------------------------------------------------------------------
  // Whitespace and trim
  // ---------------------------------------------------------------------------

  /** ECMAScript WhiteSpace and LineTerminator code points, the set `trim` strips. */
  predicate IsWhitespace(c: char) {
    var n := c as int;
    || n == 0x09 || n == 0x0A || n == 0x0B || n == 0x0C || n == 0x0D || n == 0x20
    || n == 0xA0 || n == 0x1680 || (0x2000 <= n <= 0x200A) || n == 0x2028
    || n == 0x2029 || n == 0x202F || n == 0x205F || n == 0x3000 || n == 0xFEFF
  }

  /** Index of the first non-whitespace character at or after `i`, or `|s|` when there is none. */
  function SkipSpace(s: string, i: nat): (n: nat)
    requires i <= |s|
    ensures i <= n <= |s|
    ensures forall k :: i <= k < n ==> IsWhitespace(s[k])
    ensures n < |s| ==> !IsWhitespace(s[n])
    decreases |s| - i
  {
    if i == |s| || !IsWhitespace(s[i]) then i else SkipSpace(s, i + 1)
  }

  /** Index just past the last non-whitespace character of `s[lo..j]`, or `lo` when there is none. */
  function SkipSpaceBack(s: string, lo: nat, j: nat): (e: nat)
    requires lo <= j <= |s|
    ensures lo <= e <= j
    ensures forall k :: e <= k < j ==> IsWhitespace(s[k])
    ensures e > lo ==> !IsWhitespace(s[e - 1])
    decreases j
  {
    if j == lo || !IsWhitespace(s[j - 1]) then j else SkipSpaceBack(s, lo, j - 1)
  }

  /** How many characters `trim` drops from the front. */
  function LeadingSpace(s: string): nat
  {
    SkipSpace(s, 0)
  }

  /** `String.prototype.trim`: the slice between the leading and the trailing whitespace runs. */
  function Trim(s: string): (r: string)
    ensures |r| > 0 ==> !IsWhitespace(r[0]) && !IsWhitespace(r[|r| - 1])
    ensures LeadingSpace(s) + |r| <= |s| && r == s[LeadingSpace(s)..LeadingSpace(s) + |r|]
    ensures forall i :: 0 <= i < LeadingSpace(s) ==> IsWhitespace(s[i])
    ensures forall i :: LeadingSpace(s) + |r| <= i < |s| ==> IsWhitespace(s[i])
  {
    var lead := LeadingSpace(s);
    s[lead..SkipSpaceBack(s, lead, |s|)]
  }

  /** A string with no whitespace at either end is its own trim. */
  lemma TrimOfTrimmed(s: string)
    requires |s| > 0 ==> !IsWhitespace(s[0]) && !IsWhitespace(s[|s| - 1])
    ensures Trim(s) == s
  {
  }

  /** Trimming twice is trimming once. */
  lemma TrimIdempotent(s: string)
    ensures Trim(Trim(s)) == Trim(s)
  {
    TrimOfTrimmed(Trim(s));
  }

  // ---------------------------------------------------------------------------
  // ASCII case mapping
  // ---------------------------------------------------------------------------

  predicate IsAsciiUpper(c: char) {
    'A' <= c <= 'Z'
  }

  predicate IsAsciiLower(c: char) {
    'a' <= c <= 'z'
  }

  /** `toLowerCase` on one character, for the ASCII letters. */
  function LowerChar(c: char): (r: char)
    ensures !IsAsciiUpper(r)
    ensures IsAsciiUpper(c) ==> r as int == c as int + 32
    ensures !IsAsciiUpper(c) ==> r == c
  {
    if IsAsciiUpper(c) then (c as int + 32) as char else c
  }

  /** `toUpperCase` on one character, for the ASCII letters. */
  function UpperChar(c: char): (r: char)
    ensures !IsAsciiLower(r)
    ensures IsAsciiLower(c) ==> r as int == c as int - 32
    ensures !IsAsciiLower(c) ==> r == c
  {
    if IsAsciiLower(c) then (c as int - 32) as char else c
  }

  /** `toLowerCase`: same length, no upper-case ASCII letter left, everything else untouched. */
  function ToLower(s: string): (r: string)
    ensures |r| == |s|
    ensures forall i :: 0 <= i < |r| ==> !IsAsciiUpper(r[i])
    ensures forall i :: 0 <= i < |s| && !IsAsciiUpper(s[i]) ==> r[i] == s[i]
  {
    seq(|s|, i requires 0 <= i < |s| => LowerChar(s[i]))
  }

  /** `toUpperCase`: same length, no lower-case ASCII letter left, everything else untouched. */
  function ToUpper(s: string): (r: string)
    ensures |r| == |s|
    ensures forall i :: 0 <= i < |r| ==> !IsAsciiLower(r[i])
    ensures forall i :: 0 <= i < |s| && !IsAsciiLower(s[i]) ==> r[i] == s[i]
  {
    seq(|s|, i requires 0 <= i < |s| => UpperChar(s[i]))
  }

  /** Lower-casing never creates nor removes whitespace, so it commutes with trim. */
  lemma ToLowerKeepsWhitespace(s: string)
    ensures forall i :: 0 <= i < |s| ==> (IsWhitespace(ToLower(s)[i]) <==> IsWhitespace(s[i]))
  {
  }

  /** A lower-cased string is unchanged by lower-casing again. */
  lemma ToLowerIdempotent(s: string)
    ensures ToLower(ToLower(s)) == ToLower(s)
  {
  }

  // ---------------------------------------------------------------------------
  // Prefixes
  // ---------------------------------------------------------------------------

  /** `String.prototype.startsWith`. */
  predicate StartsWith(s: string, prefix: string) {
    |prefix| <= |s| && s[..|prefix|] == prefix
  }

  /** `String.prototype.endsWith`. */
  predicate EndsWith(s: string, suffix: string) {
    |suffix| <= |s| && s[|s| - |suffix|..] == suffix
  }

  // ---------------------------------------------------------------------------
  // split / join on a single separator character
  // ---------------------------------------------------------------------------

  /** `s.split(sep)` for a one-character separator: never empty, empty fields kept. */
  function Split(s: string, sep: char): (r: seq<string>)
    ensures |r| >= 1
    ensures forall k :: 0 <= k < |r| ==> sep !in r[k]
  {
    if |s| == 0 then [""]
    else
      var rest := Split(s[1..], sep);
      if s[0] == sep then [""] + rest
      else [[s[0]] + rest[0]] + rest[1..]
  }

  /** `parts.join(sep)`. */
  function Join(parts: seq<string>, sep: char): string {
    if |parts| == 0 then ""
    else if |parts| == 1 then parts[0]
    else parts[0] + [sep] + Join(parts[1..], sep)
  }

  /** Splitting a string that starts with a separator-free field and a separator. */
  lemma {:induction false} SplitAtFirst(a: string, sep: char, b: string)
    requires sep !in a
    ensures Split(a + [sep] + b, sep) == [a] + Split(b, sep)
  {
    if |a| == 0 {
      assert a + [sep] + b == [sep] + b;
      assert ([sep] + b)[1..] == b;
    } else {
      assert (a + [sep] + b)[1..] == a[1..] + [sep] + b;
      SplitAtFirst(a[1..], sep, b);
      assert [a[0]] + a[1..] == a;
    }
  }

  /** Splitting around one separator splits each side on its own. */
  lemma {:induction false} SplitAround(a: string, sep: char, b: string)
    ensures Split(a + [sep] + b, sep) == Split(a, sep) + Split(b, sep)
  {
    if |a| == 0 {
      SplitAtFirst(a, sep, b);
    } else {
      assert (a + [sep] + b)[1..] == a[1..] + [sep] + b;
      SplitAround(a[1..], sep, b);
    }
  }

  /** A separator-free string splits into itself. */
  lemma {:induction false} SplitOfField(a: string, sep: char)
    requires sep !in a
    ensures Split(a, sep) == [a]
  {
    if |a| > 0 {
      SplitOfField(a[1..], sep);
      assert [a[0]] + a[1..] == a;
    }
  }

  /** `split` inverts `join` for non-empty lists of separator-free fields. */
  lemma {:induction false} SplitJoin(parts: seq<string>, sep: char)
    requires |parts| >= 1
    requires forall k :: 0 <= k < |parts| ==> sep !in parts[k]
    ensures Split(Join(parts, sep), sep) == parts
  {
    if |parts| == 1 {
      SplitOfField(parts[0], sep);
    } else {
      SplitJoin(parts[1..], sep);
      SplitAtFirst(parts[0], sep, Join(parts[1..], sep));
      assert [parts[0]] + parts[1..] == parts;
    }
  }

  /** `join` inverts `split`: no character is lost or added. */
  lemma {:induction false} JoinSplit(s: string, sep: char)
    ensures Join(Split(s, sep), sep) == s
  {
    if |s| > 0 {
      JoinSplit(s[1..], sep);
      var rest := Split(s[1..], sep);
      if s[0] == sep {
        assert ([""] + rest)[1..] == rest;
        assert s == [sep] + s[1..];
      } else {
        var r := [[s[0]] + rest[0]] + rest[1..];
        if |rest| == 1 {
          assert s == [s[0]] + rest[0];
        } else {
          assert r[1..] == rest[1..];
          assert Join(rest, sep) == rest[0] + [sep] + Join(rest[1..], sep);
          assert s == [s[0]] + s[1..];
        }
      }
    }
  }

  // ---------------------------------------------------------------------------
  // Decimal integers
  // ---------------------------------------------------------------------------

  predicate IsDigit(c: char) {
    '0' <= c <= '9'
  }

  /** The regular expression `^\d+$`: a non-empty run of ASCII digits. */
  predicate IsDigits(s: string) {
    |s| > 0 && forall i :: 0 <= i < |s| ==> IsDigit(s[i])
  }

  function DigitChar(d: nat): (c: char)
    requires d < 10
    ensures IsDigit(c) && c as int - '0' as int == d
  {
    ('0' as int + d) as char
  }

  function DigitValue(c: char): (d: nat)
    requires IsDigit(c)
    ensures d < 10
  {
    c as int - '0' as int
  }

  /** Template-literal rendering of a non-negative integer: shortest decimal digits. */
  function NatToString(n: nat): (r: string)
    ensures IsDigits(r)
    ensures n > 0 ==> r[0] != '0'
  {
    if n < 10 then [DigitChar(n)] else NatToString(n / 10) + [DigitChar(n % 10)]
  }

  /** `Number(s)` on a string of digits. */
  function DecimalValue(s: string): nat
    requires forall i :: 0 <= i < |s| ==> IsDigit(s[i])
  {
    if |s| == 0 then 0 else DecimalValue(s[..|s| - 1]) * 10 + DigitValue(s[|s| - 1])
  }

  /** Reading back a rendered number yields the number. */
  lemma {:induction false} DecimalRoundTrip(n: nat)
    ensures DecimalValue(NatToString(n)) == n
  {
    var s := NatToString(n);
    if n >= 10 {
      DecimalRoundTrip(n / 10);
      assert s[..|s| - 1] == NatToString(n / 10);
    }
  }

  /** Rendering is injective. */
  lemma NatToStringInjective(a: nat, b: nat)
    requires NatToString(a) == NatToString(b)
    ensures a == b
  {
    DecimalRoundTrip(a);
    DecimalRoundTrip(b);
  }

  /** Number of leading ASCII digits of `s`. */
  function LeadingDigits(s: string): (k: nat)
    ensures k <= |s|
    ensures forall i :: 0 <= i < k ==> IsDigit(s[i])
    ensures k < |s| ==> !IsDigit(s[k])
  {
    if |s| == 0 || !IsDigit(s[0]) then 0 else 1 + LeadingDigits(s[1..])
  }

  /** The leading digit run of a rendered number followed by a non-digit is exactly that number. */
  lemma LeadingDigitsOfRendered(n: nat, t: string)
    requires |t| > 0 ==> !IsDigit(t[0])
    ensures LeadingDigits(NatToString(n) + t) == |NatToString(n)|
  {
    var d := NatToString(n);
    LeadingDigitsOfDigits(d, t);
  }

  lemma {:induction false} LeadingDigitsOfDigits(d: string, t: string)
    requires forall i :: 0 <= i < |d| ==> IsDigit(d[i])
    requires |t| > 0 ==> !IsDigit(t[0])
    ensures LeadingDigits(d + t) == |d|
  {
    if |d| > 0 {
      LeadingDigitsOfDigits(d[1..], t);
      assert (d + t)[1..] == d[1..] + t;
    }
  }
}

=== FILE: titles.dfy ===
/**
 * The title catalogue: the filtered, ordered listing, and the mutations
 * that create, edit and delete titles. Creating or re-languaging a title
 * makes sure the language has a row first (`ensureLanguage`).
 */
module Titles {
  import opened Wrappers
  import opened JsNumber
  import opened Constants
  import opened Strings
  import opened Seqs
  import opened Store
  import Languages

  const NameRequiredMessage: string := "Title name is required."
  const InitialMinutesMessage: string := "Initial minutes must be an integer between 1 and 400."
  const DefaultMinutesMessage: string := "Default minutes must be an integer between 1 and 400."
  const RemovePermissionMessage: string := "You do not have permission to remove this title."

  /** A client-supplied minute count the mutations accept: an integer within the unit bounds. */
  predicate ValidMinutes(n: Number) {
    IsInteger(n) && InUnitBounds(IntValue(n))
  }

  /** The stored value of a minute count that passed `ValidMinutes`. */
  function MinutesValue(n: Number): (r: nat)
    requires ValidMinutes(n)
    ensures FromInt(r) == n && InUnitBounds(r)
  {
    IntValue(n)
  }

  // ---------------------------------------------------------------------------
  // ensureLanguage
  // ---------------------------------------------------------------------------

  /** A supplied label with something left after trimming (`label?.trim()` is truthy). */
  predicate HasLabel(labelArg: Option<string>) {
    labelArg.Some? && |Trim(labelArg.value)| > 0
  }

  /** The label a missing language row is inserted with: the trimmed label, else the upper-cased code. */
  function InsertedLabel(code: string, labelArg: Option<string>): (r: string)
    ensures HasLabel(labelArg) ==> r == Trim(labelArg.value)
    ensures !HasLabel(labelArg) ==> |r| == |code| && forall i :: 0 <= i < |r| ==> !IsAsciiLower(r[i])
  {
    if HasLabel(labelArg) then Trim(labelArg.value) else ToUpper(code)
  }

  /**
   * `ensureLanguage`: a missing row is inserted; an existing row is relabelled
   * only when a non-blank label differing from the stored one is supplied.
   */
  function EnsureLanguage(st: Store, code: string, labelArg: Option<string>, now: int): (st': Store)
    ensures st'.titles == st.titles && st'.logs == st.logs && st'.profiles == st.profiles
    ensures st'.nextId >= st.nextId
    ensures FindLanguage(st'.languages, code).Some?
    ensures HasLabel(labelArg) ==> FindLanguage(st'.languages, code).value.labelText == Trim(labelArg.value)
    ensures FindLanguage(st.languages, code).None? ==>
      && st'.languages == st.languages + [Language(st.nextId, code, InsertedLabel(code, labelArg), now, now)]
      && st'.nextId == st.nextId + 1
    ensures FindLanguage(st.languages, code).Some? ==>
      && st'.nextId == st.nextId && |st'.languages| == |st.languages|
      && FindLanguage(st'.languages, code).value.id == FindLanguage(st.languages, code).value.id
      && FindLanguage(st'.languages, code).value.labelText ==
           (if HasLabel(labelArg) then Trim(labelArg.value) else FindLanguage(st.languages, code).value.labelText)
    ensures && FindLanguage(st.languages, code).Some? && HasLabel(labelArg)
            && FindLanguage(st.languages, code).value.labelText != Trim(labelArg.value) ==>
      st'.languages == ReplaceLanguage(st.languages,
        FindLanguage(st.languages, code).value.(labelText := Trim(labelArg.value), updatedAt := now))
    ensures st' == st <==>
      FindLanguage(st.languages, code).Some?
      && (!HasLabel(labelArg) || FindLanguage(st.languages, code).value.labelText == Trim(labelArg.value))
  {
    match FindLanguage(st.languages, code)
    case None =>
      var row := Language(st.nextId, code, InsertedLabel(code, labelArg), now, now);
      Languages.FindAfterAppendLanguage(st.languages, row);
      st.(languages := st.languages + [row], nextId := st.nextId + 1)
    case Some(existing) =>
      if HasLabel(labelArg) && existing.labelText != Trim(labelArg.value) then
        var patched := existing.(labelText := Trim(labelArg.value), updatedAt := now);
        Languages.FindAfterReplaceLanguage(st.languages, patched);
        var st' := st.(languages := ReplaceLanguage(st.languages, patched));
        assert FindLanguage(st'.languages, code) != FindLanguage(st.languages, code);
        st'
      else
        st
  }

  /** A second call with the same code and label finds nothing to do. */
  lemma EnsureLanguageIdempotent(st: Store, code: string, labelArg: Option<string>, now: int, later: int)
    ensures var st' := EnsureLanguage(st, code, labelArg, now);
      EnsureLanguage(st', code, labelArg, later) == st'
  {
  }

  /** `ensureLanguage` keeps one row per code and ids below the counter. */
  lemma EnsureKeepsUniqueLanguages(st: Store, code: string, labelArg: Option<string>, now: int)
    requires UniqueLanguages(st.languages)
    requires forall i :: 0 <= i < |st.languages| ==> st.languages[i].id < st.nextId
    ensures var st' := EnsureLanguage(st, code, labelArg, now);
      && UniqueLanguages(st'.languages)
      && forall i :: 0 <= i < |st'.languages| ==> st'.languages[i].id < st'.nextId
  {
    match FindLanguage(st.languages, code)
    case None =>
      Languages.AppendKeepsUniqueLanguages(st.languages, Language(st.nextId, code, InsertedLabel(code, labelArg), now, now));
    case Some(existing) =>
      if HasLabel(labelArg) && existing.labelText != Trim(labelArg.value) {
        Languages.ReplaceKeepsUniqueLanguages(st.languages, existing.(labelText := Trim(labelArg.value), updatedAt := now));
        assert existing in st.languages;
      }
  }

  // ---------------------------------------------------------------------------
  // list
  // ---------------------------------------------------------------------------

  /** The language filter in force: the normalised code when it is non-empty, else none. */
  function CodeFilter(languageCode: Option<string>): (r: Option<string>)
    ensures r.Some? <==> languageCode.Some? && |Languages.NormalizeLanguageCode(languageCode.value)| > 0
    ensures r.Some? ==> r.value == Languages.NormalizeLanguageCode(languageCode.value)
  {
    if languageCode.Some? && |Languages.NormalizeLanguageCode(languageCode.value)| > 0 then
      Some(Languages.NormalizeLanguageCode(languageCode.value))
    else
      None
  }

  /** Whether `list` shows a title: local, and matching every filter that is given. */
  predicate Shown(t: Title, code: Option<string>, contentType: Option<ContentType>, archived: Option<bool>) {
    && t.ownerKey == LocalOwnerKey
    && (code.Some? ==> t.languageCode == code.value)
    && (contentType.Some? ==> t.contentType == contentType.value)
    && (archived.Some? ==> t.archived == archived.value)
  }

  function ShownBy(code: Option<string>, contentType: Option<ContentType>, archived: Option<bool>): Title -> bool {
    (t: Title) => Shown(t, code, contentType, archived)
  }

  /**
   * `list`'s comparator as a "may come before" relation: language code by
   * collation, then most recently updated first, then name by collation.
   */
  function ListOrder(strLe: (string, string) -> bool): (Title, Title) -> bool {
    (a: Title, b: Title) =>
      if a.languageCode != b.languageCode then strLe(a.languageCode, b.languageCode)
      else if a.updatedAt != b.updatedAt then a.updatedAt > b.updatedAt
      else strLe(a.name, b.name)
  }

  /** `list`. */
  function List(st: Store, languageCode: Option<string>, contentType: Option<ContentType>, archived: Option<bool>,
                strLe: (string, string) -> bool): (r: seq<Title>)
    ensures multiset(r) == multiset(Filter(st.titles, ShownBy(CodeFilter(languageCode), contentType, archived)))
  {
    Sort(Filter(st.titles, ShownBy(CodeFilter(languageCode), contentType, archived)), ListOrder(strLe))
  }

  /** A title is listed exactly when it is stored and passes every filter. */
  lemma ListMembership(st: Store, languageCode: Option<string>, contentType: Option<ContentType>, archived: Option<bool>,
                       strLe: (string, string) -> bool, t: Title)
    ensures t in List(st, languageCode, contentType, archived, strLe) <==>
      t in st.titles && Shown(t, CodeFilter(languageCode), contentType, archived)
  {
    var shown := ShownBy(CodeFilter(languageCode), contentType, archived);
    FilterMembership(st.titles, shown, t);
    assert t in List(st, languageCode, contentType, archived, strLe) <==> t in multiset(Filter(st.titles, shown));
  }

  /** Under a total order on strings, the composite comparator is a total preorder. */
  lemma ListOrderIsTotalPreorder(strLe: (string, string) -> bool)
    requires TotalOrder(strLe)
    ensures TotalPreorder(ListOrder(strLe))
  {
    var le := ListOrder(strLe);
    forall a, b
      ensures le(a, b) || le(b, a)
    {
      assert strLe(a.languageCode, b.languageCode) || strLe(b.languageCode, a.languageCode);
      assert strLe(a.name, b.name) || strLe(b.name, a.name);
    }
    forall a, b, c | le(a, b) && le(b, c)
      ensures le(a, c)
    {
      if a.languageCode == b.languageCode && b.languageCode == c.languageCode {
        if a.updatedAt == b.updatedAt && b.updatedAt == c.updatedAt {
          assert strLe(a.name, b.name) && strLe(b.name, c.name);
        }
      } else if a.languageCode != c.languageCode {
        assert strLe(a.languageCode, b.languageCode) && strLe(b.languageCode, c.languageCode);
      }
    }
  }

  /**
   * Under a total order on strings the listing follows the comparator: grouped
   * by code, newest first within a code, then by name.
   */
  lemma ListSorted(st: Store, languageCode: Option<string>, contentType: Option<ContentType>, archived: Option<bool>,
                   strLe: (string, string) -> bool)
    requires TotalOrder(strLe)
    ensures var r := List(st, languageCode, contentType, archived, strLe);
      forall i, j :: 0 <= i < j < |r| ==>
        if r[i].languageCode != r[j].languageCode then strLe(r[i].languageCode, r[j].languageCode)
        else if r[i].updatedAt != r[j].updatedAt then r[i].updatedAt > r[j].updatedAt
        else strLe(r[i].name, r[j].name)
  {
    ListOrderIsTotalPreorder(strLe);
    SortSorted(Filter(st.titles, ShownBy(CodeFilter(languageCode), contentType, archived)), ListOrder(strLe));
  }

  // ---------------------------------------------------------------------------
  // create
  // ---------------------------------------------------------------------------

  /**
   * `create`: validate the name, the code and the optional initial minutes in
   * that order, make sure the language exists, then insert an empty title.
   */
  function Create(st: Store, name: string, contentType: ContentType, languageCode: string,
                  languageLabel: Option<string>, initialUnitMinutes: Option<Number>, now: int): (r: Result<(Store, Title)>)
    ensures |Trim(name)| == 0 ==> r == Err(ValidationError(NameRequiredMessage))
    ensures |Trim(name)| > 0 && |Languages.NormalizeLanguageCode(languageCode)| == 0 ==>
      r == Err(ValidationError(Languages.CodeRequiredMessage))
    ensures (&& |Trim(name)| > 0 && |Languages.NormalizeLanguageCode(languageCode)| > 0
             && initialUnitMinutes.Some? && !ValidMinutes(initialUnitMinutes.value)) ==>
      r == Err(ValidationError(InitialMinutesMessage))
    ensures r.Ok? <==>
      |Trim(name)| > 0 && |Languages.NormalizeLanguageCode(languageCode)| > 0
      && (initialUnitMinutes.Some? ==> ValidMinutes(initialUnitMinutes.value))
    ensures r.Ok? ==>
      var (st', t) := r.value;
      var code := Languages.NormalizeLanguageCode(languageCode);
      && t.name == Trim(name) && t.languageCode == code && t.contentType == contentType
      && t.ownerKey == LocalOwnerKey && !t.archived && t.totalUnits == 0 && t.totalMinutes == 0
      && (initialUnitMinutes.None? <==> t.defaultUnitMinutes.None?)
      && (initialUnitMinutes.Some? ==> FromInt(t.defaultUnitMinutes.value) == initialUnitMinutes.value)
      && t.createdAt == now && t.updatedAt == now
      && t.id >= st.nextId && st'.nextId == t.id + 1
      && st'.titles == st.titles + [t] && st'.logs == st.logs && st'.profiles == st.profiles
      && FindLanguage(st'.languages, code).Some?
      && st'.languages == EnsureLanguage(st, code, languageLabel, now).languages
      && t.id == EnsureLanguage(st, code, languageLabel, now).nextId
  {
    var trimmed := Trim(name);
    var code := Languages.NormalizeLanguageCode(languageCode);
    if |trimmed| == 0 then Err(ValidationError(NameRequiredMessage))
    else if |code| == 0 then Err(ValidationError(Languages.CodeRequiredMessage))
    else if initialUnitMinutes.Some? && !ValidMinutes(initialUnitMinutes.value) then
      Err(ValidationError(InitialMinutesMessage))
    else
      var st1 := EnsureLanguage(st, code, languageLabel, now);
      var minutes := if initialUnitMinutes.Some? then Some(MinutesValue(initialUnitMinutes.value)) else None;
      var t := Title(st1.nextId, LocalOwnerKey, trimmed, contentType, code, minutes, 0, 0, false, now, now);
      Ok((st1.(titles := st1.titles + [t], nextId := st1.nextId + 1), t))
  }

  /** A consistent store stays consistent when a title is created. */
  lemma CreatePreservesConsistency(st: Store, name: string, contentType: ContentType, languageCode: string,
                                   languageLabel: Option<string>, initialUnitMinutes: Option<Number>, now: int)
    requires Consistent(st)
    requires Create(st, name, contentType, languageCode, languageLabel, initialUnitMinutes, now).Ok?
    ensures Consistent(Create(st, name, contentType, languageCode, languageLabel, initialUnitMinutes, now).value.0)
  {
    var (st', t) := Create(st, name, contentType, languageCode, languageLabel, initialUnitMinutes, now).value;
    InsertTitleKeepsConsistent(st, st', t);
  }

  /** Appending an empty title with a fresh id keeps the store consistent. */
  lemma InsertTitleKeepsConsistent(st: Store, st': Store, t: Title)
    requires Consistent(st)
    requires st'.titles == st.titles + [t] && st'.logs == st.logs
    requires t.id >= st.nextId && st'.nextId == t.id + 1 && t.totalUnits == 0 && t.totalMinutes == 0
    ensures Consistent(st')
  {
    LogsOfNone(st.logs, t.id);
    assert TotalsMatch(st'.logs, t);
  }

  /** `create` followed by `remove` of the new title restores the titles and logs. */
  lemma CreateThenRemove(st: Store, name: string, contentType: ContentType, languageCode: string,
                         languageLabel: Option<string>, initialUnitMinutes: Option<Number>, now: int)
    requires Consistent(st)
    requires Create(st, name, contentType, languageCode, languageLabel, initialUnitMinutes, now).Ok?
    ensures var (st1, t) := Create(st, name, contentType, languageCode, languageLabel, initialUnitMinutes, now).value;
      var r := Remove(st1, t.id);
      && r.Ok? && r.value.1 == RemoveOutput(t.id, 0)
      && r.value.0.titles == st.titles && r.value.0.logs == st.logs
  {
    var (st1, t) := Create(st, name, contentType, languageCode, languageLabel, initialUnitMinutes, now).value;
    RemoveInserted(st, st1, t);
  }

  /** Removing a just-appended title that has no logs gives back the previous titles and logs. */
  lemma RemoveInserted(st: Store, st': Store, t: Title)
    requires Consistent(st)
    requires st'.titles == st.titles + [t] && st'.logs == st.logs
    requires t.id >= st.nextId && t.ownerKey == LocalOwnerKey
    ensures var r := Remove(st', t.id);
      && r.Ok? && r.value.1 == RemoveOutput(t.id, 0)
      && r.value.0.titles == st.titles && r.value.0.logs == st.logs
  {
    assert FindTitle(st'.titles, t.id) == Some(t) by {
      FindLast(st.titles, t);
    }
    assert Filter(st'.titles, HasOtherTitleId(t.id)) == st.titles by {
      FilterAll(st.titles, HasOtherTitleId(t.id));
      FilterConcat(st.titles, [t], HasOtherTitleId(t.id));
      assert [t][..0] == [];
    }
    assert Filter(st.logs, IsNotLogOf(t.id)) == st.logs by {
      FilterAll(st.logs, IsNotLogOf(t.id));
    }
    assert LogsOf(st.logs, t.id) == [] by {
      LogsOfNone(st.logs, t.id);
    }
    assert Remove(st', t.id) == Ok((st'.(titles := st.titles, logs := st.logs), RemoveOutput(t.id, 0)));
  }

  /** A row appended after rows with other ids is what a lookup of its id finds. */
  lemma {:induction false} FindLast(titles: seq<Title>, t: Title)
    requires forall i :: 0 <= i < |titles| ==> titles[i].id != t.id
    ensures FindTitle(titles + [t], t.id) == Some(t)
  {
    if |titles| > 0 {
      assert (titles + [t])[1..] == titles[1..] + [t];
      FindLast(titles[1..], t);
    }
  }

  // ---------------------------------------------------------------------------
  // update
  // ---------------------------------------------------------------------------

  /**
   * `update`: every argument is optional; `defaultUnitMinutes` distinguishes
   * "not supplied" (`None`) from an explicit `null` (`Some(None)`). The
   * checks run in argument order and a failed check leaves the store as it
   * was; a new code first makes sure its language exists. Totals are never
   * touched, and `updatedAt` always moves to `now`.
   */
  function Update(st: Store, titleId: Id, name: Option<string>, languageCode: Option<string>,
                  languageLabel: Option<string>, defaultUnitMinutes: Option<Option<Number>>,
                  archived: Option<bool>, now: int): (r: Result<(Store, Title)>)
    ensures FindTitle(st.titles, titleId).None? ==> r == Err(NotFoundError(TitleNotFoundMessage))
    ensures FindTitle(st.titles, titleId).Some? && name.Some? && |Trim(name.value)| == 0 ==>
      r == Err(ValidationError(NameRequiredMessage))
    ensures && FindTitle(st.titles, titleId).Some? && (name.Some? ==> |Trim(name.value)| > 0)
            && languageCode.Some? && |Languages.NormalizeLanguageCode(languageCode.value)| == 0 ==>
      r == Err(ValidationError(Languages.CodeRequiredMessage))
    ensures && FindTitle(st.titles, titleId).Some? && (name.Some? ==> |Trim(name.value)| > 0)
            && (languageCode.Some? ==> |Languages.NormalizeLanguageCode(languageCode.value)| > 0)
            && defaultUnitMinutes.Some? && defaultUnitMinutes.value.Some?
            && !ValidMinutes(defaultUnitMinutes.value.value) ==>
      r == Err(ValidationError(DefaultMinutesMessage))
    ensures r.Ok? <==>
      && FindTitle(st.titles, titleId).Some?
      && (name.Some? ==> |Trim(name.value)| > 0)
      && (languageCode.Some? ==> |Languages.NormalizeLanguageCode(languageCode.value)| > 0)
      && (defaultUnitMinutes.Some? && defaultUnitMinutes.value.Some? ==> ValidMinutes(defaultUnitMinutes.value.value))
    ensures r.Ok? ==>
      UpdateWrites(st, titleId, name, languageCode, languageLabel, defaultUnitMinutes, archived, now, r.value.0, r.value.1)
  {
    match FindTitle(st.titles, titleId)
    case None => Err(NotFoundError(TitleNotFoundMessage))
    case Some(prior) =>
      if name.Some? && |Trim(name.value)| == 0 then Err(ValidationError(NameRequiredMessage))
      else if languageCode.Some? && |Languages.NormalizeLanguageCode(languageCode.value)| == 0 then
        Err(ValidationError(Languages.CodeRequiredMessage))
      else if defaultUnitMinutes.Some? && defaultUnitMinutes.value.Some?
              && !ValidMinutes(defaultUnitMinutes.value.value) then
        Err(ValidationError(DefaultMinutesMessage))
      else
        var t := PatchedTitle(prior, name, languageCode, defaultUnitMinutes, archived, now);
        UpdateWritesPatch(st, titleId, name, languageCode, languageLabel, defaultUnitMinutes, archived, now);
        Ok((UpdatedStore(st, languageCode, languageLabel, t, now), t))
  }

  /**
   * What a successful `update` writes: the row `t` keeps the prior row's id,
   * owner, type, totals and creation time, takes every supplied field and
   * `now` as `updatedAt`; in the store `st'` only that row changes among the
   * titles, logs and profiles stay, and the language table is exactly what
   * `ensureLanguage` makes of it for a new code, untouched without one.
   */
  ghost predicate UpdateWrites(st: Store, titleId: Id, name: Option<string>, languageCode: Option<string>,
                               languageLabel: Option<string>, defaultUnitMinutes: Option<Option<Number>>, archived: Option<bool>, now: int,
                               st': Store, t: Title)
    requires FindTitle(st.titles, titleId).Some?
  {
    var prior := FindTitle(st.titles, titleId).value;
    && t.id == titleId && t.ownerKey == prior.ownerKey && t.contentType == prior.contentType
    && t.totalUnits == prior.totalUnits && t.totalMinutes == prior.totalMinutes
    && t.createdAt == prior.createdAt && t.updatedAt == now
    && t.name == (if name.Some? then Trim(name.value) else prior.name)
    && t.languageCode == (if languageCode.Some? then Languages.NormalizeLanguageCode(languageCode.value) else prior.languageCode)
    && t.archived == (if archived.Some? then archived.value else prior.archived)
    && (defaultUnitMinutes.None? ==> t.defaultUnitMinutes == prior.defaultUnitMinutes)
    && (defaultUnitMinutes == Some(None) ==> t.defaultUnitMinutes.None?)
    && (defaultUnitMinutes.Some? && defaultUnitMinutes.value.Some? ==>
          t.defaultUnitMinutes.Some? && FromInt(t.defaultUnitMinutes.value) == defaultUnitMinutes.value.value)
    && st'.logs == st.logs && st'.profiles == st.profiles && |st'.titles| == |st.titles|
    && (forall i :: 0 <= i < |st.titles| ==>
          st'.titles[i] == if st.titles[i].id == titleId then t else st.titles[i])
    && FindTitle(st'.titles, titleId) == Some(t)
    && (languageCode.Some? ==> FindLanguage(st'.languages, t.languageCode).Some?)
    && (languageCode.Some? ==>
          && st'.languages == EnsureLanguage(st, t.languageCode, languageLabel, now).languages
          && st'.nextId == EnsureLanguage(st, t.languageCode, languageLabel, now).nextId)
    && (languageCode.None? ==> st'.languages == st.languages && st'.nextId == st.nextId)
  }

  /** The patched row and the patched store together are what `update` promises to write. */
  lemma UpdateWritesPatch(st: Store, titleId: Id, name: Option<string>, languageCode: Option<string>,
                          languageLabel: Option<string>, defaultUnitMinutes: Option<Option<Number>>,
                          archived: Option<bool>, now: int)
    requires FindTitle(st.titles, titleId).Some?
    requires defaultUnitMinutes.Some? && defaultUnitMinutes.value.Some? ==> ValidMinutes(defaultUnitMinutes.value.value)
    ensures var t := PatchedTitle(FindTitle(st.titles, titleId).value, name, languageCode, defaultUnitMinutes, archived, now);
      UpdateWrites(st, titleId, name, languageCode, languageLabel, defaultUnitMinutes, archived, now,
                   UpdatedStore(st, languageCode, languageLabel, t, now), t)
  {
  }

  /** The row `update` writes: every supplied field replaced, `updatedAt` stamped with `now`. */
  function PatchedTitle(prior: Title, name: Option<string>, languageCode: Option<string>,
                        defaultUnitMinutes: Option<Option<Number>>, archived: Option<bool>, now: int): (t: Title)
    requires defaultUnitMinutes.Some? && defaultUnitMinutes.value.Some? ==> ValidMinutes(defaultUnitMinutes.value.value)
    ensures && t.id == prior.id && t.ownerKey == prior.ownerKey && t.contentType == prior.contentType
      && t.totalUnits == prior.totalUnits && t.totalMinutes == prior.totalMinutes
      && t.createdAt == prior.createdAt && t.updatedAt == now
      && t.name == (if name.Some? then Trim(name.value) else prior.name)
      && t.languageCode == (if languageCode.Some? then Languages.NormalizeLanguageCode(languageCode.value) else prior.languageCode)
      && t.archived == (if archived.Some? then archived.value else prior.archived)
      && (defaultUnitMinutes.None? ==> t.defaultUnitMinutes == prior.defaultUnitMinutes)
      && (defaultUnitMinutes == Some(None) ==> t.defaultUnitMinutes.None?)
      && (defaultUnitMinutes.Some? && defaultUnitMinutes.value.Some? ==>
            t.defaultUnitMinutes.Some? && FromInt(t.defaultUnitMinutes.value) == defaultUnitMinutes.value.value)
  {
    prior.(
      name := if name.Some? then Trim(name.value) else prior.name,
      languageCode := if languageCode.Some? then Languages.NormalizeLanguageCode(languageCode.value) else prior.languageCode,
      defaultUnitMinutes :=
        if defaultUnitMinutes.None? then prior.defaultUnitMinutes
        else if defaultUnitMinutes.value.None? then None
        else Some(MinutesValue(defaultUnitMinutes.value.value)),
      archived := if archived.Some? then archived.value else prior.archived,
      updatedAt := now)
  }

  /** The store after `update`: the language ensured when a code is given, then the row with `t`'s id patched. */
  function UpdatedStore(st: Store, languageCode: Option<string>, languageLabel: Option<string>, t: Title, now: int): (st': Store)
    requires FindTitle(st.titles, t.id).Some?
    requires languageCode.Some? ==> t.languageCode == Languages.NormalizeLanguageCode(languageCode.value)
    ensures st'.logs == st.logs && st'.profiles == st.profiles && |st'.titles| == |st.titles|
    ensures forall i :: 0 <= i < |st.titles| ==> st'.titles[i] == if st.titles[i].id == t.id then t else st.titles[i]
    ensures FindTitle(st'.titles, t.id) == Some(t)
    ensures languageCode.Some? ==> FindLanguage(st'.languages, t.languageCode).Some?
    ensures languageCode.Some? ==>
      && st'.languages == EnsureLanguage(st, t.languageCode, languageLabel, now).languages
      && st'.nextId == EnsureLanguage(st, t.languageCode, languageLabel, now).nextId
    ensures languageCode.None? ==> st'.languages == st.languages && st'.nextId == st.nextId
  {
    var st1 := if languageCode.Some? then
        EnsureLanguage(st, Languages.NormalizeLanguageCode(languageCode.value), languageLabel, now)
      else st;
    FindAfterReplaceTitle(st.titles, t);
    st1.(titles := ReplaceTitle(st1.titles, t))
  }

  /** Updating nothing still stamps `updatedAt`, and changes nothing else. */
  lemma UpdateNothingTouches(st: Store, titleId: Id, now: int)
    requires FindTitle(st.titles, titleId).Some?
    ensures var r := Update(st, titleId, None, None, None, None, None, now);
      && r.Ok? && r.value.1 == FindTitle(st.titles, titleId).value.(updatedAt := now)
      && r.value.0.languages == st.languages && r.value.0.nextId == st.nextId
  {
  }

  /** A consistent store stays consistent under `update`: totals and logs are untouched. */
  lemma UpdatePreservesConsistency(st: Store, titleId: Id, name: Option<string>, languageCode: Option<string>,
                                   languageLabel: Option<string>, defaultUnitMinutes: Option<Option<Number>>,
                                   archived: Option<bool>, now: int)
    requires Consistent(st)
    requires Update(st, titleId, name, languageCode, languageLabel, defaultUnitMinutes, archived, now).Ok?
    ensures Consistent(Update(st, titleId, name, languageCode, languageLabel, defaultUnitMinutes, archived, now).value.0)
  {
    var prior := FindTitle(st.titles, titleId).value;
    var t := PatchedTitle(prior, name, languageCode, defaultUnitMinutes, archived, now);
    assert Update(st, titleId, name, languageCode, languageLabel, defaultUnitMinutes, archived, now)
      == Ok((UpdatedStore(st, languageCode, languageLabel, t, now), t));
    assert TotalsMatch(st.logs, prior);
    UpdatedStoreKeepsConsistent(st, languageCode, languageLabel, t, now);
  }

  /** Patching a title whose totals still match its logs, after ensuring a language, keeps the store consistent. */
  lemma UpdatedStoreKeepsConsistent(st: Store, languageCode: Option<string>, languageLabel: Option<string>, t: Title, now: int)
    requires Consistent(st)
    requires FindTitle(st.titles, t.id).Some?
    requires languageCode.Some? ==> t.languageCode == Languages.NormalizeLanguageCode(languageCode.value)
    requires TotalsMatch(st.logs, t)
    ensures Consistent(UpdatedStore(st, languageCode, languageLabel, t, now))
  {
    var st1 := if languageCode.Some? then
        EnsureLanguage(st, Languages.NormalizeLanguageCode(languageCode.value), languageLabel, now)
      else st;
    assert Consistent(st1);
    PatchKeepsConsistent(st1, st1.logs, t, st1.nextId);
    assert UpdatedStore(st, languageCode, languageLabel, t, now)
      == st1.(titles := ReplaceTitle(st1.titles, t), logs := st1.logs, nextId := st1.nextId);
  }

  // ---------------------------------------------------------------------------
  // remove
  // ---------------------------------------------------------------------------

  /** `remove`'s reply. */
  datatype RemoveOutput = RemoveOutput(titleId: Id, deletedLogs: nat)

  /**
   * `remove`: a missing title is reported, a title of another owner is
   * refused; otherwise the title and every one of its logs are deleted.
   */
  function Remove(st: Store, titleId: Id): (r: Result<(Store, RemoveOutput)>)
    ensures FindTitle(st.titles, titleId).None? <==> r == Err(NotFoundError(TitleNotFoundMessage))
    ensures FindTitle(st.titles, titleId).Some? && FindTitle(st.titles, titleId).value.ownerKey != LocalOwnerKey <==>
      r == Err(PermissionError(RemovePermissionMessage))
    ensures r.Ok? ==>
      var (st', out) := r.value;
      && out.titleId == titleId
      && out.deletedLogs == |LogsOf(st.logs, titleId)|
      && |st'.logs| + out.deletedLogs == |st.logs|
      && FindTitle(st'.titles, titleId).None?
      && (forall i :: 0 <= i < |st'.logs| ==> st'.logs[i].titleId != titleId)
      && (forall i :: 0 <= i < |st.titles| && st.titles[i].id != titleId ==> st.titles[i] in st'.titles)
      && (forall i :: 0 <= i < |st.logs| && st.logs[i].titleId != titleId ==> st.logs[i] in st'.logs)
      && st'.languages == st.languages && st'.profiles == st.profiles && st'.nextId == st.nextId
  {
    match FindTitle(st.titles, titleId)
    case None => Err(NotFoundError(TitleNotFoundMessage))
    case Some(t) =>
      if t.ownerKey != LocalOwnerKey then Err(PermissionError(RemovePermissionMessage))
      else
        FilterComplementCount(st.logs, IsLogOf(titleId), IsNotLogOf(titleId));
        var st' := st.(titles := Filter(st.titles, HasOtherTitleId(titleId)),
                       logs := Filter(st.logs, IsNotLogOf(titleId)));
        Ok((st', RemoveOutput(titleId, |LogsOf(st.logs, titleId)|)))
  }

  /**
   * Under unique ids, removing the title in row `k` succeeds when it is local,
   * and the remaining titles are exactly the others, in their stored order.
   */
  lemma RemoveKeepsOthersInOrder(st: Store, k: nat)
    requires UniqueTitleIds(st.titles) && k < |st.titles| && st.titles[k].ownerKey == LocalOwnerKey
    ensures Remove(st, st.titles[k].id).Ok?
    ensures Remove(st, st.titles[k].id).value.0.titles == st.titles[..k] + st.titles[k + 1..]
  {
    FindUniqueTitle(st.titles, k);
    FilterDropsOne(st.titles, HasOtherTitleId(st.titles[k].id), k);
  }

  /** A consistent store stays consistent when a title and its logs are removed. */
  lemma RemovePreservesConsistency(st: Store, titleId: Id)
    requires Consistent(st)
    requires Remove(st, titleId).Ok?
    ensures Consistent(Remove(st, titleId).value.0)
  {
    var st1 := st.(titles := Filter(st.titles, HasOtherTitleId(titleId)));
    FilterKeepsUniqueTitleIds(st.titles, HasOtherTitleId(titleId));
    assert Consistent(st1);
    DropLogsKeepsConsistent(st1, IsNotLogOf(titleId));
    assert Remove(st, titleId).value.0 == st1.(logs := Filter(st1.logs, IsNotLogOf(titleId)));
  }
}

=== FILE: tracking.dfy ===
/** Client-side tracking helpers: unit-minute resolution and title totals. */
module Tracking {
  import opened Wrappers
  import opened JsNumber
  import opened Constants

  const RequiredMessage: string := "Unit minutes are required for the first entry."
  const IntegerMessage: string := "Unit minutes must be an integer."
  const BoundsMessage: string := "Unit minutes must be between 1 and 400."

  /**
   * `resolveUnitMinutes`: the explicit value wins whenever it is present
   * (`??`), otherwise the fallback; the chosen value must be an integer
   * within the unit bounds.
   */
  function ResolveUnitMinutes(explicit: Option<Number>, fallback: Option<Number>): (r: Result<int>)
    ensures explicit.None? && fallback.None? <==> r == Err(ValidationError(RequiredMessage))
    ensures explicit.Some? ==>
      (r.Ok? <==> IsInteger(explicit.value) && InUnitBounds(IntValue(explicit.value)))
    ensures explicit.None? && fallback.Some? ==>
      (r.Ok? <==> IsInteger(fallback.value) && InUnitBounds(IntValue(fallback.value)))
    ensures r.Ok? ==> InUnitBounds(r.value)
    ensures r.Ok? && explicit.Some? ==> FromInt(r.value) == explicit.value
    ensures r.Ok? && explicit.None? ==> fallback.Some? && FromInt(r.value) == fallback.value
    ensures explicit.Some? && !IsInteger(explicit.value) ==> r == Err(ValidationError(IntegerMessage))
    ensures explicit.None? && fallback.Some? && !IsInteger(fallback.value) ==>
      r == Err(ValidationError(IntegerMessage))
    ensures explicit.Some? && IsInteger(explicit.value) && !InUnitBounds(IntValue(explicit.value)) ==>
      r == Err(ValidationError(BoundsMessage))
    ensures explicit.None? && fallback.Some? && IsInteger(fallback.value) && !InUnitBounds(IntValue(fallback.value)) ==>
      r == Err(ValidationError(BoundsMessage))
  {
    var minutes := explicit.OrElse(fallback);
    if minutes.None? then Err(ValidationError(RequiredMessage))
    else if !IsInteger(minutes.value) then Err(ValidationError(IntegerMessage))
    else if IntValue(minutes.value) < MinUnitMinutes || IntValue(minutes.value) > MaxUnitMinutes then
      Err(ValidationError(BoundsMessage))
    else Ok(IntValue(minutes.value))
  }

  /** The worked cases of the resolver's unit tests, plus the edge cases around the bounds. */
  lemma ResolveExamples()
    ensures ResolveUnitMinutes(None, None).Err?
    ensures ResolveUnitMinutes(None, Some(Finite(30.0))) == Ok(30)
    ensures ResolveUnitMinutes(Some(Finite(45.0)), Some(Finite(30.0))) == Ok(45)
    ensures ResolveUnitMinutes(Some(Finite(0.0)), Some(Finite(30.0))) == Err(ValidationError(BoundsMessage))
    ensures ResolveUnitMinutes(Some(Finite(1.0)), None) == Ok(1)
    ensures ResolveUnitMinutes(Some(Finite(400.0)), None) == Ok(400)
    ensures ResolveUnitMinutes(Some(Finite(401.0)), None) == Err(ValidationError(BoundsMessage))
    ensures ResolveUnitMinutes(Some(Finite(2.5)), None) == Err(ValidationError(IntegerMessage))
    ensures ResolveUnitMinutes(Some(NaN), Some(Finite(30.0))) == Err(ValidationError(IntegerMessage))
  {
    assert (2.5).Floor == 2;
  }

  /** One `{units, totalMinutes}` element of the totals input. */
  datatype TotalsEntry = TotalsEntry(units: int, totalMinutes: int)

  datatype Totals = Totals(totalUnits: int, totalMinutes: int)

  /** Reference sum of units, defined element by element from the end. */
  function SumUnits(s: seq<TotalsEntry>): int {
    if |s| == 0 then 0 else SumUnits(s[..|s| - 1]) + s[|s| - 1].units
  }

  /** Reference sum of minutes, defined element by element from the end. */
  function SumMinutes(s: seq<TotalsEntry>): int {
    if |s| == 0 then 0 else SumMinutes(s[..|s| - 1]) + s[|s| - 1].totalMinutes
  }

  /** `computeTitleTotals`: the left fold of the source, equal to the reference sums. */
  method ComputeTitleTotals(logs: seq<TotalsEntry>) returns (totals: Totals)
    ensures totals.totalUnits == SumUnits(logs)
    ensures totals.totalMinutes == SumMinutes(logs)
  {
    totals := Totals(0, 0);
    for i := 0 to |logs|
      invariant totals.totalUnits == SumUnits(logs[..i])
      invariant totals.totalMinutes == SumMinutes(logs[..i])
    {
      assert logs[..i + 1][..i] == logs[..i];
      totals := Totals(totals.totalUnits + logs[i].units, totals.totalMinutes + logs[i].totalMinutes);
    }
    assert logs[..|logs|] == logs;
  }

  /** Totals are additive over concatenation of log lists. */
  lemma {:induction false} SumsConcat(a: seq<TotalsEntry>, b: seq<TotalsEntry>)
    ensures SumUnits(a + b) == SumUnits(a) + SumUnits(b)
    ensures SumMinutes(a + b) == SumMinutes(a) + SumMinutes(b)
  {
    if |b| > 0 {
      var b' := b[..|b| - 1];
      assert (a + b)[..|a + b| - 1] == a + b';
      SumsConcat(a, b');
    } else {
      assert a + b == a;
    }
  }

  /** The worked case of the totals unit test, and the empty history. */
  lemma TotalsExamples()
    ensures SumUnits([]) == 0 && SumMinutes([]) == 0
    ensures SumUnits([TotalsEntry(1, 30), TotalsEntry(2, 90)]) == 3
    ensures SumMinutes([TotalsEntry(1, 30), TotalsEntry(2, 90)]) == 120
  {
    var s := [TotalsEntry(1, 30), TotalsEntry(2, 90)];
    assert s[..1] == [TotalsEntry(1, 30)];
    assert s[..1][..0] == [];
  }
}

=== FILE: watch_logs.dfy ===
/**
 * Watch-log mutations and queries: logging a session, deleting one, and the
 * recent-activity window. Each mutation recomputes the affected title's
 * aggregates from its logs and patches the title in the same step.
 */
module WatchLogs {
  import opened Wrappers
  import opened JsNumber
  import opened Constants
  import opened Seqs
  import opened Store
  import Tracking

  const UnitsMessage: string := "Units must be an integer greater than 0."
  const FirstEntryMessage: string := "Unit minutes are required for a title's first watch entry."
  const UnitMinutesMessage: string := "Unit minutes must be an integer between 1 and 400."
  const LogNotFoundMessage: string := "Watch log not found."

  /** The default page size of the recent-activity query. */
  const DefaultRecentLimit: nat := 20

  // ---------------------------------------------------------------------------
  // Newest-first order
  // ---------------------------------------------------------------------------

  /** `a` is at least as recent as `b`: later `loggedAt`, ties broken by later creation. */
  predicate LaterOrSame(a: WatchLog, b: WatchLog) {
    a.loggedAt > b.loggedAt || (a.loggedAt == b.loggedAt && a.creationOrder >= b.creationOrder)
  }

  /**
   * The comparator `(a, b) => b.loggedAt - a.loggedAt || b._creationTime - a._creationTime`
   * read as "may come first", which is also the descending order of the
   * `by_owner_logged_at` index.
   */
  function NewestFirst(): (WatchLog, WatchLog) -> bool {
    (a: WatchLog, b: WatchLog) => LaterOrSame(a, b)
  }

  lemma NewestFirstIsTotalPreorder()
    ensures TotalPreorder(NewestFirst())
  {
  }

  /** `x` is a log of the list that is at least as recent as every log of it. */
  predicate IsLatest(x: WatchLog, logs: seq<WatchLog>) {
    x in logs && forall i :: 0 <= i < |logs| ==> LaterOrSame(x, logs[i])
  }

  /** With distinct creation counters there is at most one latest log. */
  lemma LatestUnique(x: WatchLog, y: WatchLog, logs: seq<WatchLog>)
    requires UniqueCreationOrders(logs)
    requires IsLatest(x, logs) && IsLatest(y, logs)
    ensures x == y
  {
    var i :| 0 <= i < |logs| && logs[i] == x;
    var j :| 0 <= j < |logs| && logs[j] == y;
    assert LaterOrSame(x, logs[j]) && LaterOrSame(y, logs[i]);
  }

  /** `[...logs].sort(newest first)[0]`. */
  function LatestLog(logs: seq<WatchLog>): (r: Option<WatchLog>)
    ensures r.None? <==> |logs| == 0
    ensures r.Some? ==> IsLatest(r.value, logs)
  {
    if |logs| == 0 then None
    else
      NewestFirstIsTotalPreorder();
      SortHeadLeast(logs, NewestFirst());
      Some(Sort(logs, NewestFirst())[0])
  }

  // ---------------------------------------------------------------------------
  // recalculateTitleAggregates
  // ---------------------------------------------------------------------------

  datatype Aggregates = Aggregates(totalUnits: nat, totalMinutes: nat, defaultUnitMinutes: Option<nat>)

  /**
   * `recalculateTitleAggregates`: sums over the title's logs, and the unit
   * minutes of its most recent log (none without logs).
   */
  function RecalculateTitleAggregates(logs: seq<WatchLog>, titleId: Id): (r: Aggregates)
    ensures r.totalUnits == UnitsSum(LogsOf(logs, titleId))
    ensures r.totalMinutes == MinutesSum(LogsOf(logs, titleId))
    ensures r.defaultUnitMinutes.None? <==> forall i :: 0 <= i < |logs| ==> logs[i].titleId != titleId
    ensures r.defaultUnitMinutes.Some? ==>
      exists x :: IsLatest(x, LogsOf(logs, titleId)) && x.unitMinutes == r.defaultUnitMinutes.value
  {
    var mine := LogsOf(logs, titleId);
    var latest := LatestLog(mine);
    if latest.None? then
      assert forall i :: 0 <= i < |logs| ==> logs[i].titleId != titleId by {
        forall i | 0 <= i < |logs| ensures logs[i].titleId != titleId {
          assert !IsLogOf(titleId)(logs[i]);
        }
      }
      Aggregates(UnitsSum(mine), MinutesSum(mine), None)
    else
      assert mine[0] in logs;
      Aggregates(UnitsSum(mine), MinutesSum(mine), Some(latest.value.unitMinutes))
  }

  /** The aggregates read only the title's own logs. */
  lemma RecalculateIsLocal(logs: seq<WatchLog>, titleId: Id)
    ensures RecalculateTitleAggregates(LogsOf(logs, titleId), titleId) == RecalculateTitleAggregates(logs, titleId)
  {
    FilterIdempotent(logs, IsLogOf(titleId));
  }

  /** One more log of the title adds exactly its units and minutes to the totals. */
  lemma RecalculateAfterAppend(logs: seq<WatchLog>, l: WatchLog)
    ensures var before := RecalculateTitleAggregates(logs, l.titleId);
      var after := RecalculateTitleAggregates(logs + [l], l.titleId);
      after.totalUnits == before.totalUnits + l.units && after.totalMinutes == before.totalMinutes + l.totalMinutes
  {
    LogsOfAppendOwn(logs, l);
    SumsAppend(LogsOf(logs, l.titleId), [l]);
    SumsSingleton(l);
  }

  // ---------------------------------------------------------------------------
  // add
  // ---------------------------------------------------------------------------

  /**
   * The unit-minute step of `add`: the explicit minutes, else the title's
   * stored default; absent both, or not an integer within the bounds, fails.
   */
  function ResolveLogMinutes(explicit: Option<Number>, stored: Option<nat>): (r: Result<nat>)
    ensures explicit.None? && stored.None? <==> r == Err(ValidationError(FirstEntryMessage))
    ensures explicit.Some? ==> (r.Ok? <==> IsInteger(explicit.value) && InUnitBounds(IntValue(explicit.value)))
    ensures explicit.Some? && r.Ok? ==> FromInt(r.value) == explicit.value
    ensures explicit.None? && stored.Some? ==> (r.Ok? <==> InUnitBounds(stored.value))
    ensures explicit.None? && r.Ok? ==> stored == Some(r.value)
    ensures r.Err? && r != Err(ValidationError(FirstEntryMessage)) ==> r == Err(ValidationError(UnitMinutesMessage))
  {
    var resolved := if explicit.Some? then explicit else if stored.Some? then Some(FromInt(stored.value)) else None;
    if resolved.None? then Err(ValidationError(FirstEntryMessage))
    else if !IsInteger(resolved.value) || IntValue(resolved.value) < MinUnitMinutes || IntValue(resolved.value) > MaxUnitMinutes then
      Err(ValidationError(UnitMinutesMessage))
    else Ok(IntValue(resolved.value))
  }

  /** The server-side step accepts exactly what the client-side resolver accepts, with the same minutes. */
  lemma ResolveAgreesWithClient(explicit: Option<Number>, stored: Option<nat>)
    ensures var fallback := if stored.Some? then Some(FromInt(stored.value)) else None;
      && (ResolveLogMinutes(explicit, stored).Ok? <==> Tracking.ResolveUnitMinutes(explicit, fallback).Ok?)
      && (ResolveLogMinutes(explicit, stored).Ok? ==>
            ResolveLogMinutes(explicit, stored).value == Tracking.ResolveUnitMinutes(explicit, fallback).value)
  {
  }

  /** `add`'s reply: the new log's id and the recalculated aggregates. */
  datatype AddOutput = AddOutput(logId: Id, aggregates: Aggregates)

  /** Whether `units` is a whole number of at least one. */
  predicate ValidUnits(units: Number) {
    IsInteger(units) && IntValue(units) >= 1
  }

  /**
   * `add`: validates in the source's order, appends the log, recomputes the
   * title's totals, stores the just-resolved minutes as its default, and
   * replies with the recalculated aggregates.
   */
  function Add(st: Store, titleId: Id, units: Number, unitMinutes: Option<Number>, loggedAt: Option<int>, now: int)
    : (r: Result<(Store, AddOutput)>)
    ensures FindTitle(st.titles, titleId).None? ==> r == Err(NotFoundError(TitleNotFoundMessage))
    ensures FindTitle(st.titles, titleId).Some? && !ValidUnits(units) ==> r == Err(ValidationError(UnitsMessage))
    ensures FindTitle(st.titles, titleId).Some? && ValidUnits(units) ==>
      var resolved := ResolveLogMinutes(unitMinutes, FindTitle(st.titles, titleId).value.defaultUnitMinutes);
      && (resolved.Err? ==> r == Err(resolved.error))
      && (resolved.Ok? ==> r.Ok?)
    ensures r.Ok? ==>
      var (st', out) := r.value;
      var title := FindTitle(st.titles, titleId).value;
      var minutes := ResolveLogMinutes(unitMinutes, title.defaultUnitMinutes).value;
      && ValidUnits(units)
      && st'.logs == st.logs + [WatchLog(st.nextId, st.nextId, LocalOwnerKey, titleId, IntValue(units), minutes,
                                         IntValue(units) * minutes, loggedAt.OrElse(Some(now)).value, now)]
      && out.logId == st.nextId
      && out.aggregates == RecalculateTitleAggregates(st'.logs, titleId)
      && st'.nextId == st.nextId + 1
      && st'.languages == st.languages && st'.profiles == st.profiles
      && |st'.titles| == |st.titles|
      && (forall i :: 0 <= i < |st.titles| && st.titles[i].id != titleId ==> st'.titles[i] == st.titles[i])
      && FindTitle(st'.titles, titleId) == Some(title.(
           totalUnits := out.aggregates.totalUnits,
           totalMinutes := out.aggregates.totalMinutes,
           defaultUnitMinutes := Some(minutes),
           updatedAt := now))
  {
    var found := FindTitle(st.titles, titleId);
    if found.None? then Err(NotFoundError(TitleNotFoundMessage))
    else
      var title := found.value;
      if !IsInteger(units) || IntValue(units) < 1 then Err(ValidationError(UnitsMessage))
      else
        var minutes :- ResolveLogMinutes(unitMinutes, title.defaultUnitMinutes);
        var count: nat := IntValue(units);
        var id := st.nextId;
        var log := WatchLog(id, id, LocalOwnerKey, title.id, count, minutes, count * minutes, loggedAt.OrElse(Some(now)).value, now);
        var (st', aggregates) := AppendLog(st, title, log, now);
        Ok((st', AddOutput(id, aggregates)))
  }

  /**
   * The commit step of `add`: insert the log, then patch its title with the
   * recomputed totals and the log's minutes as the new default.
   */
  function AppendLog(st: Store, title: Title, log: WatchLog, now: int): (r: (Store, Aggregates))
    requires FindTitle(st.titles, title.id) == Some(title)
    requires log.titleId == title.id && log.id == st.nextId
    ensures r.0.logs == st.logs + [log]
    ensures r.0.nextId == st.nextId + 1 && r.0.languages == st.languages && r.0.profiles == st.profiles
    ensures r.1 == RecalculateTitleAggregates(r.0.logs, title.id)
    ensures |r.0.titles| == |st.titles|
    ensures forall i :: 0 <= i < |st.titles| && st.titles[i].id != title.id ==> r.0.titles[i] == st.titles[i]
    ensures FindTitle(r.0.titles, title.id) == Some(title.(
      totalUnits := r.1.totalUnits,
      totalMinutes := r.1.totalMinutes,
      defaultUnitMinutes := Some(log.unitMinutes),
      updatedAt := now))
  {
    var logs := st.logs + [log];
    var aggregates := RecalculateTitleAggregates(logs, title.id);
    var patched := title.(
      totalUnits := aggregates.totalUnits,
      totalMinutes := aggregates.totalMinutes,
      defaultUnitMinutes := Some(log.unitMinutes),
      updatedAt := now);
    FindAfterReplaceTitle(st.titles, patched);
    (st.(titles := ReplaceTitle(st.titles, patched), logs := logs, nextId := log.id + 1), aggregates)
  }

  /** The commit step keeps the store consistent when the new log is well formed. */
  lemma AppendLogPreservesConsistency(st: Store, title: Title, log: WatchLog, now: int)
    requires Consistent(st)
    requires FindTitle(st.titles, title.id) == Some(title)
    requires log.titleId == title.id && log.id == st.nextId && log.creationOrder == st.nextId
    requires WellFormedLog(log)
    ensures Consistent(AppendLog(st, title, log, now).0)
  {
    var logs := st.logs + [log];
    var aggregates := RecalculateTitleAggregates(logs, title.id);
    var patched := title.(
      totalUnits := aggregates.totalUnits,
      totalMinutes := aggregates.totalMinutes,
      defaultUnitMinutes := Some(log.unitMinutes),
      updatedAt := now);
    assert AppendLog(st, title, log, now).0 == st.(titles := ReplaceTitle(st.titles, patched), logs := logs, nextId := log.id + 1);
    forall i | 0 <= i < |st.titles| && st.titles[i].id != patched.id
      ensures LogsOf(logs, st.titles[i].id) == LogsOf(st.logs, st.titles[i].id)
    {
      LogsOfAppendOther(st.logs, log, st.titles[i].id);
    }
    assert title in st.titles;
    AppendLogKeepsRows(st, log);
    PatchKeepsConsistent(st, logs, patched, log.id + 1);
  }

  /** `add` keeps every title's totals equal to the sums over its logs, and the ids fresh. */
  lemma AddPreservesConsistency(st: Store, titleId: Id, units: Number, unitMinutes: Option<Number>, loggedAt: Option<int>, now: int)
    requires Consistent(st)
    requires Add(st, titleId, units, unitMinutes, loggedAt, now).Ok?
    ensures Consistent(Add(st, titleId, units, unitMinutes, loggedAt, now).value.0)
  {
    var title := FindTitle(st.titles, titleId).value;
    var minutes := ResolveLogMinutes(unitMinutes, title.defaultUnitMinutes).value;
    var count: nat := IntValue(units);
    var log := WatchLog(st.nextId, st.nextId, LocalOwnerKey, title.id, count, minutes, count * minutes, loggedAt.OrElse(Some(now)).value, now);
    AppendLogPreservesConsistency(st, title, log, now);
  }

  /** Under consistency, `add` grows the title's totals by exactly the new log. */
  lemma AddIncrementsTotals(st: Store, titleId: Id, units: Number, unitMinutes: Option<Number>, loggedAt: Option<int>, now: int)
    requires Consistent(st)
    requires Add(st, titleId, units, unitMinutes, loggedAt, now).Ok?
    ensures var (st', out) := Add(st, titleId, units, unitMinutes, loggedAt, now).value;
      var before := FindTitle(st.titles, titleId).value;
      var after := FindTitle(st'.titles, titleId).value;
      var log := st'.logs[|st'.logs| - 1];
      && after.totalUnits == before.totalUnits + log.units
      && after.totalMinutes == before.totalMinutes + log.totalMinutes
  {
    var (st', out) := Add(st, titleId, units, unitMinutes, loggedAt, now).value;
    var before := FindTitle(st.titles, titleId).value;
    var log := st'.logs[|st'.logs| - 1];
    assert st'.logs == st.logs + [log];
    assert TotalsMatch(st.logs, before);
    RecalculateAfterAppend(st.logs, log);
  }

  /**
   * The stored default and the reply's default can disagree: a session
   * logged in the past stores its minutes on the title, while the reply
   * carries the minutes of the title's most recent session.
   */
  lemma AddDefaultDivergence()
    ensures var older := WatchLog(1, 1, LocalOwnerKey, 0, 1, 45, 45, 2000, 2000);
      var title := Title(0, LocalOwnerKey, "Borgen", Series, "da", Some(45), 1, 45, false, 0, 2000);
      var st := Store([title], [older], [], [], 2);
      var r := Add(st, 0, Finite(1.0), Some(Finite(30.0)), Some(1000), 3000);
      && r.Ok?
      && FindTitle(r.value.0.titles, 0).value.defaultUnitMinutes == Some(30)
      && r.value.1.aggregates.defaultUnitMinutes == Some(45)
  {
    var older := WatchLog(1, 1, LocalOwnerKey, 0, 1, 45, 45, 2000, 2000);
    var title := Title(0, LocalOwnerKey, "Borgen", Series, "da", Some(45), 1, 45, false, 0, 2000);
    var st := Store([title], [older], [], [], 2);
    var r := Add(st, 0, Finite(1.0), Some(Finite(30.0)), Some(1000), 3000);
    var added := WatchLog(2, 2, LocalOwnerKey, 0, 1, 30, 30, 1000, 3000);
    assert r.value.0.logs == [older, added];
    LogsOfAppendOwn([older], added);
    LogsOfAppendOwn([], older);
    assert LogsOf(r.value.0.logs, 0) == [older, added];
    var agg := r.value.1.aggregates;
    var x :| IsLatest(x, [older, added]) && x.unitMinutes == agg.defaultUnitMinutes.value;
    assert LaterOrSame(x, older);
  }

  // ---------------------------------------------------------------------------
  // remove
  // ---------------------------------------------------------------------------

  /** `remove`'s reply. */
  datatype RemoveOutput =
    | DetachedLog(titleId: Id)                         // `{titleId, totalUnits: 0, totalMinutes: 0}`
    | Recalculated(titleId: Id, aggregates: Aggregates) // `{titleId, ...aggregates}`
  {
    function TotalUnits(): nat {
      if DetachedLog? then 0 else aggregates.totalUnits
    }

    function TotalMinutes(): nat {
      if DetachedLog? then 0 else aggregates.totalMinutes
    }
  }

  /**
   * `remove`: deletes the log, then, if its title still exists, recomputes
   * the title's totals and default from the remaining logs.
   */
  function Remove(st: Store, logId: Id, now: int): (r: Result<(Store, RemoveOutput)>)
    ensures FindLog(st.logs, logId).None? <==> r == Err(NotFoundError(LogNotFoundMessage))
    ensures r.Ok? ==>
      var (st', out) := r.value;
      var log := FindLog(st.logs, logId).value;
      && st'.logs == Filter(st.logs, HasOtherLogId(logId))
      && (forall i :: 0 <= i < |st'.logs| ==> st'.logs[i].id != logId)
      && (forall i :: 0 <= i < |st.logs| && st.logs[i].id != logId ==> st.logs[i] in st'.logs)
      && st'.nextId == st.nextId && st'.languages == st.languages && st'.profiles == st.profiles
      && out.titleId == log.titleId
      && |st'.titles| == |st.titles|
      && (forall i :: 0 <= i < |st.titles| && st.titles[i].id != log.titleId ==> st'.titles[i] == st.titles[i])
      && (FindTitle(st.titles, log.titleId).None? <==> out.DetachedLog?)
      && (out.DetachedLog? ==> st'.titles == st.titles && out.TotalUnits() == 0 && out.TotalMinutes() == 0)
      && (out.Recalculated? ==>
            && out.aggregates == RecalculateTitleAggregates(st'.logs, log.titleId)
            && FindTitle(st'.titles, log.titleId) == Some(FindTitle(st.titles, log.titleId).value.(
                 totalUnits := out.aggregates.totalUnits,
                 totalMinutes := out.aggregates.totalMinutes,
                 defaultUnitMinutes := out.aggregates.defaultUnitMinutes,
                 updatedAt := now)))
  {
    var found := FindLog(st.logs, logId);
    if found.None? then Err(NotFoundError(LogNotFoundMessage))
    else
      var log := found.value;
      var logs := Filter(st.logs, HasOtherLogId(logId));
      assert forall i :: 0 <= i < |logs| ==> logs[i].id != logId by {
        forall i | 0 <= i < |logs| ensures logs[i].id != logId {
          assert HasOtherLogId(logId)(logs[i]);
        }
      }
      var owner := FindTitle(st.titles, log.titleId);
      if owner.None? then Ok((st.(logs := logs), DetachedLog(log.titleId)))
      else
        var title := owner.value;
        var aggregates := RecalculateTitleAggregates(logs, title.id);
        var patched := title.(
          totalUnits := aggregates.totalUnits,
          totalMinutes := aggregates.totalMinutes,
          defaultUnitMinutes := aggregates.defaultUnitMinutes,
          updatedAt := now);
        FindAfterReplaceTitle(st.titles, patched);
        Ok((st.(titles := ReplaceTitle(st.titles, patched), logs := logs), Recalculated(title.id, aggregates)))
  }

  /** Under unique log ids, the only row carrying a found id is the found row. */
  lemma FoundLogIsOnly(logs: seq<WatchLog>, logId: Id, i: int)
    requires UniqueLogIds(logs)
    requires FindLog(logs, logId).Some?
    requires 0 <= i < |logs| && logs[i].id == logId
    ensures logs[i] == FindLog(logs, logId).value
  {
    var found := FindLog(logs, logId).value;
    var j :| 0 <= j < |logs| && logs[j] == found;
  }

  /** `remove` keeps every title's totals equal to the sums over its logs. */
  lemma RemovePreservesConsistency(st: Store, logId: Id, now: int)
    requires Consistent(st)
    requires Remove(st, logId, now).Ok?
    ensures Consistent(Remove(st, logId, now).value.0)
  {
    var log := FindLog(st.logs, logId).value;
    var keep := HasOtherLogId(logId);
    var logs := Filter(st.logs, keep);
    forall k | 0 <= k < |st.logs| && st.logs[k].titleId != log.titleId
      ensures keep(st.logs[k])
    {
      if st.logs[k].id == logId {
        FoundLogIsOnly(st.logs, logId, k);
      }
    }
    match FindTitle(st.titles, log.titleId)
    case None =>
      DropLogsKeepsConsistent(st, keep);
    case Some(title) =>
      var aggregates := RecalculateTitleAggregates(logs, title.id);
      var patched := title.(
        totalUnits := aggregates.totalUnits,
        totalMinutes := aggregates.totalMinutes,
        defaultUnitMinutes := aggregates.defaultUnitMinutes,
        updatedAt := now);
      assert Remove(st, logId, now).value.0 == st.(titles := ReplaceTitle(st.titles, patched), logs := logs);
      forall i | 0 <= i < |st.titles| && st.titles[i].id != patched.id
        ensures LogsOf(logs, st.titles[i].id) == LogsOf(st.logs, st.titles[i].id)
      {
        LogsOfAfterFilter(st.logs, keep, st.titles[i].id);
      }
      DropLogsKeepsRows(st, keep);
      PatchKeepsConsistent(st, logs, patched, st.nextId);
  }

  /**
   * Logging a session and deleting it again restores the log table and the
   * title's totals.
   */
  lemma AddThenRemove(st: Store, titleId: Id, units: Number, unitMinutes: Option<Number>, loggedAt: Option<int>, now: int, later: int)
    requires Consistent(st)
    requires Add(st, titleId, units, unitMinutes, loggedAt, now).Ok?
    ensures var (st1, out) := Add(st, titleId, units, unitMinutes, loggedAt, now).value;
      var r := Remove(st1, out.logId, later);
      && r.Ok?
      && r.value.0.logs == st.logs
      && r.value.1.Recalculated?
      && r.value.1.TotalUnits() == FindTitle(st.titles, titleId).value.totalUnits
      && r.value.1.TotalMinutes() == FindTitle(st.titles, titleId).value.totalMinutes
  {
    var (st1, out) := Add(st, titleId, units, unitMinutes, loggedAt, now).value;
    var log := st1.logs[|st1.logs| - 1];
    assert st1.logs == st.logs + [log];
    assert FindLog(st1.logs, out.logId).Some? by {
      assert st1.logs[|st1.logs| - 1].id == out.logId;
    }
    var keep := HasOtherLogId(out.logId);
    FilterConcat(st.logs, [log], keep);
    assert [log][..0] == [];
    FilterAll(st.logs, keep);
    AddPreservesConsistency(st, titleId, units, unitMinutes, loggedAt, now);
    FoundLogIsOnly(st1.logs, out.logId, |st1.logs| - 1);
    var before := FindTitle(st.titles, titleId).value;
    assert TotalsMatch(st.logs, before);
    assert FindTitle(st1.titles, titleId).Some?;
  }

  // ---------------------------------------------------------------------------
  // listRecent
  // ---------------------------------------------------------------------------

  /**
   * The page size: `Math.floor(limit)` for a positive limit, 20 otherwise
   * (absent, zero, negative or NaN); `None` stands for an infinite limit.
   */
  function EffectiveLimit(limit: Option<Number>): (r: Option<nat>)
    ensures r.None? <==> limit == Some(Infinity)
    ensures limit.Some? && limit.value.Finite? && limit.value.value > 0.0 ==>
      r.Some? && r.value as real <= limit.value.value < r.value as real + 1.0
    ensures !(limit.Some? && (limit.value.Infinity? || (limit.value.Finite? && limit.value.value > 0.0))) ==>
      r == Some(DefaultRecentLimit)
  {
    match limit
    case Some(Finite(x)) => if x > 0.0 then Some(x.Floor) else Some(DefaultRecentLimit)
    case Some(Infinity) => None
    case _ => Some(DefaultRecentLimit)
  }

  /**
   * The owner's logs in descending `by_owner_logged_at` order, cut to the
   * page size.
   */
  function RecentWindow(logs: seq<WatchLog>, limit: Option<nat>): (r: seq<WatchLog>)
    ensures limit.Some? ==> |r| <= limit.value
    ensures forall i :: 0 <= i < |r| ==> r[i] in logs && r[i].ownerKey == LocalOwnerKey
  {
    var owned := Filter(logs, IsOwnedBy(LocalOwnerKey));
    var sorted := Sort(owned, NewestFirst());
    var r := if limit.Some? then Take(sorted, limit.value) else sorted;
    assert forall i :: 0 <= i < |r| ==> r[i] in owned by {
      forall i | 0 <= i < |r| ensures r[i] in owned {
        assert r[i] == sorted[i];
        assert sorted[i] in multiset(owned);
      }
    }
    r
  }

  /** The window's logs, seen as a cut of the sorted owned logs. */
  lemma RecentWindowShape(logs: seq<WatchLog>, limit: Option<nat>)
    ensures var sorted := Sort(Filter(logs, IsOwnedBy(LocalOwnerKey)), NewestFirst());
      RecentWindow(logs, limit) == Take(sorted, if limit.Some? then limit.value else |sorted|)
  {
  }

  /**
   * The window is the newest part of the owner's logs: newest first, as long
   * as the limit allows, and no owned log left out is newer than one kept.
   */
  lemma RecentWindowIsNewest(logs: seq<WatchLog>, limit: Option<nat>)
    ensures var w := RecentWindow(logs, limit);
      var owned := Filter(logs, IsOwnedBy(LocalOwnerKey));
      && |w| == (if limit.Some? && limit.value < |owned| then limit.value else |owned|)
      && (forall i, j :: 0 <= i < j < |w| ==> LaterOrSame(w[i], w[j]))
      && (forall i, k :: 0 <= i < |w| && 0 <= k < |logs| && logs[k].ownerKey == LocalOwnerKey && logs[k] !in w ==>
            LaterOrSame(w[i], logs[k]))
  {
    var owned := Filter(logs, IsOwnedBy(LocalOwnerKey));
    var sorted := Sort(owned, NewestFirst());
    var n := if limit.Some? then limit.value else |sorted|;
    var w := Take(sorted, n);
    RecentWindowShape(logs, limit);
    NewestFirstIsTotalPreorder();
    SortSorted(owned, NewestFirst());
    SortedPrefix(NewestFirst(), sorted, |w|);
    SortWindowLeast(owned, NewestFirst(), n);
    forall i, k | 0 <= i < |w| && 0 <= k < |logs| && logs[k].ownerKey == LocalOwnerKey && logs[k] !in w
      ensures LaterOrSame(w[i], logs[k])
    {
      assert IsOwnedBy(LocalOwnerKey)(logs[k]);
      var p :| 0 <= p < |owned| && owned[p] == logs[k];
      assert NewestFirst()(w[i], owned[p]);
    }
  }

  /** A log with its title's display fields. */
  datatype RecentLog = RecentLog(log: WatchLog, titleName: string, contentType: ContentType, languageCode: string)

  const UnknownTitleName: string := "Unknown title"
  const UnknownLanguageCode: string := "unknown"

  /** Attaches the title's name, kind and language, or the fallbacks when the title is gone. */
  function Enrich(titles: seq<Title>, log: WatchLog): (r: RecentLog)
    ensures r.log == log
    ensures FindTitle(titles, log.titleId).None? ==>
      r.titleName == UnknownTitleName && r.contentType == Series && r.languageCode == UnknownLanguageCode
    ensures FindTitle(titles, log.titleId).Some? ==>
      var t := FindTitle(titles, log.titleId).value;
      r.titleName == t.name && r.contentType == t.contentType && r.languageCode == t.languageCode
  {
    match FindTitle(titles, log.titleId)
    case None => RecentLog(log, UnknownTitleName, Series, UnknownLanguageCode)
    case Some(t) => RecentLog(log, t.name, t.contentType, t.languageCode)
  }

  /** `listRecent`: the recent window, each log enriched from the title it names. */
  function ListRecent(st: Store, limit: Option<Number>): (r: seq<RecentLog>)
    ensures |r| == |RecentWindow(st.logs, EffectiveLimit(limit))|
    ensures forall i :: 0 <= i < |r| ==> r[i] == Enrich(st.titles, RecentWindow(st.logs, EffectiveLimit(limit))[i])
  {
    var w := RecentWindow(st.logs, EffectiveLimit(limit));
    seq(|w|, i requires 0 <= i < |w| => Enrich(st.titles, w[i]))
  }

  /** Worked cases of the page size. */
  lemma LimitExamples()
    ensures EffectiveLimit(None) == Some(20)
    ensures EffectiveLimit(Some(Finite(5.0))) == Some(5)
    ensures EffectiveLimit(Some(Finite(7.9))) == Some(7)
    ensures EffectiveLimit(Some(Finite(0.5))) == Some(0)
    ensures EffectiveLimit(Some(Finite(0.0))) == Some(20)
    ensures EffectiveLimit(Some(Finite(-3.0))) == Some(20)
    ensures EffectiveLimit(Some(NaN)) == Some(20)
  {
    assert (7.9).Floor == 7;
    assert (0.5).Floor == 0;
  }
}

=== FILE: wrappers.dfy ===
/** Optional values and the error-carrying result of every store operation. */
module Wrappers {

  /** `T | null | undefined` in the source: both absent forms collapse to None. */
  datatype Option<+T> = None | Some(value: T) {
    /** The `??` operator: this value if present, else the fallback. */
    function OrElse(fallback: Option<T>): Option<T> {
      if Some? then this else fallback
    }
  }

  /** The error kinds the backend raises; each carries the message the source throws. */
  datatype Failure =
    | ValidationError(message: string)
    | NotFoundError(message: string)
    | PermissionError(message: string)
    | ConfigurationError(message: string)

  /** An operation either commits with a value or fails as a whole (the transaction rolls back). */
  datatype Result<+T> = Ok(value: T) | Err(error: Failure) {
    predicate IsFailure() {
      Err?
    }

    function PropagateFailure<U>(): Result<U>
      requires Err?
    {
      Err(error)
    }

    function Extract(): T
      requires Ok?
    {
      value
    }
  }
}
